=== FILE: README.md ===
# Research agent core, modelled in Dafny

This project models the decision logic of a research assistant that
turns a user query into a research plan and gathers web evidence for each
task. It scores, filters and combines that evidence, and aborts with a
report when the evidence is too thin. It also covers the monitoring side
("scouts" polling an external update service) and the image-generation
side, which has a cache and retries.

Modules follow the source files:

| module | models |
|---|---|
| `Seeds` | topic classification, seed URLs, keyword lists and query rewriting (`app/seeds.py`) |
| `SearchConfig`, `UrlParse`, `IpAddress` | the domain trust table and the trust score of a URL, with the parts of Python's `urlparse` it relies on, including the bracketed-host check and the `ipaddress` parsing behind it (`app/config/search_config.py`) |
| `WebAgent`, `StableSort` | content scoring, ranking, top-3 selection, evidence combination and credibility tiers (`app/agents/web_agent.py`) |
| `Graph` | the web-execution and synthesis nodes of the workflow graph, with the insufficient-evidence gate (`app/graph.py`, `app/state.py`) |
| `HttpRetriever` | the three-stage search with its seed fallback, and the cached page fetch (`app/retrievers/http_retriever.py`) |
| `Planner` | parsing the planner model's reply into tasks (`app/agents/planner.py`) |
| `Yutori`, `JsonData` | the update-service client: payloads, response normalisation, query enhancement (`app/monitors/yutori_client.py`) |
| `ScoutManager` | the scout and update store: creation, cursor-based ingestion, listing, deletion (`app/monitors/scout_manager.py`) |
| `ImageModels`, `ImageCache`, `ImageGenerator` | image requests and artifacts, the cache table, and per-run generation with one retry (`app/images/`) |
| `Text`, `Common`, `Models` | Python string operations, Option/Result, and the shared records (`app/models.py`) |

Everything the code calls out to is a function-valued parameter. That
covers search engines, HTTP transports, the HTML extractor, the language
models, md5, the clock, uuid generation, the ISO date parser and the
image client. Databases and files are maps, and each operation returns
the new map.

## Model

| member | source | states |
|---|---|---|
| Seeds.HitCountIsDistinctHits | app/seeds.py:83-85 | for distinct keywords, a topic score is exactly the number of keywords occurring in the lower-cased query |
| Seeds.ClassifyTopic | app/seeds.py:75-98 | the result is a registered topic or `unknown`. It is `unknown` iff every score is 0. Otherwise it is the first topic (climate, medical, voice) holding the maximum score |
| Seeds.FirstMax | app/seeds.py:94 | the chosen index holds the maximum, and every earlier index holds strictly less, as Python's `max` picks the first maximum |
| Seeds.SeedsForTopic | app/seeds.py:100-109 | each registered topic gets its own seed list; any other string gets the generic list |
| Seeds.KeywordsForTopic | app/seeds.py:111-120 | the list is empty exactly for unregistered topics, and every keyword is non-empty |
| Seeds.ImportantWords | app/seeds.py:140 | the kept words are exactly the query's words longer than 4 characters that are not stop words: each kept word is such a word, and each such word is kept |
| Seeds.ImportantWordsAppend | app/seeds.py:140 | the filter keeps order: filtering two word lists one after the other gives the two filtered lists concatenated |
| Seeds.RewriteQuery | app/seeds.py:122-145 | the rewrite is empty only for an empty query; for a registered topic it starts with the topic's first signal term; with no signal terms and no important word it is the query unchanged |
| Seeds.RewriteOfRegisteredTopic | app/seeds.py:127-145 | for each registered topic, the rewrite starts with the topic's first three signal terms joined by spaces, followed by the first five important lower-cased query words, if any; it is never the raw query |
| Seeds.RewriteOfUnregisteredTopic | app/seeds.py:137-143 | for an unregistered topic, the rewritten query's words are exactly the first five important words of the query |
| Seeds.RewriteFallsBackToQuery | app/seeds.py:137-145 | an unregistered topic and no important word give back the query unchanged |
| SeedsExamples.VoiceModerationQuery | app/seeds.py:83-98 | "voice moderation toxicity detection for discord" scores 4 for voice and between 1 and 3 for medical (through the substring "ct"), and is classified as voice moderation |
| SearchConfig.TableScoresInRange | app/config/search_config.py:38-68 | every score in the trust table lies in [0.4, 1.0] |
| SearchConfig.ExactIndex | app/config/search_config.py:81-82 | the exact lookup finds the first table key equal to the host, or reports that none is |
| SearchConfig.SuffixIndex | app/config/search_config.py:85-87 | the suffix lookup finds the first table key the host ends with, or reports that none matches |
| SearchConfig.HostTrust | app/config/search_config.py:77-89 | a host's score lies in [0.4, 1.0] and is either the default or a score from the table; a host that ends with no domain of the table gets the default 0.5 |
| SearchConfig.TrustScore | app/config/search_config.py:72-91 | a URL's score lies in [0.4, 1.0], is the default or a table score, and is the default when parsing fails, which includes a rejected bracketed netloc, or when the URL's host ends with no domain of the table |
| SearchConfig.TableSuffixFree | app/config/search_config.py:38-68 | no table key ends with another key, so the first-match order of the suffix scan never matters |
| SearchConfig.SuffixInherits | app/config/search_config.py:85-87 | any host ending in a table key, including a dot-less prefix, gets that key's score |
| SearchConfig.ExactHit | app/config/search_config.py:81-82 | each table key scores its own table value |
| SearchConfig.NonLetterEndDefault | app/config/search_config.py:81-89 | a host that is empty or ends in a non-letter (such as a port) gets the default score |
| SearchConfig.TrustOfUrl | app/config/search_config.py:72-91 | for `scheme://host/path` the score is the score of the lower-cased host without `www.` when parsing accepts the host, and the default score when it raises |
| UrlParse.SchemeNetloc | app/config/search_config.py:76 | `urlparse` of `scheme://host/path` yields the host as netloc exactly when the host is accepted: both brackets or neither, and with both a valid bracketed netloc; otherwise it raises |
| UrlParse.NetlocOfAuthority | app/config/search_config.py:76 | after the scheme, the netloc is the text after `//` up to the path, or a parse failure when that text is not accepted |
| UrlParse.Netloc | app/config/search_config.py:76 | an accepted netloc holds no path, query or fragment delimiter, has both brackets or neither, and passes the bracketed-netloc check when it has them |
| UrlParse.BracketedAuthority | app/config/search_config.py:76 | a netloc `userinfo[host]port` is accepted exactly when the host is an IPv6 or IPvFuture address and the port part is empty or starts with `:` |
| UrlParse.TextBeforeBracket | app/config/search_config.py:76 | text between the user information and `[` always makes parsing raise |
| UrlParse.NoBracketsAccepted | app/config/search_config.py:76 | a netloc without brackets is always accepted |
| IpAddress.IPv4IsNotIPv6 | app/config/search_config.py:76 | no text is both an IPv4 and an IPv6 address, so a bracketed host is accepted exactly when it is an IPv6 address or an IPvFuture form |
| IpAddress.AddressAlphabet | app/config/search_config.py:76 | an accepted IPv6 address is written with hexadecimal digits, `:` and `.` only |
| IpAddress.FullForm | app/config/search_config.py:76 | any eight hextets of one to four hexadecimal digits joined by `:` form an accepted IPv6 address |
| IpAddress.LoopbackExample | app/config/search_config.py:76 | `::1` is an accepted IPv6 address |
| IpAddress.DottedQuadExample | app/config/search_config.py:76 | `1.2.3.4` is an IPv4 address and not an IPv6 one |
| IpAddress.TwoGapsExample | app/config/search_config.py:76 | `1::2::3`, with two `::` gaps, is refused |
| IpAddress.NameExample | app/config/search_config.py:76 | a host name such as `x` is not an IPv6 address |
| UrlParse.NoAuthority | app/config/search_config.py:76 | a URL without scheme and `//` has an empty netloc |
| TrustExamples.FdaExample | app/config/search_config.py:76-82 | `https://WWW.FDA.gov/x` scores 1.0 through case folding and removal of `www.` |
| TrustExamples.PortExample | app/config/search_config.py:76-89 | a host with a port, `modulate.ai:443`, falls to the default score |
| TrustExamples.XmodulateExample | app/config/search_config.py:85-87 | `xmodulate.ai` inherits the 1.0 of `modulate.ai`, because the suffix test has no dot boundary |
| TrustExamples.SubdomainExample | app/config/search_config.py:85-87 | `blog.modulate.ai` inherits the score of `modulate.ai` |
| TrustExamples.NoSchemeExample | app/config/search_config.py:76-89 | a bare `modulate.ai` has no netloc and gets the default score |
| TrustExamples.BadBracketExample | app/config/search_config.py:90-91 | an unbalanced `[` makes parsing raise, which gives the default score |
| TrustExamples.TextAfterBracketDefault | app/config/search_config.py:76-91 | any URL whose netloc has text after `]` other than a `:port` gets the default score, whatever the host |
| TrustExamples.TextAfterBracketExample | app/config/search_config.py:76-91 | `https://[x]modulate.ai/` gets the default 0.5, although it ends in a table domain |
| TrustExamples.BracketedLoopbackAccepted | app/config/search_config.py:76 | `::1` passes the bracketed-host check |
| StableSort.SortSorted | app/agents/web_agent.py:122 | the descending sort by score yields a non-increasing sequence |
| StableSort.SortPermutes | app/agents/web_agent.py:122 | the sort is a permutation of its input |
| StableSort.SortStable | app/agents/web_agent.py:122 | among equal scores the input order is kept, as Python's stable sort does |
| StableSort.TopSplit | app/agents/web_agent.py:126 | the selected items and the passed-over items together are exactly the items above the floor, and every selected item scores at least as high as every passed-over one |
| WebAgent.ContentScore | app/agents/web_agent.py:19-31 | the score lies in [0, 1]. For an unregistered topic it is length/5000 and reaches 1 exactly at 5000 characters; otherwise it is keyword occurrences/10 and reaches 1 exactly at 10 |
| WebAgent.ContentScoreGrows | app/agents/web_agent.py:19-31 | appending text never lowers a content score |
| WebAgent.FinalScore | app/agents/web_agent.py:103 | the weighted score stays in [0, 1], is at least 0.4 times the trust, and is 1 when both inputs are 1 |
| WebAgent.ScoreDocs | app/agents/web_agent.py:99-104 | one scored entry per document, in document order |
| WebAgent.EveryDocumentClearsFloor | app/agents/web_agent.py:99-128 | every document scores above the 0.15 floor (at least 0.16), because trust is never below 0.4 |
| WebAgent.Selected | app/agents/web_agent.py:122-126 | every selected entry is one of the scored documents |
| WebAgent.SelectedCount | app/agents/web_agent.py:126 | the selection holds min(3, number of documents) entries |
| WebAgent.SelectionIsTopThree | app/agents/web_agent.py:122-126 | at most three entries, in non-increasing order, all above the floor, and none outranked by an entry left out |
| WebAgent.SelectionIsStable | app/agents/web_agent.py:122-126 | equally scored selected documents keep their input order |
| WebAgent.Truncated | app/agents/web_agent.py:158 | a text longer than 3000 characters is cut to exactly its first 3000, and a shorter one is kept whole |
| WebAgent.CombinedHoldsEveryBlock | app/agents/web_agent.py:153-160 | the combined evidence contains the source block of every selected document |
| WebAgent.CombinedHoldsEverySource | app/agents/web_agent.py:153-160 | the combined evidence contains every selected document's truncated text |
| WebAgent.Average | app/agents/web_agent.py:164 | the average times the number of selected documents is the sum of their final scores |
| WebAgent.AverageBounds | app/agents/web_agent.py:155-164 | the average of scores in (lo, hi] lies in (lo, hi] |
| WebAgent.Evidence | app/agents/web_agent.py:153-178 | the combined finding is credited to multiple sources, carries the URLs and methods of the selection, has as relevance the mean of the selected final scores, which lies above the floor and at most 1, and contains each selected text |
| WebAgent.Respond | app/agents/web_agent.py:51-178 | no candidates gives the no-sources finding, and no documents gives the extraction-failed finding. The source is unavailable exactly in those two cases, and the low-relevance outcome never occurs |
| WebAgent.ExecuteTask | app/agents/web_agent.py:33-178 | the finding is tagged with the query's topic and answers from the search results and fetched documents as `Respond` does |
| WebAgent.TierOf | app/agents/web_agent.py:180-189 | the tier is the highest whose threshold the score meets, and is unknown exactly below 0.3 |
| WebAgent.TierMonotone | app/agents/web_agent.py:180-189 | a higher trust score never gets a lower tier |
| WebAgent.NoUnknownTier | app/agents/web_agent.py:180-189 | any URL's trust score earns at least tier C |
| Graph.Apply | app/state.py:11 | findings from an update are appended, an absent report keeps the old one, and an empty update changes nothing |
| Graph.ValidSources | app/graph.py:44-45 | the count of valid sources is at most the number of findings, and 0 exactly when no finding has a source |
| Graph.TotalChars | app/graph.py:44-45 | the total is at least every single finding's length, and 0 exactly when every finding is empty |
| Graph.PendingFindings | app/graph.py:27-41 | at most one finding per task |
| Graph.PendingFindingsFrom | app/graph.py:27-41 | every finding is the analyzed result of executing some pending task |
| Graph.PendingFindingsCount | app/graph.py:27-41 | one finding is produced per pending task, and none for completed tasks |
| Graph.WebExecution | app/graph.py:19-88 | findings are those of the pending tasks, and every pending task is marked done. The failure report is produced exactly when the evidence is insufficient, and it names the queries and the counts |
| Graph.AbortReportMentionsCounts | app/graph.py:69-84 | the abort report states the valid-source count and the character total |
| Graph.AbortReportMentionsTasks | app/graph.py:75 | the abort report quotes every task description |
| Graph.Synthesize | app/graph.py:90-96 | an existing report passes through unchanged; otherwise the synthesizer decides |
| Graph.TotalCharsAppend | app/graph.py:44-45 | character totals and valid-source counts add over concatenation |
| Graph.GateAbortsAt999 | app/graph.py:53 | two valid sources totalling 999 characters still abort |
| Graph.GatePassesAt1000 | app/graph.py:53 | one valid source with 1000 characters passes |
| Graph.GateNeedsASource | app/graph.py:45-53 | without a valid source the gate always aborts |
| Graph.ErrorTextCounts | app/graph.py:44-53 | the text of an error finding counts toward the character total, so it can lift a 950-character source over the gate |
| Graph.WebThenSynthesize | app/graph.py:19-96 | after web execution, synthesis keeps the failure report when the gate aborted and calls the synthesizer otherwise |
| HttpRetriever.FromRawEmpty | app/retrievers/http_retriever.py:46-53 | no candidates come out exactly when no raw result has an `href` |
| HttpRetriever.FromRawSound | app/retrievers/http_retriever.py:46-53 | every candidate comes from a raw result with an `href` |
| HttpRetriever.SimplifiedQuery | app/retrievers/http_retriever.py:85 | the simplified query's words are the first five words of the query |
| HttpRetriever.SeedCandidates | app/retrievers/http_retriever.py:110-121 | one fallback candidate per seed in the `[:max_results]` slice of the topic's seeds |
| HttpRetriever.SearchFor | app/retrievers/http_retriever.py:32-121 | the first stage that yields candidates wins. The rewrite stage is skipped for an unknown topic, and the search is blocked exactly when all stages are empty and the topic is unknown |
| HttpRetriever.Search | app/retrievers/http_retriever.py:32-121 | with the query's own topic: the original results when there are any; else the rewritten query's results when the topic is known and they exist; else the simplified query's results when they exist; else nothing for an unknown topic and the seeds otherwise |
| HttpRetriever.StagesInOrder | app/retrievers/http_retriever.py:42-104 | a later stage is used only when every earlier stage came back empty |
| HttpRetriever.UnknownTopicSkipsRewrite | app/retrievers/http_retriever.py:61-108 | for an unknown topic, only the original and simplified queries are sent, and the seed fallback is never used |
| HttpRetriever.SeedStageFacts | app/retrievers/http_retriever.py:110-121 | fallback candidates come from the topic's seeds, at most `max_results` of them |
| HttpRetriever.Download | app/retrievers/http_retriever.py:143-158 | the second transport is tried only when the first fails |
| HttpRetriever.Fetch | app/retrievers/http_retriever.py:123-182 | a cache hit answers with the cached text as text-mode reading returns it. A miss downloads and extracts the page; text longer than 200 characters is returned with method `http` and written to the cache under the URL's file. A failure leaves the cache unchanged |
| HttpRetriever.CacheHitIgnoresNetwork | app/retrievers/http_retriever.py:126-138 | with a cached entry, the transports and the extractor are not consulted |
| HttpRetriever.FetchThenCacheHit | app/retrievers/http_retriever.py:126-176 | a fetch that cached its text is answered from the cache the next time, with its line breaks normalised by text-mode reading; a text without carriage returns comes back exactly |
| HttpRetriever.ReadText | app/retrievers/http_retriever.py:130-131 | reading the cache file in text mode leaves no carriage return, never lengthens the text, and returns text without carriage returns unchanged |
| HttpRetriever.ReadTextExample | app/retrievers/http_retriever.py:130-131 | "a\r\nb\rc" reads back as "a\nb\nc" |
| HttpRetriever.FetchTouchesOneFile | app/retrievers/http_retriever.py:127-167 | a fetch changes no cache entry except the one for its own URL |
| HttpRetriever.BothTransportsFail | app/retrievers/http_retriever.py:143-158 | when both transports fail on a cache miss, no document comes back and the cache is unchanged |
| Planner.MarkerLen | app/agents/planner.py:77 | the marker run is the longest prefix of digits, dots, dashes, stars and parentheses |
| Planner.CleanLineShape | app/agents/planner.py:74-77 | a cleaned line is the stripped line with its maximal leading marker run and the whitespace after it cut off, and the stripped line itself when it starts with no marker |
| Planner.UnmarkedShape | app/agents/planner.py:77 | the substitution removes a maximal marker run and the whitespace after it, and nothing when no marker starts the line |
| Planner.MarkerCutUnique | app/agents/planner.py:77 | the shape stated for a cleaned line fixes it: two results that fit it are equal |
| Planner.CleanListItem | app/agents/planner.py:77 | `1. ` or `- ` before a body leaves exactly the body |
| Planner.CleanPlainLine | app/agents/planner.py:74-77 | an unmarked line is only stripped |
| Planner.Descriptions | app/agents/planner.py:73-78 | every kept description is longer than 10 characters |
| Planner.DescriptionsComplete | app/agents/planner.py:73-83 | every cleaned line longer than 10 characters becomes a description |
| Planner.DescriptionsSound | app/agents/planner.py:73-83 | every description is the cleaned form of some line |
| Planner.TasksFor | app/agents/planner.py:79-83 | one pending task without a result per description, in order, with the k-th generated id |
| Planner.CollectTasks | app/agents/planner.py:72-83 | the loop builds exactly the tasks of the kept descriptions |
| Planner.ParsePlan | app/agents/planner.py:72-93 | the plan is the kept descriptions as tasks, or the query itself as one task when none is kept, and it is never empty |
| Planner.Plan | app/agents/planner.py:62-116 | a failed model call yields the query as the only task with the error message. A reply yields one pending task per kept description, in order, or the query as the only task when none is kept. There is always one message |
| Yutori.CreatePayload | app/monitors/yutori_client.py:52-67 | the body carries query, interval, timezone and `skip_email`. A webhook is included exactly when it is truthy, and a task spec exactly when a schema is |
| Yutori.CreateScout | app/monitors/yutori_client.py:28-96 | an interval under 1800 seconds fails with the interval message. Otherwise an object answer is returned, an answer that is not an object fails as `data.get` does, and an HTTP error or transport failure gives its message |
| Yutori.ShortIntervalSendsNothing | app/monitors/yutori_client.py:49-50 | a refused interval fails the same way whatever the service would answer |
| Yutori.UpdateParams | app/monitors/yutori_client.py:115-117 | the poll sends the page size, and the cursor exactly when it is truthy |
| Yutori.GetUpdates | app/monitors/yutori_client.py:98-153 | a body succeeds exactly when it is an object whose items have a length and whose cursor, when truthy, can be sliced. It is normalised to items, next cursor and `has_more`, the cursor's truthiness. A 404 gives an empty page, and other errors fail |
| Yutori.DeleteScout | app/monitors/yutori_client.py:169-182 | deletion reports success exactly when the request succeeded |
| Yutori.EnhanceQuery | app/monitors/yutori_client.py:185-212 | the enhanced query starts with the prefix and the query, and its length is prefix, query and fixed suffix together |
| Yutori.EnhanceQueryRecover | app/monitors/yutori_client.py:203-212 | the query can be cut back out of the enhanced query |
| Yutori.EnhanceQueryInjective | app/monitors/yutori_client.py:185-212 | different queries give different enhanced queries |
| Yutori.ShortMinutesFail | app/monitors/scout_manager.py:37-45 | fewer than 30 minutes, converted to seconds, always fails the interval check |
| ScoutManager.CreateScout | app/monitors/scout_manager.py:17-73 | intervals under 30 minutes fail. Creation succeeds exactly when the interval is allowed, the service answers with an object whose `id` is a string not yet stored, and whose `next_run_timestamp` is a string or null. A success stores a new, active scout under the service's id, with the sent query, the original query, the interval in seconds and no cursor; the stored answer's `id` is the scout's id, and a string `next_run_timestamp` is parsed with its `Z` read as UTC. Other scouts and all updates are left alone |
| ScoutManager.CreateKeepsValid | app/monitors/scout_manager.py:59-70 | creation keeps the store's invariants: unique update ids, and every update belongs to a stored scout |
| ScoutManager.ToUpdate | app/monitors/scout_manager.py:99-131 | an item becomes an update of this scout, with the item's id or a generated one. The timestamp is parsed or else the clock time, and any object item with a summary converts |
| ScoutManager.SummaryFallback | app/monitors/scout_manager.py:112 | without a summary, the first 500 characters of the content are used |
| ScoutManager.FloatFieldsExample | app/monitors/scout_manager.py:111-112 | a summary of 0.0 is falsy, so the content is cut instead; a float headline is kept and can be stored |
| ScoutManager.Ingest | app/monitors/scout_manager.py:99-134 | the page fails exactly when some item fails to convert, and a success adds at most one update per item |
| ScoutManager.Iterated | app/monitors/scout_manager.py:94-99 | a list gives its items, an empty string or object gives no items, and any other value fails the poll |
| ScoutManager.IngestFresh | app/monitors/scout_manager.py:97-134 | ingestion adds only converted items whose ids are new, at most one per id, keeping ids unique |
| ScoutManager.IngestComplete | app/monitors/scout_manager.py:116-134 | every converted item with an id not already stored ends up added |
| ScoutManager.IngestIdempotent | app/monitors/scout_manager.py:116-134 | ingesting the same page again adds nothing |
| ScoutManager.IngestNothingNew | app/monitors/scout_manager.py:116-121 | a page whose ids are all stored adds nothing |
| ScoutManager.FetchUpdates | app/monitors/scout_manager.py:75-143 | an unknown scout fails with "not found". A poll succeeds exactly when the scout is known, the page arrives, its items iterate and convert, and every new update and the new cursor can be bound by the database. The added updates are exactly what ingesting the page against the stored updates yields, appended to the table; the cursor moves only when the page has one |
| ScoutManager.KnownUpdatesAreNotBound | app/monitors/scout_manager.py:116-140 | a page whose updates are all stored already succeeds whatever their text fields hold, and adds nothing |
| ScoutManager.AddedBelongToScout | app/monitors/scout_manager.py:122-131 | every added update is tagged with the polled scout |
| ScoutManager.FetchKeepsValid | app/monitors/scout_manager.py:75-143 | polling keeps the store's invariants |
| ScoutManager.NotFoundChangesNothing | app/monitors/scout_manager.py:88-143 | a 404 from the service adds no update and keeps the cursor |
| ScoutManager.OfScout | app/monitors/scout_manager.py:154-155 | the filter keeps exactly the updates of the scout |
| ScoutManager.ScoutUpdates | app/monitors/scout_manager.py:152-156 | the listing is the first min(limit, count) entries of the scout's updates sorted newest first: a sub-multiset of them, in non-increasing timestamp order |
| ScoutManager.ListingIsNewest | app/monitors/scout_manager.py:152-156 | no update left out of the listing is newer than one in it |
| ScoutManager.DeleteScout | app/monitors/scout_manager.py:158-169 | success is the client's answer; the scout, when stored, is marked inactive whatever the answer; nothing else changes |
| ScoutManager.DeleteKeepsValid | app/monitors/scout_manager.py:163-167 | deletion keeps the store's invariants |
| ImageCache.NoStyleIsEmptyStyle | app/images/cache.py:48-51 | no style and an empty style share a cache key |
| ImageCache.KeyDataInjective | app/images/cache.py:48-51 | when no title, prompt or aspect ratio holds the separator character, two requests hash the same text exactly when they agree on all four parameters, a missing style counting as an empty one |
| ImageCache.SharedKeyIsHashCollision | app/images/cache.py:48-51 | under the same condition, two requests share a cache key only when their parameters agree or md5 maps two different texts to one key |
| ImageCache.SeparatorCollision | app/images/cache.py:50 | a separator character inside a parameter lets different requests collide on one key |
| ImageCache.Set | app/images/cache.py:87-113 | the key is written with the current access time, the key set grows by that key, and other rows are unchanged |
| ImageCache.Get | app/images/cache.py:53-85 | a miss changes nothing; a hit returns the artifact with the fixed source and refreshes only that row's access time |
| ImageCache.SetThenGet | app/images/cache.py:53-113 | reading back a written artifact returns it, with source reset to the default |
| ImageCache.GetTouchesOnlyAccessTime | app/images/cache.py:115-127 | a read changes only the access time of the row read |
| ImageCache.Cleanup | app/images/cache.py:129-142 | exactly the rows accessed at or after the cutoff survive, unchanged |
| ImageCache.CleanupIdempotent | app/images/cache.py:129-142 | cleaning twice with the same cutoff equals cleaning once |
| ImageCache.ReadKeepsEntry | app/images/cache.py:115-142 | a row read at or after the cutoff survives cleanup |
| ImageGenerator.Tries | app/images/generator.py:78-96 | at most two calls. Generation stops at the first completed artifact. After the last attempt, its artifact is kept, or a failed artifact carries its error |
| ImageGenerator.Retry | app/images/generator.py:78-96 | the retry loop computes the same artifact and call count as the attempt recursion |
| ImageGenerator.Single | app/images/generator.py:58-108 | no call is made exactly when caching is on and the cached row is completed. A generated result is written back with the current time. With caching off, the table is untouched |
| ImageGenerator.GenerateSingle | app/images/generator.py:58-108 | the method agrees with the functional model of one request |
| ImageGenerator.CompletedIsNotRegenerated | app/images/generator.py:61-106 | once a completed artifact is cached, asking again makes no call and returns it |
| ImageGenerator.IncompleteCacheEntryRetries | app/images/generator.py:70-73 | a cached row that is not completed is generated again |
| ImageGenerator.BothAttemptsRaise | app/images/generator.py:86-96 | two failing calls give a failed artifact with the second error |
| ImageGenerator.RaiseThenIncomplete | app/images/generator.py:79-96 | a failure and then an incomplete artifact returns that incomplete artifact, not a failure |
| ImageGenerator.Run | app/images/generator.py:50-56 | one artifact per request, at most two calls each, every key cached when caching is on |
| ImageGenerator.RunPrefix | app/images/generator.py:52-54 | processing a prefix of the requests gives a prefix of the artifacts |
| ImageGenerator.RunStep | app/images/generator.py:52-54 | each step appends the artifact of the next request, generated against the table so far |
| ImageGenerator.Cap | app/images/generator.py:45 | the cap is at most 3, is 3 for no limit or 0, and is otherwise min(limit, 3) |
| ImageGenerator.GenerateAll | app/images/generator.py:50-56 | the loop computes the same batch as the run model |
| ImageGenerator.GenerateImages | app/images/generator.py:32-56 | disabled generation does nothing. Enabled generation runs over the `[:cap]` slice of the requests, which holds at most 3 only when the cap is non-negative |
| ImageGenerator.NegativeLimitExceedsCap | app/images/generator.py:45-46 | with a limit of -1, ten requests produce nine images |
| ImageGenerator.BoundedCap | app/images/generator.py:45 | the corrected cap is between 0 and 3, and 0 for a negative limit |
| ImageGenerator.GenerateImagesBounded | app/images/generator.py:32-56 | the corrected run produces at most 3 artifacts and at most 6 calls |
| ImageGenerator.BoundedAgreesOnMeaningfulLimits | app/images/generator.py:45-46 | for no limit or a non-negative limit, the corrected run takes the same requests as the original |
| ImageGenerator.ArtifactCount | app/images/generator.py:45-46 | the number of artifacts is min(cap, requests) for a non-negative cap; for a negative cap it is requests + cap, floored at 0 |

## Left out

- Lower-casing is ASCII-only, and the regular expression's `\d` matches ASCII digits only. Non-ASCII case folding is not modelled.
- `urlparse`: the scheme, the netloc, the bracket-balance check and both bracketed-netloc checks are modelled: `_check_bracketed_host` (the text between '[' and ']' must be an IPv6 or IPvFuture address, since Python 3.11.4) and `_check_bracketed_netloc` (no text before '[' and nothing but a port after ']', since Python 3.9.22, 3.10.17, 3.11.12, 3.12.9 and 3.13.2). Older versions accept more bracketed netlocs. The port is not parsed. The NFKC check that `urlsplit` applies to a non-ASCII netloc is not modelled. In a bracketed IPv6 host, an IPv4 tail is validated but its value is not computed, since only acceptance matters to the trust score.
- JsonData.Json: a JSON number with a fraction or an exponent is an exact real. The values Python's decoder also produces for `NaN`, `Infinity` and an out-of-range literal such as `1e400` are not modelled, nor is float rounding.
- Float formatting (`TRUST_SCORE: {t_score}`, `{c_score:.2f}`) is a parameter (`WebAgent.Formats`). Scores are exact reals, not IEEE floats.
- The quoting of task descriptions in the abort report is Python's list repr without escaping; a description containing a quote is rendered differently by Python.
- The language models (planner, analyzer, synthesizer), the search engine, the HTTP transports, the HTML extractor, md5, the clock, uuid, the ISO date parser, the update service's HTTP calls and the Freepik image client are parameters.
- Console output, logging, and the asynchronous and concurrent execution of the nodes.
- `fetch_many`, `get_retriever` and `app/retrievers/base.py` are not part of this model. Neither is the TinyFish retriever.
- `INTENT_GUARDRAILS` and `QUERY_TEMPLATES` in `app/config/search_config.py` are defined but never applied by the code.
- An exception from the search engine is modelled as an empty stage, which is what the source's `try`/`except` turns it into.
- ScoutManager.FetchUpdates: an update whose `id` is an integer, a float or a boolean fails the poll in the model. The source queries and stores such an id (SQLite's text affinity keeps it as its decimal text), and the poll succeeds.
- ScoutManager.FetchUpdates: every other failure (an item that is not an object, a null or list `id`, non-sliceable content, an `items` value that cannot be iterated, a value the database cannot bind) leaves the store unchanged, as in the source, where nothing is committed. The source's session also keeps the rows added before the failure pending, or needs a rollback after a failed commit; the session itself is not modelled.
- ScoutManager.CreateScout: a missing id in the service's answer, or an id already stored, fails and leaves the store unchanged; the source would raise from the database.
- ScoutManager.CreateScout: an id that is an integer, a float or a boolean fails and leaves the store unchanged. The source commits the row first (`app/monitors/scout_manager.py:68-69`) and only then raises at `scout_id[:8]` (line 72), so there the scout stays stored.
- `get_scout_updates` orders by timestamp in SQL. Ties are modelled as stable in insertion order, which the database does not promise.
- Times are integers. The cache's ISO-string comparison in `cleanup_old_entries` is modelled as integer comparison.
- `get_all_scouts` and `get_scout_status` only read the store or the service, and are not modelled.
- SeedsExamples.VoiceModerationQuery: the medical score is shown to be between 1 and 3 rather than pinned to its exact value. The classification needs only that it stays below the voice score of 4.
- The low-relevance branch of the web agent (`app/agents/web_agent.py:128-138`) is unreachable, because every score is at least 0.16. `WebAgent.Respond` states that it never occurs.
- `ImageRequest.rationale` is carried but never used by generation or caching.

## Findings

| source | as written | input that shows it | evidently intended | confidence | as-written member | corrected member |
|---|---|---|---|---|---|---|
| app/images/generator.py:45-46 | `min(max_images or 3, 3)` then `requests[:max_count]`; a negative limit survives `min` and becomes a negative slice | `max_images = -1` with 10 requests: `requests[:-1]` keeps 9 and generates 9 images | at most `MAX_IMAGES_PER_RUN` (3) images per run | medium, not executed | ImageGenerator.NegativeLimitExceedsCap | ImageGenerator.GenerateImagesBounded |

=== FILE: common.dfy ===
/** Failure-carrying wrappers shared by every module of the model. */
module Common {

  /** A value that may be absent: Python's `None` versus a present value. */
  datatype Option<T> = None | Some(value: T) {

    /** The present value, or `default` when absent (Python's `x if x is not None else default`). */
    function GetOr(default: T): T {
      match this
      case Some(v) => v
      case None => default
    }
  }

  /** The outcome of an operation that may raise: a value, or the raised error. */
  datatype Result<T, E> = Ok(value: T) | Err(error: E)
}

=== FILE: graph.dfy ===
/**
 * The research graph's web-execution node (run every pending task once,
 * then apply the grounding gate) and its synthesis node (skipped once a
 * report exists). The web agent, the analyzer and the synthesizer are
 * parameters.
 */
module Graph {

  import opened Common
  import opened Text
  import opened Models
  import WebAgent

  /** A run needs at least this many characters of evidence. */
  const MIN_TOTAL_CHARS: nat := 1000
  const FAILED_SUMMARY := "Research Failed: Insufficient Evidence"

  /** The graph's state (query, plan, accumulated findings, report, log). */
  datatype State = State(
    query: string,
    plan: seq<Task>,
    findings: seq<Finding>,
    finalReport: Option<FinalReport>,
    messages: seq<string>)

  /**
   * What a node returns: new findings (appended to the state's), and the
   * keys it sets; `None` means the key is absent from the returned dictionary.
   */
  datatype Update = Update(
    findings: seq<Finding>,
    plan: Option<seq<Task>>,
    messages: Option<seq<string>>,
    finalReport: Option<FinalReport>)

  const EMPTY_UPDATE := Update([], None, None, None)

  /** How the graph merges an update into the state: findings accumulate, other keys are replaced. */
  function Apply(s: State, u: Update): (t: State)
    ensures t.findings == s.findings + u.findings
    ensures u.finalReport.None? ==> t.finalReport == s.finalReport
    ensures u == EMPTY_UPDATE ==> t == s
  {
    State(s.query, u.plan.GetOr(s.plan), s.findings + u.findings,
          if u.finalReport.Some? then u.finalReport else s.finalReport,
          u.messages.GetOr(s.messages))
  }

  /** A finding attached to a source; the insufficient-evidence findings carry "N/A". */
  predicate IsValid(f: Finding) {
    f.sourceUrl != NOT_AVAILABLE
  }

  function ValidSources(fs: seq<Finding>): (n: nat)
    ensures n <= |fs|
    ensures n == 0 <==> forall i | 0 <= i < |fs| :: !IsValid(fs[i])
  {
    if fs == [] then 0 else (if IsValid(fs[0]) then 1 else 0) + ValidSources(fs[1..])
  }

  /** Characters of content over all findings, error findings included. */
  function TotalChars(fs: seq<Finding>): (n: nat)
    ensures forall i | 0 <= i < |fs| :: |fs[i].content| <= n
    ensures n == 0 <==> forall i | 0 <= i < |fs| :: fs[i].content == ""
  {
    if fs == [] then 0 else |fs[0].content| + TotalChars(fs[1..])
  }

  /** The grounding gate's abort condition. */
  predicate Insufficient(fs: seq<Finding>) {
    ValidSources(fs) == 0 || TotalChars(fs) < MIN_TOTAL_CHARS
  }

  /** A finding after the analyzer's remark on it has been attached. */
  function Analyzed(f: Finding, task: Task, analyze: (string, string) -> string): Finding {
    f.(analysis := Some(analyze(f.content, task.description)))
  }

  /** The findings of the pending tasks, one each, in task order. */
  function PendingFindings(tasks: seq<Task>, execute: Task -> Finding, analyze: (string, string) -> string): (fs: seq<Finding>)
    ensures |fs| <= |tasks|
  {
    if tasks == [] then []
    else
      PendingFindings(tasks[..|tasks| - 1], execute, analyze)
      + (var t := tasks[|tasks| - 1]; if t.status == Pending then [Analyzed(execute(t), t, analyze)] else [])
  }

  /** `f` is what analyzing the execution of some pending task in `tasks` gives. */
  predicate FromPendingTask(f: Finding, tasks: seq<Task>, execute: Task -> Finding, analyze: (string, string) -> string) {
    exists j | 0 <= j < |tasks| :: tasks[j].status == Pending && f == Analyzed(execute(tasks[j]), tasks[j], analyze)
  }

  /** Every finding is the analyzed result of executing a pending task. */
  lemma {:induction false} PendingFindingsFrom(tasks: seq<Task>, execute: Task -> Finding, analyze: (string, string) -> string)
    ensures forall f | f in PendingFindings(tasks, execute, analyze) :: FromPendingTask(f, tasks, execute, analyze)
  {
    if tasks != [] {
      var init := tasks[..|tasks| - 1];
      PendingFindingsFrom(init, execute, analyze);
      var last := tasks[|tasks| - 1];
      var before := PendingFindings(init, execute, analyze);
      assert PendingFindings(tasks, execute, analyze)
        == before + (if last.status == Pending then [Analyzed(execute(last), last, analyze)] else []);
      forall f | f in PendingFindings(tasks, execute, analyze) ensures FromPendingTask(f, tasks, execute, analyze) {
        if f in before {
          var j :| 0 <= j < |init| && init[j].status == Pending && f == Analyzed(execute(init[j]), init[j], analyze);
          assert tasks[j] == init[j];
        } else {
          assert tasks[|tasks| - 1] == last;
        }
      }
    }
  }

  /** How many tasks are pending. */
  function PendingCount(tasks: seq<Task>): nat {
    if tasks == [] then 0
    else PendingCount(tasks[..|tasks| - 1]) + (if tasks[|tasks| - 1].status == Pending then 1 else 0)
  }

  lemma {:induction false} PendingFindingsCount(tasks: seq<Task>, execute: Task -> Finding, analyze: (string, string) -> string)
    ensures |PendingFindings(tasks, execute, analyze)| == PendingCount(tasks)
  {
    if tasks != [] {
      PendingFindingsCount(tasks[..|tasks| - 1], execute, analyze);
    }
  }

  /** A task after the loop: pending tasks become completed, the rest are untouched. */
  function MarkDone(t: Task): Task {
    if t.status == Pending then t.(status := Completed) else t
  }

  function DescriptionList(tasks: seq<Task>): (r: seq<string>)
    ensures |r| == |tasks| && forall i | 0 <= i < |r| :: r[i] == tasks[i].description
  {
    seq(|tasks|, i requires 0 <= i < |tasks| => tasks[i].description)
  }

  function Quoted(ws: seq<string>): (r: seq<string>)
    ensures |r| == |ws| && forall i | 0 <= i < |r| :: r[i] == "'" + ws[i] + "'"
  {
    seq(|ws|, i requires 0 <= i < |ws| => "'" + ws[i] + "'")
  }

  /** Python's `str()` of a list of strings, each written in single quotes. */
  function ListRepr(ws: seq<string>): string {
    "[" + Join(", ", Quoted(ws)) + "]"
  }

  /** The fixed text of the insufficient-evidence report, around its three filled-in values. */
  datatype Layout = Layout(head: string, sourcesLabel: string, charsLabel: string, unit: string, tail: string)

  function Fill(l: Layout, queries: string, sources: string, chars: string): string {
    l.head + queries + l.sourcesLabel + sources + l.charsLabel + chars + l.unit + l.tail
  }

  const ABORT_LAYOUT := Layout(
    "\n# Insufficient Evidence\n\nThe research agent could not find enough verifiable information to answer your query.\n\n"
      + "**Diagnostics:**\n- **Queries Tried:** ",
    "\n- **Sources Found:** ",
    "\n- **Total Text Extracted:** ",
    " characters",
    "\n\n**Suggestion:**\nPlease try:\n1. Refining your research goal.\n"
      + "2. Checking your internet connection (if local).\n3. Providing specific URLs to analyze.\n")

  /** The markdown of the insufficient-evidence report. */
  function AbortReportText(tasks: seq<Task>, valid: nat, total: nat): string {
    Fill(ABORT_LAYOUT, ListRepr(DescriptionList(tasks)), NatToString(valid), NatToString(total))
  }

  function AbortMessage(valid: nat, total: nat): string {
    "INSUFFICIENT EVIDENCE: Found " + NatToString(valid) + " sources, " + NatToString(total)
    + " chars. Stopping synthesis."
  }

  /** Every filled-in value sits in the filled text, next to its label. */
  lemma FillHolds(l: Layout, q: string, s: string, c: string)
    ensures IsInfix(q, Fill(l, q, s, c))
    ensures IsInfix(l.sourcesLabel + s, Fill(l, q, s, c))
    ensures IsInfix(l.charsLabel + c + l.unit, Fill(l, q, s, c))
  {
    var f := Fill(l, q, s, c);
    assert f == l.head + q + (l.sourcesLabel + s + l.charsLabel + c + l.unit + l.tail);
    InfixOfConcat(l.head, q, l.sourcesLabel + s + l.charsLabel + c + l.unit + l.tail);
    assert f == (l.head + q) + (l.sourcesLabel + s) + (l.charsLabel + c + l.unit + l.tail);
    InfixOfConcat(l.head + q, l.sourcesLabel + s, l.charsLabel + c + l.unit + l.tail);
    assert f == (l.head + q + l.sourcesLabel + s) + (l.charsLabel + c + l.unit) + l.tail;
    InfixOfConcat(l.head + q + l.sourcesLabel + s, l.charsLabel + c + l.unit, l.tail);
  }

  /** The report's diagnostics hold the source count and the character count, each after its label. */
  lemma AbortReportMentionsCounts(tasks: seq<Task>, valid: nat, total: nat)
    ensures IsInfix(ABORT_LAYOUT.sourcesLabel + NatToString(valid), AbortReportText(tasks, valid, total))
    ensures IsInfix(ABORT_LAYOUT.charsLabel + NatToString(total) + ABORT_LAYOUT.unit, AbortReportText(tasks, valid, total))
  {
    FillHolds(ABORT_LAYOUT, ListRepr(DescriptionList(tasks)), NatToString(valid), NatToString(total));
  }

  /** Each task description appears, quoted, in the report. */
  lemma AbortReportMentionsTasks(tasks: seq<Task>, valid: nat, total: nat)
    ensures forall i | 0 <= i < |tasks| :: IsInfix("'" + tasks[i].description + "'", AbortReportText(tasks, valid, total))
  {
    var q := Quoted(DescriptionList(tasks));
    var text := AbortReportText(tasks, valid, total);
    FillHolds(ABORT_LAYOUT, ListRepr(DescriptionList(tasks)), NatToString(valid), NatToString(total));
    assert ListRepr(DescriptionList(tasks)) == "[" + Join(", ", q) + "]";
    InfixOfConcat("[", Join(", ", q), "]");
    InfixTrans(Join(", ", q), ListRepr(DescriptionList(tasks)), text);
    forall i | 0 <= i < |tasks|
      ensures IsInfix("'" + tasks[i].description + "'", text)
    {
      JoinHolds(", ", q, i);
      InfixTrans(q[i], Join(", ", q), text);
    }
  }

  /** Every piece of a join sits inside the joined text. */
  lemma {:induction false} JoinHolds(sep: string, ws: seq<string>, i: nat)
    requires i < |ws|
    ensures IsInfix(ws[i], Join(sep, ws))
  {
    if |ws| == 1 {
      assert OccursAt(ws[0], Join(sep, ws), 0);
    } else if i == 0 {
      assert OccursAt(ws[0], ws[0] + sep + Join(sep, ws[1..]), 0);
    } else {
      JoinHolds(sep, ws[1..], i - 1);
      assert ws[1..][i - 1] == ws[i];
      var rest := Join(sep, ws[1..]);
      var k :| 0 <= k <= |rest| - |ws[i]| && OccursAt(ws[i], rest, k);
      var p := ws[0] + sep;
      assert Join(sep, ws) == p + rest;
      assert (p + rest)[|p| + k..|p| + k + |ws[i]|] == rest[k..k + |ws[i]|];
      assert OccursAt(ws[i], Join(sep, ws), |p| + k);
    }
  }

  /**
   * The web-execution node: every pending task is run once (in plan order)
   * and analysed, then marked completed; the gate then aborts with a
   * failure report when no finding has a source or the findings hold fewer
   * than 1000 characters.
   */
  method WebExecution(state: State, execute: Task -> Finding, analyze: (string, string) -> string)
    returns (u: Update)
    ensures u.findings == PendingFindings(state.plan, execute, analyze)
    ensures u.plan.Some? && |u.plan.value| == |state.plan|
    ensures forall i | 0 <= i < |state.plan| :: u.plan.value[i] == MarkDone(state.plan[i])
    ensures u.messages.Some? && |u.messages.value| == PendingCount(state.plan) + (if u.finalReport.Some? then 1 else 0)
    ensures u.finalReport.Some? <==> Insufficient(u.findings)
    ensures u.finalReport.Some? ==>
      var fs := u.findings;
      u.finalReport.value == FinalReport(FAILED_SUMMARY, [], [],
        AbortReportText(u.plan.value, ValidSources(fs), TotalChars(fs)))
  {
    var tasks := state.plan;
    var findings: seq<Finding> := [];
    var messages: seq<string> := [];
    var done: seq<Task> := [];
    var k := 0;
    while k < |tasks|
      invariant 0 <= k <= |tasks|
      invariant findings == PendingFindings(tasks[..k], execute, analyze)
      invariant |messages| == PendingCount(tasks[..k])
      invariant |done| == k && forall i | 0 <= i < k :: done[i] == MarkDone(tasks[i])
    {
      var t := tasks[k];
      assert tasks[..k + 1][..k] == tasks[..k];
      if t.status == Pending {
        messages := messages + ["Running task: " + t.description];
        var f := execute(t);
        findings := findings + [Analyzed(f, t, analyze)];
      }
      done := done + [MarkDone(t)];
      k := k + 1;
    }
    assert tasks[..k] == tasks;
    var valid := ValidSources(findings);
    var total := TotalChars(findings);
    if valid == 0 || total < MIN_TOTAL_CHARS {
      messages := messages + [AbortMessage(valid, total)];
      var report := FinalReport(FAILED_SUMMARY, [], [], AbortReportText(done, valid, total));
      u := Update(findings, Some(done), Some(messages), Some(report));
    } else {
      u := Update(findings, Some(done), Some(messages), None);
    }
  }

  /** The synthesis node: nothing at all once a report exists, otherwise the synthesizer's update. */
  function Synthesize(s: State, synthesizer: State -> Update): (u: Update)
    ensures s.finalReport.Some? ==> Apply(s, u) == s
    ensures s.finalReport.None? ==> u == synthesizer(s)
  {
    if s.finalReport.Some? then EMPTY_UPDATE else synthesizer(s)
  }

  lemma {:induction false} TotalCharsAppend(a: seq<Finding>, b: seq<Finding>)
    ensures TotalChars(a + b) == TotalChars(a) + TotalChars(b)
    ensures ValidSources(a + b) == ValidSources(a) + ValidSources(b)
  {
    if a == [] {
      assert a + b == b;
    } else {
      assert (a + b)[1..] == a[1..] + b;
      TotalCharsAppend(a[1..], b);
    }
  }

  /** 999 characters across two sourced findings is not enough. */
  lemma GateAbortsAt999(f1: Finding, f2: Finding)
    requires IsValid(f1) && IsValid(f2)
    requires |f1.content| + |f2.content| == 999
    ensures Insufficient([f1, f2])
    ensures ValidSources([f1, f2]) == 2
  {
    assert [f1, f2][1..] == [f2];
    assert [f2][1..] == [];
    assert TotalChars([f2]) == |f2.content|;
    assert TotalChars([f1, f2]) == |f1.content| + TotalChars([f2]);
  }

  /** 1000 characters in one sourced finding passes. */
  lemma GatePassesAt1000(f: Finding)
    requires IsValid(f) && |f.content| == 1000
    ensures !Insufficient([f])
  {
  }

  /** Without a sourced finding the gate aborts however much text there is. */
  lemma GateNeedsASource(fs: seq<Finding>)
    requires forall i | 0 <= i < |fs| :: !IsValid(fs[i])
    ensures Insufficient(fs)
  {
    NoValid(fs);
  }

  lemma {:induction false} NoValid(fs: seq<Finding>)
    requires forall i | 0 <= i < |fs| :: !IsValid(fs[i])
    ensures ValidSources(fs) == 0
  {
    if fs != [] {
      NoValid(fs[1..]);
    }
  }

  /**
   * The text of an insufficient-evidence finding counts toward the total:
   * 950 sourced characters fail alone, but pass beside a 64-character
   * "no sources" finding.
   */
  lemma ErrorTextCounts(f: Finding, e: Finding)
    requires IsValid(f) && |f.content| == 950
    requires e.sourceUrl == NOT_AVAILABLE
    requires e.content == WebAgent.NO_SOURCES_TEXT
    ensures Insufficient([f])
    ensures !Insufficient([f, e])
  {
    assert |e.content| == 64;
    assert [f, e][1..] == [e];
    assert [e][1..] == [];
    assert [f][1..] == [];
    assert TotalChars([e]) == 64;
    assert TotalChars([f, e]) == 950 + TotalChars([e]);
    assert ValidSources([f, e]) == 1 + ValidSources([e]);
  }

  /**
   * The web node followed by the synthesis node: a run the gate stopped
   * ends with the failure report and exactly the web node's findings, whatever
   * the synthesizer would have done; otherwise the synthesizer's findings
   * only extend the accumulated ones.
   */
  method WebThenSynthesize(s: State, execute: Task -> Finding, analyze: (string, string) -> string,
                           synthesizer: State -> Update)
    returns (after: State)
    ensures var fs := PendingFindings(s.plan, execute, analyze);
      Insufficient(fs) ==>
        && after.findings == s.findings + fs
        && after.finalReport.Some?
        && after.finalReport.value.summary == FAILED_SUMMARY
        && after.finalReport.value.findings == []
    ensures var fs := PendingFindings(s.plan, execute, analyze);
      |s.findings + fs| <= |after.findings| && after.findings[..|s.findings + fs|] == s.findings + fs
  {
    var u := WebExecution(s, execute, analyze);
    var mid := Apply(s, u);
    var v := Synthesize(mid, synthesizer);
    after := Apply(mid, v);
  }
}

=== FILE: http_retriever.dfy ===
/**
 * The HTTP retriever: a four-stage search fallback chain (original query,
 * keyword rewrite, first five words, topic seeds) over an abstract search
 * engine, and a cache-first fetch over abstract transports and an
 * abstract text extractor.
 */
module HttpRetriever {

  import opened Common
  import opened Text
  import opened Seeds
  import opened Models

  /** One raw search result: a dictionary of string fields, or anything else. */
  datatype Raw = Dict(fields: map<string, string>) | NotDict

  /** The search engine: a query and a result cap to raw results, or the exception it raised. */
  type SearchEngine = (string, int) -> Result<seq<Raw>, string>

  /** Which stage of the chain produced the answer. */
  datatype Mode = Original | Rewritten | Simplified | SeedFallback | Blocked

  datatype SearchOutcome = SearchOutcome(mode: Mode, candidates: seq<Candidate>)

  const SIMPLIFIED_WORDS: int := 5
  /** The retriever's thin-content rule: extracted text must be longer than this. */
  const MIN_TEXT_CHARS: nat := 200
  const RAW_HTML_CHARS: int := 1000

  predicate HasHref(r: Raw) {
    r.Dict? && "href" in r.fields
  }

  function Field(r: Raw, key: string, default: string): string
    requires r.Dict?
  {
    if key in r.fields then r.fields[key] else default
  }

  function ToCandidate(r: Raw): Candidate
    requires HasHref(r)
  {
    Candidate(r.fields["href"], Field(r, "title", "No title"), Field(r, "body", ""))
  }

  /** The candidates a list of raw results yields: one per dictionary with an `href`, in order. */
  function FromRaw(rs: seq<Raw>): (cs: seq<Candidate>)
    ensures |cs| <= |rs|
  {
    if rs == [] then []
    else (if HasHref(rs[0]) then [ToCandidate(rs[0])] else []) + FromRaw(rs[1..])
  }

  /** Nothing comes out exactly when no result has an `href`. */
  lemma {:induction false} FromRawEmpty(rs: seq<Raw>)
    ensures FromRaw(rs) == [] <==> forall i | 0 <= i < |rs| :: !HasHref(rs[i])
  {
    if rs != [] {
      FromRawEmpty(rs[1..]);
      assert forall i | 1 <= i < |rs| :: rs[i] == rs[1..][i - 1];
    }
  }

  /** Every candidate is the conversion of some raw result with an `href`. */
  lemma {:induction false} FromRawSound(rs: seq<Raw>)
    ensures forall c | c in FromRaw(rs) :: exists i | 0 <= i < |rs| :: HasHref(rs[i]) && c == ToCandidate(rs[i])
  {
    if rs != [] {
      FromRawSound(rs[1..]);
      forall c | c in FromRaw(rs)
        ensures exists i | 0 <= i < |rs| :: HasHref(rs[i]) && c == ToCandidate(rs[i])
      {
        if HasHref(rs[0]) && c == ToCandidate(rs[0]) {
        } else {
          assert c in FromRaw(rs[1..]);
          var j :| 0 <= j < |rs[1..]| && HasHref(rs[1..][j]) && c == ToCandidate(rs[1..][j]);
          assert rs[j + 1] == rs[1..][j];
        }
      }
    }
  }

  /** The candidates one search call yields; an exception yields none. */
  function StageCandidates(res: Result<seq<Raw>, string>): seq<Candidate> {
    if res.Ok? then FromRaw(res.value) else []
  }

  /** `" ".join(query.split()[:5])`. */
  function SimplifiedQuery(query: string): (q: string)
    ensures Words(q) == PyTake(Words(query), SIMPLIFIED_WORDS)
  {
    var ws := PyTake(Words(query), SIMPLIFIED_WORDS);
    WordsOfJoin(ws);
    Join(" ", ws)
  }

  /** The last `/`-separated piece of a URL. */
  function LastSegment(url: string): string {
    var parts := SplitOn(url, '/');
    parts[|parts| - 1]
  }

  function SeedCandidate(url: string, topic: string): (c: Candidate)
    ensures c.url == url
  {
    Candidate(url, "Seed: " + LastSegment(url), "Fallback seed for " + topic)
  }

  /** The seed stage: the topic's first `maxResults` seed URLs (Python slice semantics). */
  function SeedCandidates(topic: string, maxResults: int): (cs: seq<Candidate>)
    ensures var seeds := PyTake(SeedsForTopic(topic), maxResults);
      |cs| == |seeds| && forall i | 0 <= i < |cs| :: cs[i] == SeedCandidate(seeds[i], topic)
  {
    var seeds := PyTake(SeedsForTopic(topic), maxResults);
    seq(|seeds|, i requires 0 <= i < |seeds| => SeedCandidate(seeds[i], topic))
  }

  /** The search chain for a query already classified as `topic`. */
  function SearchFor(query: string, topic: string, engine: SearchEngine, maxResults: int): (r: SearchOutcome)
    ensures var c1 := StageCandidates(engine(query, maxResults));
      r.mode == Original <==> c1 != []
    ensures r.mode == Original ==> r.candidates == StageCandidates(engine(query, maxResults))
    ensures r.mode == Rewritten ==>
      topic != UNKNOWN && r.candidates == StageCandidates(engine(RewriteQuery(query, topic), maxResults))
    ensures r.mode == Simplified ==> r.candidates == StageCandidates(engine(SimplifiedQuery(query), maxResults))
    ensures r.mode == SeedFallback ==> topic != UNKNOWN && r.candidates == SeedCandidates(topic, maxResults)
    ensures r.mode == Blocked <==>
      && topic == UNKNOWN
      && StageCandidates(engine(query, maxResults)) == []
      && StageCandidates(engine(SimplifiedQuery(query), maxResults)) == []
    ensures r.mode == Blocked ==> r.candidates == []
    ensures r.mode in {Original, Rewritten, Simplified} ==> r.candidates != []
  {
    var original := StageCandidates(engine(query, maxResults));
    if original != [] then SearchOutcome(Original, original)
    else
      var rewritten :=
        if topic != UNKNOWN then StageCandidates(engine(RewriteQuery(query, topic), maxResults)) else [];
      if rewritten != [] then SearchOutcome(Rewritten, rewritten)
      else
        var simplified := StageCandidates(engine(SimplifiedQuery(query), maxResults));
        if simplified != [] then SearchOutcome(Simplified, simplified)
        else if topic == UNKNOWN then SearchOutcome(Blocked, [])
        else SearchOutcome(SeedFallback, SeedCandidates(topic, maxResults))
  }

  /** `search`: classify the query, then run the chain. */
  function Search(query: string, engine: SearchEngine, maxResults: int): (r: seq<Candidate>)
    ensures StageCandidates(engine(query, maxResults)) != [] ==> r == StageCandidates(engine(query, maxResults))
    ensures var topic := ClassifyTopic(query);
      (topic != UNKNOWN && StageCandidates(engine(query, maxResults)) == []
       && StageCandidates(engine(RewriteQuery(query, topic), maxResults)) != [])
      ==> r == StageCandidates(engine(RewriteQuery(query, topic), maxResults))
    ensures var topic := ClassifyTopic(query);
      (StageCandidates(engine(query, maxResults)) == []
       && (topic == UNKNOWN || StageCandidates(engine(RewriteQuery(query, topic), maxResults)) == [])
       && StageCandidates(engine(SimplifiedQuery(query), maxResults)) != [])
      ==> r == StageCandidates(engine(SimplifiedQuery(query), maxResults))
    ensures var topic := ClassifyTopic(query);
      (topic == UNKNOWN && StageCandidates(engine(query, maxResults)) == []
       && StageCandidates(engine(SimplifiedQuery(query), maxResults)) == []) ==> r == []
    ensures var topic := ClassifyTopic(query);
      (topic != UNKNOWN && StageCandidates(engine(query, maxResults)) == []
       && StageCandidates(engine(RewriteQuery(query, topic), maxResults)) == []
       && StageCandidates(engine(SimplifiedQuery(query), maxResults)) == []) ==> r == SeedCandidates(topic, maxResults)
  {
    SearchFor(query, ClassifyTopic(query), engine, maxResults).candidates
  }

  /** A later stage is only reached when every earlier one produced nothing. */
  lemma StagesInOrder(query: string, topic: string, engine: SearchEngine, maxResults: int)
    ensures var r := SearchFor(query, topic, engine, maxResults);
      && (r.mode != Original ==> StageCandidates(engine(query, maxResults)) == [])
      && (r.mode in {Simplified, SeedFallback, Blocked} && topic != UNKNOWN ==>
            StageCandidates(engine(RewriteQuery(query, topic), maxResults)) == [])
      && (r.mode in {SeedFallback, Blocked} ==> StageCandidates(engine(SimplifiedQuery(query), maxResults)) == [])
  {
  }

  /**
   * With an unknown topic the rewritten query is never sent: two engines
   * that agree on the original and the simplified query give the same
   * outcome, and no seed is ever returned.
   */
  lemma UnknownTopicSkipsRewrite(query: string, e1: SearchEngine, e2: SearchEngine, maxResults: int)
    requires e1(query, maxResults) == e2(query, maxResults)
    requires e1(SimplifiedQuery(query), maxResults) == e2(SimplifiedQuery(query), maxResults)
    ensures SearchFor(query, UNKNOWN, e1, maxResults) == SearchFor(query, UNKNOWN, e2, maxResults)
    ensures SearchFor(query, UNKNOWN, e1, maxResults).mode != SeedFallback
  {
  }

  /** Seeds are the topic's own, at most `maxResults` of them, each labelled with the topic. */
  lemma SeedStageFacts(topic: string, maxResults: int)
    ensures |SeedCandidates(topic, maxResults)| <= |SeedsForTopic(topic)|
    ensures 0 <= maxResults ==> |SeedCandidates(topic, maxResults)| <= maxResults
    ensures forall c | c in SeedCandidates(topic, maxResults) ::
      c.url in SeedsForTopic(topic) && c.snippet == "Fallback seed for " + topic
  {
    var seeds := PyTake(SeedsForTopic(topic), maxResults);
    forall c | c in SeedCandidates(topic, maxResults)
      ensures c.url in SeedsForTopic(topic) && c.snippet == "Fallback seed for " + topic
    {
      var i :| 0 <= i < |SeedCandidates(topic, maxResults)| && SeedCandidates(topic, maxResults)[i] == c;
      assert c.url == seeds[i] == SeedsForTopic(topic)[i];
    }
  }

  // ---- fetch ----

  /** A transport: the page body, or the exception it raised. */
  type Transport = string -> Result<string, string>
  /** The extractor: the main text (possibly none), or the exception it raised. */
  type Extractor = string -> Result<Option<string>, string>

  /** The cache file a URL's text is stored in. */
  function CachePath(url: string, md5: string -> string): string {
    "cache/" + md5(url) + ".txt"
  }

  datatype FetchOutcome = FetchOutcome(doc: Option<Document>, cache: map<string, string>)

  function CachedDocument(url: string, text: string): (d: Document)
    ensures d.textLength == |d.text|
  {
    Document(url, "Cached Content", text, |text|, None, "cache")
  }

  /**
   * What reading a cache file back in text mode returns: universal
   * newlines turn each "\r\n" and each lone "\r" into "\n". Text
   * without a carriage return comes back unchanged.
   */
  function ReadText(s: string): (r: string)
    ensures |r| <= |s|
    ensures forall i | 0 <= i < |r| :: r[i] != '\r'
    ensures (forall i | 0 <= i < |s| :: s[i] != '\r') ==> r == s
  {
    if s == [] then []
    else if s[0] == '\r' then "\n" + ReadText(if |s| > 1 && s[1] == '\n' then s[2..] else s[1..])
    else [s[0]] + ReadText(s[1..])
  }

  /** The page body from the first transport, or from the second when the first fails. */
  function Download(url: string, httpx: Transport, requests: Transport): (r: Result<string, string>)
    ensures httpx(url).Ok? ==> r == httpx(url)
    ensures httpx(url).Err? ==> r == requests(url)
  {
    if httpx(url).Ok? then httpx(url) else requests(url)
  }

  /**
   * `fetch`: a cached text is returned as read back in text mode; otherwise the page is
   * downloaded, its text extracted, and kept (and cached) only when it is
   * longer than 200 characters.
   */
  function Fetch(url: string, cache: map<string, string>, md5: string -> string,
                 httpx: Transport, requests: Transport, extract: Extractor): (r: FetchOutcome)
    ensures var p := CachePath(url, md5);
      p in cache ==> r == FetchOutcome(Some(CachedDocument(url, ReadText(cache[p]))), cache)
    ensures var p := CachePath(url, md5);
      p !in cache ==>
        (r.doc.Some? <==>
          && Download(url, httpx, requests).Ok?
          && var e := extract(Download(url, httpx, requests).value);
             e.Ok? && e.value.Some? && |e.value.value| > MIN_TEXT_CHARS)
    ensures r.doc.None? ==> r.cache == cache
    ensures r.doc.Some? ==> r.doc.value.url == url && r.doc.value.textLength == |r.doc.value.text|
    ensures var p := CachePath(url, md5);
      p !in cache && r.doc.Some? ==>
        && r.doc.value.retrievalMethod == "http"
        && r.doc.value.text == extract(Download(url, httpx, requests).value).value.value
        && r.doc.value.rawHtml == Some(PyTake(Download(url, httpx, requests).value, RAW_HTML_CHARS))
        && r.cache == cache[p := r.doc.value.text]
    ensures r.doc.Some? && r.doc.value.retrievalMethod == "http" ==>
      && |r.doc.value.text| > MIN_TEXT_CHARS
      && r.cache == cache[CachePath(url, md5) := r.doc.value.text]
  {
    var p := CachePath(url, md5);
    if p in cache then FetchOutcome(Some(CachedDocument(url, ReadText(cache[p]))), cache)
    else
      var html := Download(url, httpx, requests);
      if html.Err? then FetchOutcome(None, cache)
      else
        var e := extract(html.value);
        if e.Ok? && e.value.Some? && |e.value.value| > MIN_TEXT_CHARS then
          var text := e.value.value;
          FetchOutcome(Some(Document(url, "Extracted Content", text, |text|, Some(PyTake(html.value, RAW_HTML_CHARS)), "http")),
                       cache[p := text])
        else FetchOutcome(None, cache)
  }

  /** A cache hit makes no transport or extractor call: any two give the same outcome. */
  lemma CacheHitIgnoresNetwork(url: string, cache: map<string, string>, md5: string -> string,
                               h1: Transport, q1: Transport, x1: Extractor,
                               h2: Transport, q2: Transport, x2: Extractor)
    requires CachePath(url, md5) in cache
    ensures Fetch(url, cache, md5, h1, q1, x1) == Fetch(url, cache, md5, h2, q2, x2)
  {
  }

  /**
   * What one fetch returned, a second fetch of the same URL returns from
   * the cache, with its line breaks read back in text mode; a text
   * without carriage returns comes back exactly.
   */
  lemma FetchThenCacheHit(url: string, cache: map<string, string>, md5: string -> string,
                          httpx: Transport, requests: Transport, extract: Extractor,
                          h2: Transport, q2: Transport, x2: Extractor)
    requires Fetch(url, cache, md5, httpx, requests, extract).doc.Some?
    ensures var first := Fetch(url, cache, md5, httpx, requests, extract);
      var second := Fetch(url, first.cache, md5, h2, q2, x2);
      && second.cache == first.cache
      && second.doc == Some(CachedDocument(url, ReadText(first.doc.value.text)))
      && ((forall i | 0 <= i < |first.doc.value.text| :: first.doc.value.text[i] != '\r') ==>
            second.doc.value.text == first.doc.value.text)
  {
  }

  /** A Windows line break and a lone carriage return both read back as "\n". */
  lemma ReadTextExample()
    ensures ReadText("a\r\nb\rc") == "a\nb\nc"
  {
    assert "a\r\nb\rc"[1..] == "\r\nb\rc";
    assert "\r\nb\rc"[2..] == "b\rc";
    assert "b\rc"[1..] == "\rc";
    assert "\rc"[1..] == "c";
    assert "c"[1..] == [];
  }

  /** Only the fetched URL's cache file is ever written. */
  lemma FetchTouchesOneFile(url: string, cache: map<string, string>, md5: string -> string,
                            httpx: Transport, requests: Transport, extract: Extractor, other: string)
    requires other != CachePath(url, md5)
    ensures var c := Fetch(url, cache, md5, httpx, requests, extract).cache;
      (other in c <==> other in cache) && (other in cache ==> c[other] == cache[other])
  {
  }

  /** A transport failure on both paths returns nothing and writes nothing. */
  lemma BothTransportsFail(url: string, cache: map<string, string>, md5: string -> string,
                           httpx: Transport, requests: Transport, extract: Extractor)
    requires CachePath(url, md5) !in cache
    requires httpx(url).Err? && requests(url).Err?
    ensures Fetch(url, cache, md5, httpx, requests, extract) == FetchOutcome(None, cache)
  {
  }
}

=== FILE: image_cache.dfy ===
/**
 * The image cache: artifacts keyed by a hash of their request
 * parameters, with created and last-accessed times, `INSERT OR REPLACE`
 * writes, access-time refresh on reads, and age-based cleanup. The
 * table is a map from key to row; the hash and the clock are parameters.
 */
module ImageCache {

  import opened Common
  import opened ImageModels
  import opened Text

  const SECONDS_PER_DAY: int := 86400

  /** One row of the cache table. */
  datatype Row = Row(
    title: string,
    prompt: string,
    aspectRatio: string,
    style: Option<string>,
    taskId: Option<string>,
    imageUrl: Option<string>,
    localPath: Option<string>,
    status: ImageStatus,
    errorMessage: Option<string>,
    createdAt: Time,
    accessedAt: Time)

  type Table = map<string, Row>

  /** `style or ''`. */
  function StyleText(style: Option<string>): string {
    if style.Some? then style.value else ""
  }

  /** The text that is hashed into a key. */
  function KeyData(title: string, prompt: string, aspectRatio: string, style: Option<string>): string {
    title + "|" + prompt + "|" + aspectRatio + "|" + StyleText(style)
  }

  /** `generate_cache_key`: the hash of the four parameters joined with `|`. */
  function CacheKey(md5: string -> string, title: string, prompt: string, aspectRatio: string, style: Option<string>): string {
    md5(KeyData(title, prompt, aspectRatio, style))
  }

  /** No style and an empty style give the same key. */
  lemma NoStyleIsEmptyStyle(md5: string -> string, title: string, prompt: string, aspectRatio: string)
    ensures CacheKey(md5, title, prompt, aspectRatio, None) == CacheKey(md5, title, prompt, aspectRatio, Some(""))
  {
  }

  /**
   * When no title, prompt or aspect ratio holds a `|`, the hashed text
   * tells the parameters apart: two requests share it exactly when they
   * agree on all four (a missing style counting as the empty one).
   */
  lemma KeyDataInjective(t1: string, p1: string, a1: string, s1: Option<string>,
                         t2: string, p2: string, a2: string, s2: Option<string>)
    requires '|' !in t1 && '|' !in p1 && '|' !in a1
    requires '|' !in t2 && '|' !in p2 && '|' !in a2
    ensures KeyData(t1, p1, a1, s1) == KeyData(t2, p2, a2, s2)
      <==> t1 == t2 && p1 == p2 && a1 == a2 && StyleText(s1) == StyleText(s2)
  {
    var st1, st2 := StyleText(s1), StyleText(s2);
    if KeyData(t1, p1, a1, s1) == KeyData(t2, p2, a2, s2) {
      var rest1, rest2 := a1 + "|" + st1, a2 + "|" + st2;
      assert KeyData(t1, p1, a1, s1) == t1 + "|" + (p1 + "|" + rest1);
      assert KeyData(t2, p2, a2, s2) == t2 + "|" + (p2 + "|" + rest2);
      SplitAtFirstBar(t1, p1 + "|" + rest1, t2, p2 + "|" + rest2);
      SplitAtFirstBar(p1, rest1, p2, rest2);
      SplitAtFirstBar(a1, st1, a2, st2);
    }
  }

  /**
   * Two requests whose title, prompt and aspect ratio hold no `|` get the
   * same key only when they agree on every parameter or the hash maps two
   * different texts to one key.
   */
  lemma SharedKeyIsHashCollision(md5: string -> string, t1: string, p1: string, a1: string, s1: Option<string>,
                                 t2: string, p2: string, a2: string, s2: Option<string>)
    requires '|' !in t1 && '|' !in p1 && '|' !in a1
    requires '|' !in t2 && '|' !in p2 && '|' !in a2
    requires CacheKey(md5, t1, p1, a1, s1) == CacheKey(md5, t2, p2, a2, s2)
    ensures var d1, d2 := KeyData(t1, p1, a1, s1), KeyData(t2, p2, a2, s2);
      (t1 == t2 && p1 == p2 && a1 == a2 && StyleText(s1) == StyleText(s2)) || (d1 != d2 && md5(d1) == md5(d2))
  {
    KeyDataInjective(t1, p1, a1, s1, t2, p2, a2, s2);
  }

  /** Text before the first `|` and text after it are both recovered from the joined text. */
  lemma SplitAtFirstBar(p1: string, q1: string, p2: string, q2: string)
    requires '|' !in p1 && '|' !in p2
    requires p1 + "|" + q1 == p2 + "|" + q2
    ensures p1 == p2 && q1 == q2
  {
    PartitionAt(p1, '|', q1);
    PartitionAt(p2, '|', q2);
  }

  /** Since `|` may occur inside a parameter, different parameters can share a key. */
  lemma SeparatorCollision(md5: string -> string)
    ensures CacheKey(md5, "a|b", "c", "16:9", None) == CacheKey(md5, "a", "b|c", "16:9", None)
  {
    assert KeyData("a|b", "c", "16:9", None) == KeyData("a", "b|c", "16:9", None);
  }

  function ToRow(a: Artifact, now: Time): Row {
    Row(a.title, a.prompt, a.aspectRatio, a.style, a.taskId, a.imageUrl, a.localPath, a.status, a.errorMessage,
        a.createdAt, now)
  }

  function FromRow(r: Row): Artifact {
    Artifact(r.title, r.prompt, r.imageUrl, r.localPath, DEFAULT_SOURCE, r.taskId, r.status, r.createdAt,
             r.aspectRatio, r.style, r.errorMessage)
  }

  /** `set`: write the artifact under the key, replacing any row there, accessed now. */
  function Set(t: Table, key: string, a: Artifact, now: Time): (t': Table)
    ensures key in t' && t'[key].accessedAt == now
    ensures t'.Keys == t.Keys + {key}
    ensures forall k | k in t && k != key :: t'[k] == t[k]
  {
    t[key := ToRow(a, now)]
  }

  datatype Lookup = Lookup(artifact: Option<Artifact>, table: Table)

  /** `get`: the stored artifact, its access time refreshed; an absent key changes nothing. */
  function Get(t: Table, key: string, now: Time): (r: Lookup)
    ensures key !in t ==> r == Lookup(None, t)
    ensures key in t ==>
      && r.artifact.Some?
      && r.artifact.value.source == DEFAULT_SOURCE
      && r.table == t[key := t[key].(accessedAt := now)]
  {
    if key !in t then Lookup(None, t)
    else Lookup(Some(FromRow(t[key])), t[key := t[key].(accessedAt := now)])
  }

  /** Reading back what was written gives the artifact, with the fixed source. */
  lemma SetThenGet(t: Table, key: string, a: Artifact, written: Time, read: Time)
    ensures Get(Set(t, key, a, written), key, read).artifact == Some(a.(source := DEFAULT_SOURCE))
    ensures Get(Set(t, key, a, written), key, read).table == Set(t, key, a, read)
  {
  }

  /** A read changes only the access time of the row it read. */
  lemma GetTouchesOnlyAccessTime(t: Table, key: string, now: Time)
    requires key in t
    ensures var t' := Get(t, key, now).table;
      && t'.Keys == t.Keys
      && (forall k | k in t && k != key :: t'[k] == t[k])
      && t'[key].(accessedAt := t[key].accessedAt) == t[key]
  {
  }

  /** `cleanup_old_entries`: drop every row last accessed before `now - days`. */
  function Cleanup(t: Table, days: int, now: Time): (t': Table)
    ensures forall k :: k in t' <==> k in t && t[k].accessedAt >= now - days * SECONDS_PER_DAY
    ensures forall k | k in t' :: t'[k] == t[k]
  {
    var cutoff := now - days * SECONDS_PER_DAY;
    map k | k in t && t[k].accessedAt >= cutoff :: t[k]
  }

  /** Cleaning up twice with the same cutoff removes nothing more. */
  lemma CleanupIdempotent(t: Table, days: int, now: Time)
    ensures Cleanup(Cleanup(t, days, now), days, now) == Cleanup(t, days, now)
  {
  }

  /** A row read at or after the cutoff survives cleanup. */
  lemma ReadKeepsEntry(t: Table, key: string, days: int, now: Time, later: Time)
    requires key in t && later >= now - days * SECONDS_PER_DAY
    ensures key in Cleanup(Get(t, key, later).table, days, now)
  {
  }
}

=== FILE: image_generator.dfy ===
/**
 * Image generation orchestration: a per-run cap on the number of
 * requests, a cache check that accepts only completed images, a bounded
 * retry of the generation client, and write-back of every fresh result.
 * The client, the hash and the clock are parameters; the client is
 * told the index of the call within the run so that successive calls
 * may answer differently.
 */
module ImageGenerator {

  import opened Common
  import opened Text
  import opened ImageModels
  import opened ImageCache

  const MAX_IMAGES_PER_RUN: int := 3
  const MAX_RETRIES: nat := 1

  /** The `n`-th client call of a run on a request: an artifact, or the text of the exception it raised. */
  type Client = (Request, nat) -> Result<Artifact, string>

  datatype Config = Config(useCache: bool, md5: string -> string, client: Client, now: Time)

  function KeyOf(md5: string -> string, r: Request): string {
    CacheKey(md5, r.title, r.prompt, r.aspectRatio, r.style)
  }

  predicate IsCompletedAnswer(answer: Result<Artifact, string>) {
    answer.Ok? && answer.value.status == Completed
  }

  /** The artifact recorded when the last attempt raised. */
  function FailedArtifact(r: Request, error: string, now: Time): Artifact {
    Artifact(r.title, r.prompt, None, None, DEFAULT_SOURCE, None, Failed, now, r.aspectRatio, r.style, Some(error))
  }

  datatype Attempted = Attempted(artifact: Artifact, calls: nat)

  /**
   * The retries from `attempt` on: the first completed answer ends them;
   * when none completes, the last attempt decides, an exception there
   * becoming a failed artifact.
   */
  function {:induction false} Tries(r: Request, client: Client, base: nat, attempt: nat, now: Time): (res: Attempted)
    requires attempt <= MAX_RETRIES
    ensures attempt < res.calls <= MAX_RETRIES + 1
    ensures forall n | base + attempt <= n < base + res.calls - 1 :: !IsCompletedAnswer(client(r, n))
    ensures res.calls <= MAX_RETRIES ==>
      IsCompletedAnswer(client(r, base + res.calls - 1)) && client(r, base + res.calls - 1).value == res.artifact
    ensures res.calls == MAX_RETRIES + 1 ==>
      var last := client(r, base + MAX_RETRIES);
      && (last.Ok? ==> res.artifact == last.value)
      && (last.Err? ==> res.artifact == FailedArtifact(r, last.error, now))
    decreases MAX_RETRIES - attempt
  {
    var answer := client(r, base + attempt);
    if attempt == MAX_RETRIES then
      Attempted(if answer.Ok? then answer.value else FailedArtifact(r, answer.error, now), attempt + 1)
    else if IsCompletedAnswer(answer) then Attempted(answer.value, attempt + 1)
    else Tries(r, client, base, attempt + 1, now)
  }

  /** The retry loop of `_generate_single`, as written: at most `MAX_RETRIES + 1` calls. */
  method Retry(r: Request, client: Client, base: nat, now: Time) returns (artifact: Artifact, calls: nat)
    ensures Attempted(artifact, calls) == Tries(r, client, base, 0, now)
  {
    var result: Option<Artifact> := None;
    var attempt: nat := 0;
    var done := false;
    while attempt <= MAX_RETRIES && !done
      invariant attempt <= MAX_RETRIES + 1
      invariant !done && attempt <= MAX_RETRIES ==> Tries(r, client, base, attempt, now) == Tries(r, client, base, 0, now)
      invariant (done || attempt == MAX_RETRIES + 1) ==>
        result.Some? && Attempted(result.value, attempt) == Tries(r, client, base, 0, now)
      decreases MAX_RETRIES + 1 - attempt, !done
    {
      var answer := client(r, base + attempt);
      match answer {
        case Ok(a) =>
          result := Some(a);
          if a.status == Completed {
            done := true;
          }
        case Err(e) =>
          if attempt == MAX_RETRIES {
            result := Some(FailedArtifact(r, e, now));
          }
      }
      attempt := attempt + 1;
    }
    artifact, calls := result.value, attempt;
  }

  datatype Step = Step(artifact: Artifact, table: Table, calls: nat)

  /** `_generate_single`: a completed cached image, or a fresh one written back to the cache. */
  function Single(cfg: Config, t: Table, r: Request, base: nat): (s: Step)
    ensures var key := KeyOf(cfg.md5, r);
      s.calls == 0 <==> cfg.useCache && key in t && t[key].status == Completed
    ensures var key := KeyOf(cfg.md5, r);
      s.calls == 0 ==> s.artifact == FromRow(t[key]) && s.artifact.status == Completed
    ensures s.calls > 0 ==> Attempted(s.artifact, s.calls) == Tries(r, cfg.client, base, 0, cfg.now)
    ensures s.calls <= MAX_RETRIES + 1
    ensures !cfg.useCache ==> s.table == t
    ensures var key := KeyOf(cfg.md5, r);
      cfg.useCache ==>
        && s.table.Keys == t.Keys + {key}
        && (forall k | k in t && k != key :: s.table[k] == t[k])
        && s.table[key].accessedAt == cfg.now
        && FromRow(s.table[key]) == s.artifact.(source := DEFAULT_SOURCE)
  {
    var key := KeyOf(cfg.md5, r);
    var looked := if cfg.useCache then Get(t, key, cfg.now) else Lookup(None, t);
    if looked.artifact.Some? && looked.artifact.value.status == Completed then
      Step(looked.artifact.value, looked.table, 0)
    else
      var tried := Tries(r, cfg.client, base, 0, cfg.now);
      Step(tried.artifact, if cfg.useCache then Set(looked.table, key, tried.artifact, cfg.now) else looked.table,
           tried.calls)
  }

  method GenerateSingle(cfg: Config, t: Table, r: Request, base: nat) returns (s: Step)
    ensures s == Single(cfg, t, r, base)
  {
    var key := KeyOf(cfg.md5, r);
    var table := t;
    if cfg.useCache {
      var looked := Get(t, key, cfg.now);
      table := looked.table;
      if looked.artifact.Some? && looked.artifact.value.status == Completed {
        return Step(looked.artifact.value, table, 0);
      }
    }
    var artifact, calls := Retry(r, cfg.client, base, cfg.now);
    if cfg.useCache {
      table := Set(table, key, artifact, cfg.now);
    }
    s := Step(artifact, table, calls);
  }

  /** Generating an image that completed again is a cache hit: no client call, the same artifact. */
  lemma CompletedIsNotRegenerated(cfg: Config, t: Table, r: Request, base: nat, base': nat)
    requires cfg.useCache
    requires Single(cfg, t, r, base).artifact.status == Completed
    ensures var first := Single(cfg, t, r, base);
      var again := Single(cfg, first.table, r, base');
      again.calls == 0 && again.artifact == first.artifact.(source := DEFAULT_SOURCE)
  {
  }

  /** A cached image that did not complete is generated afresh. */
  lemma IncompleteCacheEntryRetries(cfg: Config, t: Table, r: Request, base: nat)
    requires KeyOf(cfg.md5, r) in t && t[KeyOf(cfg.md5, r)].status != Completed
    ensures Single(cfg, t, r, base).calls >= 1
  {
  }

  /** When the second attempt raises too, the image is recorded as failed with that error. */
  lemma BothAttemptsRaise(cfg: Config, t: Table, r: Request, base: nat, e1: string, e2: string)
    requires !cfg.useCache
    requires cfg.client(r, base) == Err(e1) && cfg.client(r, base + 1) == Err(e2)
    ensures Single(cfg, t, r, base).artifact == FailedArtifact(r, e2, cfg.now)
    ensures Single(cfg, t, r, base).calls == 2
  {
  }

  /** An attempt that raises followed by one that does not complete: the incomplete artifact is kept. */
  lemma RaiseThenIncomplete(cfg: Config, t: Table, r: Request, base: nat, e: string, a: Artifact)
    requires !cfg.useCache && a.status != Completed
    requires cfg.client(r, base) == Err(e) && cfg.client(r, base + 1) == Ok(a)
    ensures Single(cfg, t, r, base).artifact == a
  {
  }

  datatype Batch = Batch(artifacts: seq<Artifact>, table: Table, calls: nat)

  /** One more request generated after a batch, seeing the cache the batch left. */
  function Extend(cfg: Config, p: Batch, r: Request): (b: Batch)
    ensures |b.artifacts| == |p.artifacts| + 1 && p.artifacts <= b.artifacts
    ensures b.calls <= p.calls + MAX_RETRIES + 1
    ensures !cfg.useCache ==> b.table == p.table
    ensures cfg.useCache ==> p.table.Keys <= b.table.Keys && KeyOf(cfg.md5, r) in b.table
  {
    var s := Single(cfg, p.table, r, p.calls);
    Batch(p.artifacts + [s.artifact], s.table, p.calls + s.calls)
  }

  /** The requests processed one after the other, each seeing the cache the previous ones left. */
  function Run(cfg: Config, t: Table, rs: seq<Request>): (b: Batch)
    ensures |b.artifacts| == |rs|
    ensures b.calls <= (MAX_RETRIES + 1) * |rs|
    ensures !cfg.useCache ==> b.table == t
    ensures cfg.useCache ==> t.Keys <= b.table.Keys && forall i | 0 <= i < |rs| :: KeyOf(cfg.md5, rs[i]) in b.table
  {
    if rs == [] then Batch([], t, 0)
    else
      var init := rs[..|rs| - 1];
      assert forall i | 0 <= i < |init| :: init[i] == rs[i];
      Extend(cfg, Run(cfg, t, init), rs[|rs| - 1])
  }

  /** Later requests do not change the artifacts of earlier ones: results come in request order. */
  lemma {:induction false} RunPrefix(cfg: Config, t: Table, rs: seq<Request>, k: nat)
    requires k <= |rs|
    ensures Run(cfg, t, rs[..k]).artifacts == Run(cfg, t, rs).artifacts[..k]
    decreases |rs|
  {
    if k < |rs| {
      var init := rs[..|rs| - 1];
      assert init[..k] == rs[..k];
      RunPrefix(cfg, t, init, k);
    } else {
      assert rs[..k] == rs;
    }
  }

  /** The `i`-th artifact is what generating the `i`-th request gives after the ones before it. */
  lemma RunStep(cfg: Config, t: Table, rs: seq<Request>, i: nat)
    requires i < |rs|
    ensures var before := Run(cfg, t, rs[..i]);
      Run(cfg, t, rs).artifacts[i] == Single(cfg, before.table, rs[i], before.calls).artifact
  {
    RunPrefix(cfg, t, rs, i + 1);
    var upTo := rs[..i + 1];
    assert upTo[..i] == rs[..i] && upTo[i] == rs[i];
    assert Run(cfg, t, upTo) == Extend(cfg, Run(cfg, t, rs[..i]), rs[i]);
    ExtendLast(cfg, Run(cfg, t, rs[..i]), rs[i]);
  }

  lemma ExtendLast(cfg: Config, p: Batch, r: Request)
    ensures Extend(cfg, p, r).artifacts[|p.artifacts|] == Single(cfg, p.table, r, p.calls).artifact
  {
  }

  /** `max_images or 3`, capped at 3: a missing or zero limit means 3. */
  function Cap(maxImages: Option<int>): (c: int)
    ensures c <= MAX_IMAGES_PER_RUN
    ensures maxImages.None? || maxImages == Some(0) ==> c == MAX_IMAGES_PER_RUN
    ensures maxImages.Some? && maxImages.value != 0 ==> c == if maxImages.value < 3 then maxImages.value else 3
  {
    var wanted := if maxImages.Some? && maxImages.value != 0 then maxImages.value else MAX_IMAGES_PER_RUN;
    if wanted < MAX_IMAGES_PER_RUN then wanted else MAX_IMAGES_PER_RUN
  }

  /** The loop of `generate_images` over the requests it keeps. */
  method GenerateAll(cfg: Config, t: Table, rs: seq<Request>) returns (b: Batch)
    ensures b == Run(cfg, t, rs)
  {
    var artifacts: seq<Artifact> := [];
    var table := t;
    var calls: nat := 0;
    var i := 0;
    while i < |rs|
      invariant 0 <= i <= |rs|
      invariant Batch(artifacts, table, calls) == Run(cfg, t, rs[..i])
    {
      assert rs[..i + 1][..i] == rs[..i];
      var s := GenerateSingle(cfg, table, rs[i], calls);
      artifacts := artifacts + [s.artifact];
      table := s.table;
      calls := calls + s.calls;
      i := i + 1;
    }
    assert rs[..i] == rs;
    b := Batch(artifacts, table, calls);
  }

  /**
   * `generate_images` as written: nothing when generation is disabled;
   * otherwise `requests[:cap]` in order. A negative cap slices from the
   * end, so it does not bound the count.
   */
  method GenerateImages(enabled: bool, cfg: Config, t: Table, requests: seq<Request>, maxImages: Option<int>)
    returns (b: Batch)
    ensures !enabled ==> b == Batch([], t, 0)
    ensures enabled ==> b == Run(cfg, t, PyTake(requests, Cap(maxImages)))
    ensures enabled && Cap(maxImages) >= 0 ==> |b.artifacts| <= MAX_IMAGES_PER_RUN
  {
    if !enabled {
      return Batch([], t, 0);
    }
    b := GenerateAll(cfg, t, PyTake(requests, Cap(maxImages)));
  }

  /** With a limit of -1, ten requests give nine images, three times the per-run cap. */
  lemma NegativeLimitExceedsCap(cfg: Config, t: Table, requests: seq<Request>)
    requires |requests| == 10
    ensures |Run(cfg, t, PyTake(requests, Cap(Some(-1)))).artifacts| == 9
  {
  }

  /** The cap clamped to `0..3`, so that a negative limit generates nothing. */
  function BoundedCap(maxImages: Option<int>): (c: nat)
    ensures c <= MAX_IMAGES_PER_RUN
    ensures maxImages.None? || maxImages == Some(0) ==> c == MAX_IMAGES_PER_RUN
    ensures maxImages.Some? && maxImages.value < 0 ==> c == 0
    ensures maxImages.Some? && maxImages.value > 0 ==> c == if maxImages.value < 3 then maxImages.value else 3
  {
    var c := Cap(maxImages);
    if c < 0 then 0 else c
  }

  /** `generate_images` with the cap enforced: never more than three images, and never more than asked for. */
  method GenerateImagesBounded(enabled: bool, cfg: Config, t: Table, requests: seq<Request>, maxImages: Option<int>)
    returns (b: Batch)
    ensures !enabled ==> b == Batch([], t, 0)
    ensures enabled ==> b == Run(cfg, t, requests[..if |requests| < BoundedCap(maxImages) then |requests| else BoundedCap(maxImages)])
    ensures |b.artifacts| <= MAX_IMAGES_PER_RUN && |b.artifacts| <= |requests|
    ensures b.calls <= (MAX_RETRIES + 1) * MAX_IMAGES_PER_RUN
  {
    if !enabled {
      return Batch([], t, 0);
    }
    var c := BoundedCap(maxImages);
    b := GenerateAll(cfg, t, requests[..if |requests| < c then |requests| else c]);
  }

  /** For every limit the source means (none, zero, or positive) the bounded version keeps the same requests. */
  lemma BoundedAgreesOnMeaningfulLimits(requests: seq<Request>, maxImages: Option<int>)
    requires maxImages.None? || maxImages.value >= 0
    ensures PyTake(requests, Cap(maxImages))
         == requests[..if |requests| < BoundedCap(maxImages) then |requests| else BoundedCap(maxImages)]
  {
  }

  /** The number of artifacts: all requests up to the cap, or all but the last `-n` for a negative limit. */
  lemma ArtifactCount(cfg: Config, t: Table, requests: seq<Request>, maxImages: Option<int>)
    ensures var n, c := |Run(cfg, t, PyTake(requests, Cap(maxImages))).artifacts|, Cap(maxImages);
      && (c >= 0 ==> n == if |requests| < c then |requests| else c)
      && (c < 0 ==> n == if |requests| + c >= 0 then |requests| + c else 0)
  {
  }
}

=== FILE: image_models.dfy ===
/**
 * The records of the image pipeline: a generation request and the
 * artifact it produces, with the defaults the dataclasses give them.
 */
module ImageModels {

  import opened Common

  datatype ImageStatus = Queued | Generating | Completed | Failed

  /** Seconds since some epoch; a larger value is later. */
  type Time = int

  const DEFAULT_SOURCE := "freepik"
  const DEFAULT_ASPECT_RATIO := "16:9"

  /** What to draw; `rationale` is carried but never used by generation. */
  datatype Request = Request(
    title: string,
    prompt: string,
    rationale: string,
    aspectRatio: string,
    style: Option<string>)

  /** A generated (or failed) image. The creation time is always set. */
  datatype Artifact = Artifact(
    title: string,
    prompt: string,
    imageUrl: Option<string>,
    localPath: Option<string>,
    source: string,
    taskId: Option<string>,
    status: ImageStatus,
    createdAt: Time,
    aspectRatio: string,
    style: Option<string>,
    errorMessage: Option<string>)
}

=== FILE: ip_address.dfy ===
/**
 * The part of Python's `ipaddress` module that `urlsplit` consults for a
 * host written between IPv6 brackets: whether `IPv4Address(s)` and
 * `IPv6Address(s)` accept a string. Only acceptance is modelled, not the
 * address's numeric value.
 */
module IpAddress {

  import opened Common
  import opened Text

  /** An ASCII decimal digit: Python's `c.isascii() and c.isdigit()`. */
  predicate IsDecimalDigit(c: char) {
    '0' <= c <= '9'
  }

  predicate IsHexDigit(c: char) {
    ('0' <= c <= '9') || ('a' <= c <= 'f') || ('A' <= c <= 'F')
  }

  /**
   * `IPv4Address._parse_octet`: one to three ASCII digits, no leading zero
   * unless the octet is "0", and a value of at most 255.
   */
  predicate IsOctet(s: string) {
    && 0 < |s| <= 3
    && (forall k | 0 <= k < |s| :: IsDecimalDigit(s[k]))
    && (s == "0" || s[0] != '0')
    && DigitsValue(s) <= 255
  }

  /** `IPv4Address(s)` accepts `s`: exactly four octets separated by '.'. */
  predicate IsIPv4(s: string) {
    && s != ""
    && '/' !in s
    && |SplitOn(s, '.')| == 4
    && forall i | 0 <= i < 4 :: IsOctet(SplitOn(s, '.')[i])
  }

  /** `IPv6Address._parse_hextet`: one to four hexadecimal digits. */
  predicate IsHextet(s: string) {
    0 < |s| <= 4 && forall k | 0 <= k < |s| :: IsHexDigit(s[k])
  }

  /** The number of 16-bit groups in an IPv6 address. */
  const HEXTET_COUNT := 8

  /**
   * The colon-separated parts with an IPv4-style last part (one holding a
   * '.') replaced by the two hextets it stands for, or `None` when that
   * part is not an IPv4 address. Whether parsing succeeds depends only on
   * how many hextets there are and that each is well formed, so both
   * stand-ins are written "0".
   */
  function WithIPv4Tail(parts: seq<string>): (r: Option<seq<string>>)
    requires parts != []
    ensures r.Some? && '.' !in parts[|parts| - 1] ==> r.value == parts
    ensures r.Some? && '.' in parts[|parts| - 1] ==>
      && IsIPv4(parts[|parts| - 1])
      && r.value == parts[..|parts| - 1] + ["0", "0"]
    ensures r.None? <==> '.' in parts[|parts| - 1] && !IsIPv4(parts[|parts| - 1])
  {
    var last := parts[|parts| - 1];
    if '.' !in last then Some(parts)
    else if IsIPv4(last) then Some(parts[..|parts| - 1] + ["0", "0"])
    else None
  }

  /** The indices from `from` on, short of the last, whose part is empty: the places of a "::". */
  function EmptyInterior(parts: seq<string>, from: nat): (r: seq<nat>)
    ensures forall j | 0 <= j < |r| :: from <= r[j] < |parts| - 1 && parts[r[j]] == ""
    ensures forall i | from <= i < |parts| - 1 && parts[i] == "" :: i in r
    ensures forall j, k | 0 <= j < k < |r| :: r[j] < r[k]
    decreases |parts| - from
  {
    if from + 1 >= |parts| then []
    else (if parts[from] == "" then [from] else []) + EmptyInterior(parts, from + 1)
  }

  /**
   * The hextet layout `IPv6Address._ip_int_from_string` accepts: at most
   * one "::" (an empty part between the ends), which must stand for at
   * least one zero group and is the only place an empty end part may sit;
   * without one, exactly eight parts. Every written part is a hextet.
   */
  predicate HextetsOk(parts: seq<string>)
    requires |parts| >= 3
  {
    var gaps := EmptyInterior(parts, 1);
    if |gaps| > 1 then false
    else if |gaps| == 1 then
      var skip := gaps[0];
      var hi := if parts[0] == "" then skip - 1 else skip;
      var lo := if parts[|parts| - 1] == "" then |parts| - skip - 2 else |parts| - skip - 1;
      && (parts[0] == "" ==> hi == 0)
      && (parts[|parts| - 1] == "" ==> lo == 0)
      && HEXTET_COUNT - (hi + lo) >= 1
      && (forall i | 0 <= i < hi :: IsHextet(parts[i]))
      && (forall i | |parts| - lo <= i < |parts| :: IsHextet(parts[i]))
    else
      && |parts| == HEXTET_COUNT
      && parts[0] != ""
      && parts[|parts| - 1] != ""
      && forall i | 0 <= i < |parts| :: IsHextet(parts[i])
  }

  /**
   * `IPv6Address._ip_int_from_string`: at least three colon-separated
   * parts, an IPv4 last part allowed, at most nine parts once it is
   * expanded, and the hextet layout above.
   */
  predicate IsIPv6Address(ip: string) {
    && ip != ""
    && var parts := SplitOn(ip, ':');
       && |parts| >= 3
       && match WithIPv4Tail(parts)
          case None => false
          case Some(ps) => |ps| <= HEXTET_COUNT + 1 && HextetsOk(ps)
  }

  /**
   * `IPv6Address(s)` accepts `s`: no '/', an optional "%scope" suffix that
   * is non-empty and holds no further '%', and an address before it.
   */
  predicate IsIPv6(s: string) {
    && '/' !in s
    && var (addr, hasScope, scope) := Partition(s, '%');
       && (hasScope ==> scope != "" && '%' !in scope)
       && IsIPv6Address(addr)
  }

  /** `ip_address(s)` accepts `s`: as IPv4 first, then as IPv6. */
  predicate IsIPAddress(s: string) {
    IsIPv4(s) || IsIPv6(s)
  }

  // ---------------------------------------------------------------------
  // Properties.
  // ---------------------------------------------------------------------

  /**
   * No string is both an IPv4 and an IPv6 address, so `ip_address`
   * returns an IPv6 address exactly when `IPv6Address` accepts the string.
   */
  lemma IPv4IsNotIPv6(s: string)
    requires IsIPv4(s)
    ensures !IsIPv6(s)
  {
    IPv4Chars(s);
    assert '%' !in s && ':' !in s;
    assert Partition(s, '%') == (s, false, "");
    SplitOnNone(s, ':');
  }

  /** An IPv4 address holds digits and dots only. */
  lemma IPv4Chars(s: string)
    requires IsIPv4(s)
    ensures forall k | 0 <= k < |s| :: IsDecimalDigit(s[k]) || s[k] == '.'
  {
    var octets := SplitOn(s, '.');
    JoinSplitOn(s, '.');
    assert forall i, k | 0 <= i < |octets| && 0 <= k < |octets[i]| :: IsDecimalDigit(octets[i][k]) by {
      forall i | 0 <= i < |octets| ensures IsOctet(octets[i]) { }
    }
    JoinAlphabet(".", octets, c => IsDecimalDigit(c) || c == '.');
  }

  /** The characters an accepted address proper may hold. */
  predicate IsAddressChar(c: char) {
    IsHexDigit(c) || c == ':' || c == '.'
  }

  /** Every part of an accepted hextet layout is a hextet or empty. */
  lemma HextetsOkParts(parts: seq<string>)
    requires |parts| >= 3 && HextetsOk(parts)
    ensures forall i | 0 <= i < |parts| :: parts[i] == "" || IsHextet(parts[i])
  {
    var gaps := EmptyInterior(parts, 1);
    if |gaps| == 1 {
      var skip := gaps[0];
      var hi := if parts[0] == "" then skip - 1 else skip;
      var lo := if parts[|parts| - 1] == "" then |parts| - skip - 2 else |parts| - skip - 1;
      forall i | 0 <= i < |parts| ensures parts[i] == "" || IsHextet(parts[i]) {
        if i < hi {
        } else if i >= |parts| - lo {
        } else if i == skip {
        } else if i < skip {
          assert i == 0 && parts[0] == "";
        } else {
          assert i == |parts| - 1 && parts[i] == "";
        }
      }
    }
  }

  /**
   * An address `IPv6Address` accepts is written with hexadecimal digits,
   * ':' and, in an IPv4 tail, '.' only.
   */
  lemma AddressAlphabet(ip: string)
    requires IsIPv6Address(ip)
    ensures forall k | 0 <= k < |ip| :: IsAddressChar(ip[k])
  {
    var parts := SplitOn(ip, ':');
    PartsAlphabet(parts);
    JoinSplitOn(ip, ':');
    JoinAlphabet(":", parts, IsAddressChar);
  }

  /** Each colon-separated part of an accepted address is a hextet, empty, or an IPv4 tail. */
  lemma PartsAlphabet(parts: seq<string>)
    requires |parts| >= 3 && WithIPv4Tail(parts).Some?
    requires HextetsOk(WithIPv4Tail(parts).value)
    ensures forall i, k | 0 <= i < |parts| && 0 <= k < |parts[i]| :: IsAddressChar(parts[i][k])
  {
    var ps := WithIPv4Tail(parts).value;
    HextetsOkParts(ps);
    ExpandedAlphabet(parts, ps);
  }

  /** Parts whose expansion holds hextets and empty parts only are written in the address alphabet. */
  lemma ExpandedAlphabet(parts: seq<string>, ps: seq<string>)
    requires parts != []
    requires var n := |parts| - 1;
      || ('.' !in parts[n] && ps == parts)
      || ('.' in parts[n] && IsIPv4(parts[n]) && ps == parts[..n] + ["0", "0"])
    requires forall i | 0 <= i < |ps| :: ps[i] == "" || IsHextet(ps[i])
    ensures forall i, k | 0 <= i < |parts| && 0 <= k < |parts[i]| :: IsAddressChar(parts[i][k])
  {
    var n := |parts| - 1;
    var tail := '.' in parts[n];
    if tail {
      IPv4Chars(parts[n]);
    }
    forall i, k | 0 <= i < |parts| && 0 <= k < |parts[i]| ensures IsAddressChar(parts[i][k]) {
      if !tail || i < n {
        assert parts[i] == ps[i];
        assert ps[i] != "";
        assert IsHexDigit(ps[i][k]);
      }
    }
  }

  /** Eight hextets joined by ':' form an address `IPv6Address` accepts. */
  lemma FullForm(hs: seq<string>)
    requires |hs| == HEXTET_COUNT
    requires forall i | 0 <= i < |hs| :: IsHextet(hs[i])
    ensures IsIPv6(Join(":", hs))
  {
    var s := Join(":", hs);
    HextetJoin(hs);
    assert Partition(s, '%') == (s, false, "");
    HextetLayout(hs);
  }

  /** Eight hextets, none of them empty, make an accepted layout without an IPv4 tail. */
  lemma HextetLayout(hs: seq<string>)
    requires |hs| == HEXTET_COUNT
    requires forall i | 0 <= i < |hs| :: IsHextet(hs[i])
    ensures WithIPv4Tail(hs) == Some(hs) && HextetsOk(hs)
  {
    assert '.' !in hs[|hs| - 1] by {
      var h := hs[|hs| - 1];
      assert forall k | 0 <= k < |h| :: IsHexDigit(h[k]);
    }
    NoEmptyInterior(hs, 1);
  }

  /** Joining hextets with ':' splits back into them and brings in no '%' or '/'. */
  lemma HextetJoin(hs: seq<string>)
    requires |hs| > 0
    requires forall i | 0 <= i < |hs| :: IsHextet(hs[i])
    ensures var s := Join(":", hs);
      '%' !in s && '/' !in s && SplitOn(s, ':') == hs
  {
    forall i, k | 0 <= i < |hs| && 0 <= k < |hs[i]| ensures hs[i][k] !in ":%/" {
      assert IsHexDigit(hs[i][k]);
    }
    JoinAlphabet(":", hs, c => c != '%' && c != '/');
    SplitOnJoin(hs, ':');
    assert [':'] == ":";
  }

  /** Without empty parts there is no "::". */
  lemma {:induction false} NoEmptyInterior(parts: seq<string>, from: nat)
    requires forall i | 0 <= i < |parts| :: IsHextet(parts[i])
    ensures EmptyInterior(parts, from) == []
    decreases |parts| - from
  {
    if from + 1 < |parts| {
      assert IsHextet(parts[from]);
      NoEmptyInterior(parts, from + 1);
    }
  }

  lemma LoopbackSplit()
    ensures SplitOn("::1", ':') == ["", "", "1"]
  {
    SplitOnNone("1", ':');
    SplitOnAfter("", ':', "1");
    SplitOnAfter("", ':', ":1");
  }

  lemma TwoGapsSplit()
    ensures SplitOn("1::2::3", ':') == ["1", "", "2", "", "3"]
  {
    var parts := ["1", "", "2", "", "3"];
    assert Join(":", parts) == "1::2::3";
    SplitOnJoin(parts, ':');
    assert [':'] == ":";
  }

  /** The loopback address in its compressed form is accepted. */
  lemma LoopbackExample()
    ensures IsIPv6("::1")
  {
    LoopbackSplit();
    assert EmptyInterior(["", "", "1"], 1) == [1];
    assert IsHextet("1");
    assert Partition("::1", '%') == ("::1", false, "");
  }

  /** A single digit is an octet. */
  lemma DigitOctet(d: char)
    requires IsDecimalDigit(d)
    ensures IsOctet([d])
  {
    assert [d][..0] == [];
  }

  lemma DottedQuadSplit()
    ensures SplitOn("1.2.3.4", '.') == ["1", "2", "3", "4"]
  {
    var octets := ["1", "2", "3", "4"];
    assert Join(".", octets) == "1.2.3.4";
    SplitOnJoin(octets, '.');
    assert ['.'] == ".";
  }

  /** "1.2.3.4" is an IPv4 address. */
  lemma DottedQuadIsIPv4()
    ensures IsIPv4("1.2.3.4")
  {
    DottedQuadSplit();
    DigitOctet('1');
    DigitOctet('2');
    DigitOctet('3');
    DigitOctet('4');
  }

  /** A dotted quad is an IPv4 address, so not an IPv6 one. */
  lemma DottedQuadExample()
    ensures IsIPv4("1.2.3.4") && !IsIPv6("1.2.3.4")
  {
    DottedQuadIsIPv4();
    IPv4IsNotIPv6("1.2.3.4");
  }

  /** Two "::" are refused. */
  lemma TwoGapsExample()
    ensures !IsIPv6("1::2::3")
  {
    assert Partition("1::2::3", '%') == ("1::2::3", false, "");
    TwoGapsSplit();
    var parts := ["1", "", "2", "", "3"];
    assert WithIPv4Tail(parts) == Some(parts);
    var gaps := EmptyInterior(parts, 1);
    assert 1 in gaps && 3 in gaps;
    assert gaps[0] != gaps[|gaps| - 1];
    assert !HextetsOk(parts);
  }

  /** A name is not an address. */
  lemma NameExample()
    ensures !IsIPv6("x")
  {
    assert Partition("x", '%') == ("x", false, "");
    SplitOnNone("x", ':');
  }
}

=== FILE: json.dfy ===
/**
 * JSON values as the monitoring code sees them after decoding, with
 * Python's truthiness, `dict.get` and `or`.
 */
module JsonData {

  import opened Common

  datatype Json =
    | JNull
    | JBool(b: bool)
    | JInt(i: int)
    | JFloat(r: real)
    | JStr(s: string)
    | JArr(items: seq<Json>)
    | JObj(fields: map<string, Json>)

  /** Python's `bool(v)`: false for null, false, 0, 0.0, "" and empty containers. */
  predicate IsTruthy(v: Json) {
    match v
    case JNull => false
    case JBool(b) => b
    case JInt(i) => i != 0
    case JFloat(r) => r != 0.0
    case JStr(s) => s != ""
    case JArr(items) => items != []
    case JObj(fields) => fields != map[]
  }

  /** `d.get(key, default)` on a dictionary. */
  function Get(fields: map<string, Json>, key: string, default: Json): (v: Json)
    ensures key in fields ==> v == fields[key]
    ensures key !in fields ==> v == default
  {
    if key in fields then fields[key] else default
  }

  /** Python's `a or b`: `a` when it is truthy, `b` otherwise. */
  function OrElse(a: Json, b: Json): (v: Json)
    ensures IsTruthy(a) ==> v == a
    ensures !IsTruthy(a) ==> v == b
  {
    if IsTruthy(a) then a else b
  }

  /** An optional string as JSON: `None` is null. */
  function OfOption(s: Option<string>): (v: Json)
    ensures IsTruthy(v) <==> s.Some? && s.value != ""
  {
    if s.Some? then JStr(s.value) else JNull
  }
}

=== FILE: models.dfy ===
/**
 * The records the research pipeline passes between its stages: tasks,
 * findings, the final report, and the retriever's URL candidates and
 * documents.
 */
module Models {

  import opened Common

  /** A task's `status` string: "pending", "running", "completed" or "failed". */
  datatype Status = Pending | Running | Completed | Failed

  /** One step of a research plan. */
  datatype Task = Task(id: string, description: string, status: Status, result: Option<Finding>)

  /** The `extracted_data` dictionary of a finding, in the two shapes the web agent writes. */
  datatype FindingData =
    | ErrorData(error: string, topic: string)
    | EvidenceData(sourceCount: nat, urls: seq<string>, methods: seq<string>, topic: string, avgScore: real)

  /**
   * What a task produced: the source it came from ("N/A" for the
   * insufficient-evidence findings), its text, a relevance score, the
   * extracted data and the analyzer's remark added by the graph.
   */
  datatype Finding = Finding(
    sourceUrl: string,
    content: string,
    relevance: real,
    data: Option<FindingData>,
    analysis: Option<string>)

  /** The source of a finding that rests on no document. */
  const NOT_AVAILABLE := "N/A"

  /** The report that ends a run. */
  datatype FinalReport = FinalReport(summary: string, findings: seq<Finding>, sources: seq<string>, formatted: string)

  /** A search hit: where to fetch, and what the search engine said about it. */
  datatype Candidate = Candidate(url: string, title: string, snippet: string)

  /** A fetched page: its text, how it was obtained, and (for live fetches) the first 1000 characters of raw HTML. */
  datatype Document = Document(
    url: string,
    title: string,
    text: string,
    textLength: nat,
    rawHtml: Option<string>,
    retrievalMethod: string)
}

=== FILE: planner.dfy ===
/**
 * The planner's handling of the language model's reply: split it into
 * lines, strip list bullets and numbering, keep the meaningful lines as
 * pending tasks, and fall back to one task holding the user's query when
 * nothing is left or the model call failed. The model itself and the
 * UUID generator are parameters.
 */
module Planner {

  import opened Common
  import opened Text
  import opened Models

  /** A cleaned line must be longer than this to become a task. */
  const MIN_TASK_CHARS: nat := 10

  const LIST_MODE_MESSAGE := "Planner generated tasks (List Mode)."

  /** The characters of a list marker: digits, `.`, `-`, `*` and `)`. */
  predicate IsMarker(c: char) {
    '0' <= c <= '9' || c == '.' || c == '-' || c == '*' || c == ')'
  }

  /** The length of the run of marker characters `s` starts with. */
  function MarkerLen(s: string): (n: nat)
    ensures n <= |s|
    ensures forall j | 0 <= j < n :: IsMarker(s[j])
    ensures n < |s| ==> !IsMarker(s[n])
  {
    if s != [] && IsMarker(s[0]) then 1 + MarkerLen(s[1..]) else 0
  }

  /**
   * A stripped line with a leading run of marker characters and the
   * whitespace after it cut off; a line without a marker is kept as it is.
   */
  function Unmarked(s: string): string {
    var m := MarkerLen(s);
    if m == 0 then s else s[SkipSpaces(s, m)..]
  }

  /**
   * `r` is what is left of `s` once a maximal run of marker characters at
   * its start and the whitespace after it are cut off; without a marker
   * run, `r` is `s` itself.
   */
  predicate MarkerCut(s: string, r: string) {
    && |r| <= |s| && r == s[|s| - |r|..]
    && (MarkerLen(s) == 0 ==> r == s)
    && (MarkerLen(s) > 0 ==>
          && |r| <= |s| - MarkerLen(s)
          && (forall j | 0 <= j < MarkerLen(s) :: IsMarker(s[j]))
          && (forall j | MarkerLen(s) <= j < |s| - |r| :: IsSpace(s[j]))
          && (r == [] || !IsSpace(r[0])))
  }

  /** The cut is determined by the line: no two different results fit it. */
  lemma MarkerCutUnique(s: string, r1: string, r2: string)
    requires MarkerCut(s, r1) && MarkerCut(s, r2)
    ensures r1 == r2
  {
    if MarkerLen(s) > 0 {
      CutNotShorter(s, r1, r2);
      CutNotShorter(s, r2, r1);
    }
  }

  lemma CutNotShorter(s: string, r1: string, r2: string)
    requires MarkerCut(s, r1) && MarkerCut(s, r2) && MarkerLen(s) > 0
    ensures |r1| <= |r2|
  {
    if r1 != [] {
      assert r1[0] == s[|s| - |r1|];
    }
  }

  lemma UnmarkedShape(s: string)
    ensures MarkerCut(s, Unmarked(s))
  {
    var m := MarkerLen(s);
    if m > 0 {
      var k := SkipSpaces(s, m);
      assert Unmarked(s) == s[k..];
    } else {
      assert s[0..] == s;
    }
  }

  /** The index of the first non-whitespace character of `s` at or after `m`, or `|s|`. */
  function SkipSpaces(s: string, m: nat): (k: nat)
    requires m <= |s|
    ensures m <= k <= |s|
    ensures forall j | m <= j < k :: IsSpace(s[j])
    ensures k < |s| ==> !IsSpace(s[k])
    decreases |s| - m
  {
    if m < |s| && IsSpace(s[m]) then SkipSpaces(s, m + 1) else m
  }

  /**
   * One line of the reply after `strip()` and the removal of a leading
   * run of marker characters together with the whitespace after it.
   */
  function CleanLine(line: string): string {
    Unmarked(Strip(line))
  }

  /**
   * The cleaned line is what remains of the stripped line once a maximal
   * marker run and the whitespace after it are cut off; a line that does
   * not start with a marker is only stripped.
   */
  lemma CleanLineShape(line: string)
    ensures MarkerCut(Strip(line), CleanLine(line))
  {
    UnmarkedShape(Strip(line));
  }

  /** The reply's lines, split on `\n`. */
  function Lines(reply: string): seq<string> {
    SplitOn(reply, '\n')
  }

  /**
   * The descriptions a list of lines yields under a cleaning function:
   * the cleaned lines longer than ten characters, in order.
   */
  function Descriptions(lines: seq<string>, clean: string -> string): (ds: seq<string>)
    ensures |ds| <= |lines|
    ensures forall i | 0 <= i < |ds| :: |ds[i]| > MIN_TASK_CHARS
  {
    if lines == [] then []
    else
      var c := clean(lines[|lines| - 1]);
      Descriptions(lines[..|lines| - 1], clean) + (if |c| > MIN_TASK_CHARS then [c] else [])
  }

  /** Every line whose cleaned form is long enough is represented among the descriptions. */
  lemma {:induction false} DescriptionsComplete(lines: seq<string>, clean: string -> string, i: nat)
    requires i < |lines| && |clean(lines[i])| > MIN_TASK_CHARS
    ensures clean(lines[i]) in Descriptions(lines, clean)
  {
    if i < |lines| - 1 {
      DescriptionsComplete(lines[..|lines| - 1], clean, i);
    }
  }

  /** Every description is the cleaned form of some line. */
  lemma {:induction false} DescriptionsSound(lines: seq<string>, clean: string -> string)
    ensures forall d | d in Descriptions(lines, clean) :: exists i | 0 <= i < |lines| :: clean(lines[i]) == d
  {
    if lines != [] {
      var init := lines[..|lines| - 1];
      DescriptionsSound(init, clean);
      forall d | d in Descriptions(lines, clean)
        ensures exists i | 0 <= i < |lines| :: clean(lines[i]) == d
      {
        if d in Descriptions(init, clean) {
          var i :| 0 <= i < |init| && clean(init[i]) == d;
          assert lines[i] == init[i];
        } else {
          assert clean(lines[|lines| - 1]) == d;
        }
      }
    }
  }

  /** The tasks for a list of descriptions: the `k`-th one gets the `k`-th generated id. */
  function TasksFor(ds: seq<string>, uuid: nat -> string): (ts: seq<Task>)
    ensures |ts| == |ds|
    ensures forall k | 0 <= k < |ts| :: ts[k] == Task(uuid(k), ds[k], Pending, None)
  {
    seq(|ds|, k requires 0 <= k < |ds| => Task(uuid(k), ds[k], Pending, None))
  }

  lemma TasksForSnoc(ds: seq<string>, d: string, uuid: nat -> string)
    ensures TasksFor(ds + [d], uuid) == TasksFor(ds, uuid) + [Task(uuid(|ds|), d, Pending, None)]
  {
    var a, b := TasksFor(ds + [d], uuid), TasksFor(ds, uuid) + [Task(uuid(|ds|), d, Pending, None)];
    assert forall k | 0 <= k < |a| :: a[k] == b[k];
  }

  datatype PlanUpdate = PlanUpdate(plan: seq<Task>, messages: seq<string>)

  /** The loop of `plan` over the lines: one pending task per line that cleans to more than ten characters. */
  method CollectTasks(lines: seq<string>, clean: string -> string, uuid: nat -> string) returns (tasks: seq<Task>)
    ensures tasks == TasksFor(Descriptions(lines, clean), uuid)
  {
    tasks := [];
    ghost var ds: seq<string> := [];
    var i := 0;
    while i < |lines|
      invariant 0 <= i <= |lines|
      invariant ds == Descriptions(lines[..i], clean)
      invariant tasks == TasksFor(ds, uuid)
    {
      assert lines[..i + 1][..i] == lines[..i];
      var cleaned := clean(lines[i]);
      if cleaned != "" && |cleaned| > MIN_TASK_CHARS {
        TasksForSnoc(ds, cleaned, uuid);
        tasks := tasks + [Task(uuid(|tasks|), cleaned, Pending, None)];
        ds := ds + [cleaned];
      } else {
        assert ds + [] == ds;
      }
      i := i + 1;
    }
    assert lines[..i] == lines;
  }

  /** The parsed plan, with the single-task fallback when no line qualifies. */
  method ParsePlan(reply: string, query: string, uuid: nat -> string) returns (tasks: seq<Task>)
    ensures var ds := Descriptions(Lines(reply), CleanLine);
      && (ds != [] ==> tasks == TasksFor(ds, uuid))
      && (ds == [] ==> tasks == [Task(uuid(0), query, Pending, None)])
    ensures tasks != []
    ensures forall k | 0 <= k < |tasks| :: tasks[k].status == Pending && tasks[k].result.None?
  {
    tasks := CollectTasks(Lines(reply), CleanLine, uuid);
    if tasks == [] {
      tasks := [Task(uuid(0), query, Pending, None)];
    }
  }

  /** `plan`: the model's reply parsed, or the fallback task when the call raised. */
  method Plan(query: string, reply: Result<string, string>, uuid: nat -> string) returns (u: PlanUpdate)
    ensures u.plan != [] && |u.messages| == 1
    ensures reply.Err? ==>
      u == PlanUpdate([Task(uuid(0), query, Pending, None)], ["Planner error: " + reply.error + ". Using fallback."])
    ensures reply.Ok? ==> u.messages == [LIST_MODE_MESSAGE]
    ensures reply.Ok? && Descriptions(Lines(reply.value), CleanLine) == [] ==> u.plan == [Task(uuid(0), query, Pending, None)]
    ensures reply.Ok? && Descriptions(Lines(reply.value), CleanLine) != [] ==>
      u.plan == TasksFor(Descriptions(Lines(reply.value), CleanLine), uuid)
    ensures reply.Ok? ==>
      forall k | 0 <= k < |u.plan| :: u.plan[k].status == Pending
        && (u.plan[k].description == query || |u.plan[k].description| > MIN_TASK_CHARS)
  {
    if reply.Err? {
      u := PlanUpdate([Task(uuid(0), query, Pending, None)], ["Planner error: " + reply.error + ". Using fallback."]);
    } else {
      var tasks := ParsePlan(reply.value, query, uuid);
      u := PlanUpdate(tasks, [LIST_MODE_MESSAGE]);
    }
  }

  lemma {:induction false} MarkerLenOfRun(m: string, t: string)
    requires forall j | 0 <= j < |m| :: IsMarker(m[j])
    ensures MarkerLen(m + t) == |m| + MarkerLen(t)
  {
    if m == [] {
      assert m + t == t;
    } else {
      assert (m + t)[1..] == m[1..] + t;
      MarkerLenOfRun(m[1..], t);
    }
  }

  lemma {:induction false} TrimStartOfSpaces(g: string, b: string)
    requires forall j | 0 <= j < |g| :: IsSpace(g[j])
    requires b == [] || !IsSpace(b[0])
    ensures TrimStart(g + b) == b
  {
    if g == [] {
      assert g + b == b;
    } else {
      assert (g + b)[1..] == g[1..] + b;
      TrimStartOfSpaces(g[1..], b);
    }
  }

  /** A text that neither starts nor ends with whitespace is its own `strip()`. */
  lemma StripOfTrimmed(s: string)
    requires s != [] && !IsSpace(s[0]) && !IsSpace(s[|s| - 1])
    ensures Strip(s) == s
  {
  }

  /**
   * A numbered or bulleted line: a marker run, whitespace, then the text,
   * cleans to the text alone.
   */
  lemma CleanListItem(marker: string, gap: string, body: string)
    requires marker != [] && forall j | 0 <= j < |marker| :: IsMarker(marker[j])
    requires forall j | 0 <= j < |gap| :: IsSpace(gap[j])
    requires body != [] && !IsSpace(body[0]) && !IsMarker(body[0]) && !IsSpace(body[|body| - 1])
    ensures CleanLine(marker + gap + body) == body
  {
    var s := marker + gap + body;
    assert s[0] == marker[0];
    assert s[|s| - 1] == body[|body| - 1];
    StripOfTrimmed(s);
    UnmarkedListItem(marker, gap, body);
  }

  lemma UnmarkedListItem(marker: string, gap: string, body: string)
    requires marker != [] && forall j | 0 <= j < |marker| :: IsMarker(marker[j])
    requires forall j | 0 <= j < |gap| :: IsSpace(gap[j])
    requires body != [] && !IsSpace(body[0]) && !IsMarker(body[0])
    ensures Unmarked(marker + gap + body) == body
  {
    var s := marker + gap + body;
    assert s == marker + (gap + body);
    MarkerLenOfRun(marker, gap + body);
    assert (gap + body)[0] == if gap != [] then gap[0] else body[0];
    var k := |marker| + |gap|;
    assert s[k] == body[0];
    assert forall j | |marker| <= j < k :: s[j] == gap[j - |marker|];
    assert SkipSpaces(s, |marker|) == k;
    assert s[k..] == body;
  }

  /** A line that does not start with a marker is only stripped. */
  lemma CleanPlainLine(pad: string, body: string, tail: string)
    requires forall j | 0 <= j < |pad| :: IsSpace(pad[j])
    requires forall j | 0 <= j < |tail| :: IsSpace(tail[j])
    requires body != [] && !IsSpace(body[0]) && !IsMarker(body[0]) && !IsSpace(body[|body| - 1])
    ensures CleanLine(pad + body + tail) == body
  {
    TrimStartOfSpaces(pad, body + tail);
    assert pad + body + tail == pad + (body + tail);
    TrimEndOfSpaces(body, tail);
  }

  lemma {:induction false} TrimEndOfSpaces(b: string, g: string)
    requires forall j | 0 <= j < |g| :: IsSpace(g[j])
    requires b == [] || !IsSpace(b[|b| - 1])
    ensures TrimEnd(b + g) == b
    decreases |g|
  {
    if g == [] {
      assert b + g == b;
    } else {
      var g' := g[..|g| - 1];
      assert (b + g)[..|b + g| - 1] == b + g';
      TrimEndOfSpaces(b, g');
    }
  }
}

=== FILE: scout_manager.dfy ===
/**
 * The scout manager: creating scouts, ingesting their updates page by
 * page, listing a scout's updates newest first, and soft-deleting
 * scouts, over a store of scouts keyed by id and a table of updates in
 * insertion order. The service calls, the ISO timestamp parser, the
 * clock and the UUID generator are parameters.
 */
module ScoutManager {

  import opened Common
  import opened Text
  import opened JsonData
  import opened StableSort
  import Yutori

  /** An instant; a larger value is later. */
  type Timestamp = int

  /** Parses an ISO-8601 date-time, or fails. */
  type IsoParser = string -> Option<Timestamp>

  /** A stored scout. `lastCursor` is the service's paging cursor, null until one is returned. */
  datatype Scout = Scout(
    id: string,
    query: string,
    originalQuery: string,
    outputInterval: int,
    nextRun: Option<Timestamp>,
    webhookUrl: Option<string>,
    metadata: Json,
    lastCursor: Json,
    isActive: bool)

  /** A stored update of a scout. */
  datatype Update = Update(
    id: string,
    scoutId: string,
    timestamp: Timestamp,
    headline: Json,
    summary: Json,
    citations: Json,
    fullContent: Json,
    metadata: Json)

  /** The two tables: scouts by id, and updates in insertion order. */
  datatype Store = Store(scouts: map<string, Scout>, updates: seq<Update>)

  const SUMMARY_CHARS: int := 500

  function UpdateIds(us: seq<Update>): (ids: set<string>)
    ensures forall i | 0 <= i < |us| :: us[i].id in ids
    ensures forall id | id in ids :: exists i | 0 <= i < |us| :: us[i].id == id
  {
    set i | 0 <= i < |us| :: us[i].id
  }

  /** Update ids are the table's primary key. */
  predicate UniqueIds(us: seq<Update>) {
    forall i, j | 0 <= i < j < |us| :: us[i].id != us[j].id
  }

  /** The store's invariant: unique update ids, and every update belongs to a stored scout. */
  predicate Valid(s: Store) {
    && UniqueIds(s.updates)
    && (forall i | 0 <= i < |s.updates| :: s.updates[i].scoutId in s.scouts)
    && (forall id | id in s.scouts :: s.scouts[id].id == id)
  }

  /** `s.replace(c, with)` for a single character `c`. */
  function ReplaceChar(s: string, c: char, with: string): (r: string)
    ensures c !in with ==> c !in r
    ensures c !in s ==> r == s
  {
    if s == [] then [] else (if s[0] == c then with else [s[0]]) + ReplaceChar(s[1..], c, with)
  }

  /** Timestamps the service writes with a `Z` suffix, parsed as UTC. */
  function ParseIsoZ(s: string, parseIso: IsoParser): Option<Timestamp> {
    parseIso(ReplaceChar(s, 'Z', "+00:00"))
  }

  // ---- create_scout ----

  datatype Created = Created(store: Store, scout: Scout)

  /** The query sent to the service: enhanced with monitoring instructions, or as typed. */
  function MonitoringQuery(query: string, enhance: bool): string {
    if enhance then Yutori.EnhanceQuery(query) else query
  }

  /**
   * A value SQLite can bind to a text, string or date-time column as the
   * ORM passes it on: null, a boolean, a 64-bit integer, a float or a string. A
   * list or an object cannot be bound, and neither can an integer outside
   * 64 bits, so committing a row that holds one raises.
   */
  predicate IsTextBindable(v: Json) {
    match v
    case JArr(_) => false
    case JObj(_) => false
    case JInt(i) => -0x8000_0000_0000_0000 <= i < 0x8000_0000_0000_0000
    case _ => true
  }

  /** The date-time column takes a parsed date-time or null; a raw value that is neither a string nor null raises at commit. */
  predicate IsDateTimeBindable(next: Json) {
    next.JStr? || next.JNull?
  }

  /** The message committing an unbindable value raises with. */
  const BIND_ERROR := "Error binding parameter: unsupported type"

  /**
   * `create_scout`: the interval in minutes becomes seconds, the service
   * creates the scout, and its answer is stored under the id it returned.
   * An answer without a string id, with an id already stored, or with a
   * `next_run_timestamp` the date-time column cannot take, cannot be
   * committed and fails.
   */
  function CreateScout(store: Store, query: string, intervalMinutes: int, enhance: bool, webhookUrl: Option<string>,
                       post: map<string, Json> -> Yutori.HttpResult, parseIso: IsoParser): (r: Result<Created, string>)
    ensures intervalMinutes < 30 ==> r.Err?
    ensures r.Ok? <==>
      && intervalMinutes >= 30
      && var answer := Yutori.CreateScout(MonitoringQuery(query, enhance), intervalMinutes * 60, webhookUrl, JNull,
                                          Yutori.DEFAULT_TIMEZONE, post);
         && answer.Ok?
         && Get(answer.value.fields, "id", JNull).JStr?
         && Get(answer.value.fields, "id", JNull).s !in store.scouts
         && IsDateTimeBindable(Get(answer.value.fields, "next_run_timestamp", JNull))
    ensures r.Ok? ==>
      var sc := r.value.scout;
      && sc.outputInterval == intervalMinutes * 60
      && sc.query == MonitoringQuery(query, enhance)
      && sc.originalQuery == query
      && sc.webhookUrl == webhookUrl
      && sc.isActive && sc.lastCursor == JNull
      && sc.id !in store.scouts
      && r.value.store == Store(store.scouts[sc.id := sc], store.updates)
    ensures r.Ok? ==> Yutori.CreateScout(MonitoringQuery(query, enhance), intervalMinutes * 60, webhookUrl, JNull,
                                         Yutori.DEFAULT_TIMEZONE, post) == Ok(r.value.scout.metadata)
    ensures r.Ok? ==>
      && r.value.scout.metadata.JObj?
      && Get(r.value.scout.metadata.fields, "id", JNull) == JStr(r.value.scout.id)
      && var next := Get(r.value.scout.metadata.fields, "next_run_timestamp", JNull);
         && (next.JStr? ==> r.value.scout.nextRun == ParseIsoZ(next.s, parseIso))
         && (next.JNull? ==> r.value.scout.nextRun.None?)
  {
    var monitoring := MonitoringQuery(query, enhance);
    var seconds := intervalMinutes * 60;
    var answer := Yutori.CreateScout(monitoring, seconds, webhookUrl, JNull, Yutori.DEFAULT_TIMEZONE, post);
    if answer.Err? then Err(answer.error)
    else
      var fields := answer.value.fields;
      var id := Get(fields, "id", JNull);
      var next := Get(fields, "next_run_timestamp", JNull);
      if !id.JStr? then Err("response carries no scout id")
      else if !IsDateTimeBindable(next) then Err(BIND_ERROR)
      else if id.s in store.scouts then Err("scout id already stored")
      else
        var nextRun := if next.JStr? then ParseIsoZ(next.s, parseIso) else None;
        var sc := Scout(id.s, monitoring, query, seconds, nextRun, webhookUrl, answer.value, JNull, true);
        Ok(Created(Store(store.scouts[id.s := sc], store.updates), sc))
  }

  lemma CreateKeepsValid(store: Store, query: string, intervalMinutes: int, enhance: bool, webhookUrl: Option<string>,
                         post: map<string, Json> -> Yutori.HttpResult, parseIso: IsoParser)
    requires Valid(store)
    ensures var r := CreateScout(store, query, intervalMinutes, enhance, webhookUrl, post, parseIso);
      r.Ok? ==> Valid(r.value.store)
  {
  }

  // ---- fetch_updates ----

  /**
   * One raw update as stored: the id falls back to a generated one, the
   * timestamp to `now`, and the text fields to their alternatives. A raw
   * update that is not an object, carries a non-string id, or has neither
   * a summary nor a sliceable content fails.
   */
  function ToUpdate(item: Json, scoutId: string, generatedId: string, now: Timestamp, parseIso: IsoParser): (r: Result<Update, string>)
    ensures r.Ok? ==>
      && item.JObj?
      && r.value.scoutId == scoutId
      && r.value.metadata == item
      && ("id" in item.fields ==> JStr(r.value.id) == item.fields["id"])
      && ("id" !in item.fields ==> r.value.id == generatedId)
      && r.value.headline == OrElse(Get(item.fields, "headline", JNull), Get(item.fields, "title", JNull))
      && r.value.fullContent == OrElse(Get(item.fields, "content", JNull), Get(item.fields, "full_text", JStr("")))
      && r.value.citations == OrElse(Get(item.fields, "citations", JNull), Get(item.fields, "sources", JArr([])))
      && (IsTruthy(Get(item.fields, "summary", JNull)) ==> r.value.summary == item.fields["summary"])
    ensures item.JObj? && ("id" !in item.fields || item.fields["id"].JStr?) && IsTruthy(Get(item.fields, "summary", JNull)) ==> r.Ok?
  {
    if !item.JObj? then Err("update is not an object")
    else
      var f := item.fields;
      var idv := Get(f, "id", JStr(generatedId));
      if !idv.JStr? then Err("update id is not a string")
      else
        var stamp := OrElse(Get(f, "timestamp", JNull), Get(f, "created_at", JNull));
        var parsed := if stamp.JStr? then ParseIsoZ(stamp.s, parseIso) else None;
        var timestamp := if parsed.Some? then parsed.value else now;
        var summary := Get(f, "summary", JNull);
        var content := Get(f, "content", JStr(""));
        var summaryOrCut :=
          if IsTruthy(summary) then Ok(summary)
          else if content.JStr? then Ok(JStr(PyTake(content.s, SUMMARY_CHARS)))
          else if content.JArr? then Ok(JArr(PyTake(content.items, SUMMARY_CHARS)))
          else Err("content cannot be sliced");
        if summaryOrCut.Err? then Err(summaryOrCut.error)
        else
          Ok(Update(idv.s, scoutId, timestamp,
                    OrElse(Get(f, "headline", JNull), Get(f, "title", JNull)),
                    summaryOrCut.value,
                    OrElse(Get(f, "citations", JNull), Get(f, "sources", JArr([]))),
                    OrElse(Get(f, "content", JNull), Get(f, "full_text", JStr(""))),
                    item))
  }

  /** Without a summary, the summary is the first 500 characters of the content. */
  lemma SummaryFallback(item: Json, scoutId: string, generatedId: string, now: Timestamp, parseIso: IsoParser)
    requires item.JObj? && !IsTruthy(Get(item.fields, "summary", JNull))
    requires "content" in item.fields && item.fields["content"].JStr?
    ensures var r := ToUpdate(item, scoutId, generatedId, now, parseIso);
      r.Ok? ==> r.value.summary == JStr(PyTake(item.fields["content"].s, SUMMARY_CHARS))
  {
  }

  /**
   * A summary of `0.0` is falsy, so the content is cut instead; a float
   * headline is kept as it is and can be bound like any number.
   */
  lemma FloatFieldsExample(now: Timestamp, parseIso: IsoParser)
    ensures var r := ToUpdate(JObj(map["summary" := JFloat(0.0), "headline" := JFloat(1.5), "content" := JStr("abc")]), "s", "g", now, parseIso);
      && r.Ok? && r.value.summary == JStr("abc") && r.value.headline == JFloat(1.5) && IsStorable(r.value)
  {
  }

  /** Converts raw update `k` of a page into a stored update. */
  type Converter = (Json, nat) -> Result<Update, string>

  /** The conversion `fetch_updates` applies: raw update `k` gets the `k`-th generated id. */
  function UpdateConverter(scoutId: string, uuid: nat -> string, now: Timestamp, parseIso: IsoParser): Converter {
    (item: Json, k: nat) => ToUpdate(item, scoutId, uuid(k), now, parseIso)
  }

  /**
   * The new updates a page yields, given the updates already stored: raw
   * update `k` is converted with index `k`, and an update whose id is
   * already stored (or was added earlier in the page) is skipped.
   */
  function Ingest(stored: seq<Update>, items: seq<Json>, convert: Converter): (r: Result<seq<Update>, string>)
    ensures r.Err? <==> exists k | 0 <= k < |items| :: convert(items[k], k).Err?
    ensures r.Ok? ==> |r.value| <= |items|
    decreases |items|
  {
    if items == [] then Ok([])
    else
      var k := |items| - 1;
      var before := Ingest(stored, items[..k], convert);
      if before.Err? then before
      else
        var u := convert(items[k], k);
        if u.Err? then Err(u.error)
        else if u.value.id in UpdateIds(stored + before.value) then before
        else Ok(before.value + [u.value])
  }

  /**
   * The stored updates are never touched; the new ones have fresh,
   * distinct ids, belong to the scout, and each is the conversion of a raw update.
   */
  lemma {:induction false} IngestFresh(stored: seq<Update>, items: seq<Json>, convert: Converter)
    requires UniqueIds(stored)
    ensures var r := Ingest(stored, items, convert);
      r.Ok? ==>
        && UniqueIds(stored + r.value)
        && |r.value| <= |items|
        && (forall i | 0 <= i < |r.value| :: r.value[i].id !in UpdateIds(stored))
        && (forall i | 0 <= i < |r.value| ::
              exists k | 0 <= k < |items| :: convert(items[k], k) == Ok(r.value[i]))
    decreases |items|
  {
    if items != [] {
      var k := |items| - 1;
      IngestFresh(stored, items[..k], convert);
      var before := Ingest(stored, items[..k], convert);
      if before.Ok? {
        var u := convert(items[k], k);
        if u.Ok? && u.value.id !in UpdateIds(stored + before.value) {
          var all := stored + before.value + [u.value];
          assert all == (stored + before.value) + [u.value];
          forall i, j | 0 <= i < j < |all| ensures all[i].id != all[j].id {
            if j < |all| - 1 {
              assert all[i] == (stored + before.value)[i] && all[j] == (stored + before.value)[j];
            } else {
              assert all[i] == (stored + before.value)[i];
            }
          }
          var r := before.value + [u.value];
          assert stored + r == all;
          forall i | 0 <= i < |r|
            ensures exists k' | 0 <= k' < |items| :: convert(items[k'], k') == Ok(r[i])
          {
            if i < |before.value| {
              FromPrefix(items, k, convert, before.value[i]);
            } else {
              assert convert(items[k], k) == Ok(r[i]);
            }
          }
          forall i | 0 <= i < |r| ensures r[i].id !in UpdateIds(stored) {
            if i == |r| - 1 {
              IdsOfPrefix(stored, before.value);
            }
          }
        } else if u.Ok? {
          forall i | 0 <= i < |before.value|
            ensures exists k' | 0 <= k' < |items| :: convert(items[k'], k') == Ok(before.value[i])
          {
            FromPrefix(items, k, convert, before.value[i]);
          }
        }
      }
    }
  }

  lemma FromPrefix(items: seq<Json>, k: nat, convert: Converter, x: Update)
    requires k <= |items|
    requires exists k' | 0 <= k' < |items[..k]| :: convert(items[..k][k'], k') == Ok(x)
    ensures exists k' | 0 <= k' < |items| :: convert(items[k'], k') == Ok(x)
  {
    var k' :| 0 <= k' < |items[..k]| && convert(items[..k][k'], k') == Ok(x);
    assert items[..k][k'] == items[k'];
  }

  lemma IdsOfPrefix(a: seq<Update>, b: seq<Update>)
    ensures UpdateIds(a) <= UpdateIds(a + b)
  {
    forall id | id in UpdateIds(a) ensures id in UpdateIds(a + b) {
      var j :| 0 <= j < |a| && a[j].id == id;
      assert (a + b)[j] == a[j];
    }
  }

  /** An id of `a + b` that is not an id of `a` is an id of `b`. */
  lemma IdsOfSuffix(a: seq<Update>, b: seq<Update>, id: string)
    requires id in UpdateIds(a + b)
    ensures id in UpdateIds(a) || id in UpdateIds(b)
  {
    var j :| 0 <= j < |a + b| && (a + b)[j].id == id;
    if j < |a| {
      assert a[j] == (a + b)[j];
    } else {
      assert b[j - |a|] == (a + b)[j];
    }
  }

  /** Every raw update whose id was not stored before ends up among the new updates. */
  lemma {:induction false} IngestComplete(stored: seq<Update>, items: seq<Json>, convert: Converter, k: nat)
    requires k < |items|
    requires Ingest(stored, items, convert).Ok?
    requires convert(items[k], k).Ok?
    requires convert(items[k], k).value.id !in UpdateIds(stored)
    ensures convert(items[k], k).value.id
            in UpdateIds(Ingest(stored, items, convert).value)
    decreases |items|
  {
    var n := |items| - 1;
    var before := Ingest(stored, items[..n], convert);
    var id := convert(items[k], k).value.id;
    if k < n {
      assert items[..n][k] == items[k];
      IngestComplete(stored, items[..n], convert, k);
      IdsGrow(before.value, Ingest(stored, items, convert).value, id);
    } else {
      var u := convert(items[n], n).value;
      if u.id in UpdateIds(stored + before.value) {
        IdsOfSuffix(stored, before.value, u.id);
      } else {
        var r := before.value + [u];
        assert r[|r| - 1] == u;
      }
    }
  }

  lemma IdsGrow(a: seq<Update>, b: seq<Update>, id: string)
    requires id in UpdateIds(a)
    requires b == a || (|b| == |a| + 1 && b[..|a|] == a)
    ensures id in UpdateIds(b)
  {
    var i :| 0 <= i < |a| && a[i].id == id;
    assert b[i] == a[i];
  }

  /**
   * Ingesting the same page twice adds nothing the second time, as long
   * as every raw update carries its own id.
   */
  lemma IngestIdempotent(stored: seq<Update>, items: seq<Json>, convert: Converter)
    requires UniqueIds(stored)
    requires forall k | 0 <= k < |items| :: items[k].JObj? && "id" in items[k].fields
    requires Ingest(stored, items, convert).Ok?
    ensures var first := Ingest(stored, items, convert).value;
      Ingest(stored + first, items, convert) == Ok([])
  {
    var first := Ingest(stored, items, convert).value;
    forall k | 0 <= k < |items|
      ensures convert(items[k], k).Ok?
      ensures convert(items[k], k).value.id in UpdateIds(stored + first)
    {
      IngestPrefixOk(stored, items, convert, k);
      var u := convert(items[k], k).value;
      if u.id in UpdateIds(stored) {
        var j :| 0 <= j < |stored| && stored[j].id == u.id;
        assert (stored + first)[j] == stored[j];
      } else {
        IngestComplete(stored, items, convert, k);
        var j :| 0 <= j < |first| && first[j].id == u.id;
        assert (stored + first)[|stored| + j] == first[j];
      }
    }
    IngestNothingNew(stored + first, items, convert);
  }

  /** A page that succeeds converts every raw update. */
  lemma {:induction false} IngestPrefixOk(stored: seq<Update>, items: seq<Json>, convert: Converter, k: nat)
    requires k < |items|
    requires Ingest(stored, items, convert).Ok?
    ensures convert(items[k], k).Ok?
    decreases |items|
  {
    var n := |items| - 1;
    if k < n {
      assert items[..n][k] == items[k];
      IngestPrefixOk(stored, items[..n], convert, k);
    }
  }

  /** When every raw update converts to an id already stored, nothing is added. */
  lemma {:induction false} IngestNothingNew(stored: seq<Update>, items: seq<Json>, convert: Converter)
    requires forall k | 0 <= k < |items| ::
      convert(items[k], k).Ok?
      && convert(items[k], k).value.id in UpdateIds(stored)
    ensures Ingest(stored, items, convert) == Ok([])
    decreases |items|
  {
    if items != [] {
      var n := |items| - 1;
      forall k | 0 <= k < n
        ensures convert(items[..n][k], k).Ok?
          && convert(items[..n][k], k).value.id in UpdateIds(stored)
      {
        assert items[..n][k] == items[k];
      }
      IngestNothingNew(stored, items[..n], convert);
      assert stored + [] == stored;
    }
  }

  datatype Fetched = Fetched(store: Store, added: seq<Update>)

  /**
   * The elements `for x in v` visits, where each must have a `get`: a
   * list gives its items; an empty string or object visits nothing; any
   * other string or object yields strings, whose `get` raises; and a
   * value that is not iterable raises at once.
   */
  function Iterated(v: Json): (r: Result<seq<Json>, string>)
    ensures v.JArr? ==> r == Ok(v.items)
    ensures !v.JArr? ==> (r.Ok? <==> v == JStr("") || v == JObj(map[]))
    ensures r.Ok? && !v.JArr? ==> r.value == []
  {
    match v
    case JArr(items) => Ok(items)
    case JStr(text) => if text == "" then Ok([]) else Err("'str' object has no attribute 'get'")
    case JObj(fields) => if fields == map[] then Ok([]) else Err("'str' object has no attribute 'get'")
    case _ => Err("items is not iterable")
  }

  /** The text columns of an update (headline, summary, content) can all be bound. */
  predicate IsStorable(u: Update) {
    IsTextBindable(u.headline) && IsTextBindable(u.summary) && IsTextBindable(u.fullContent)
  }

  predicate AllStorable(us: seq<Update>) {
    forall i | 0 <= i < |us| :: IsStorable(us[i])
  }

  /**
   * `fetch_updates`: poll the service from the scout's cursor, store the
   * updates not seen before, and move the cursor when the service
   * returned one. An unknown scout, a failed poll, or a new update or
   * cursor the database cannot bind changes nothing.
   */
  function FetchUpdates(store: Store, scoutId: string, get: (string, map<string, Json>) -> Yutori.HttpResult,
                        uuid: nat -> string, now: Timestamp, parseIso: IsoParser): (r: Result<Fetched, string>)
    ensures scoutId !in store.scouts ==> r == Err("Scout " + scoutId + " not found")
    ensures r.Ok? <==>
      && scoutId in store.scouts
      && var page := Yutori.GetUpdates(scoutId, store.scouts[scoutId].lastCursor, Yutori.DEFAULT_PAGE_SIZE, get);
         && page.Ok?
         && Iterated(page.value.items).Ok?
         && var added := Ingest(store.updates, Iterated(page.value.items).value, UpdateConverter(scoutId, uuid, now, parseIso));
            && added.Ok?
            && AllStorable(added.value)
            && (IsTruthy(page.value.nextCursor) ==> IsTextBindable(page.value.nextCursor))
    ensures r.Ok? ==>
      && scoutId in store.scouts
      && r.value.store.updates == store.updates + r.value.added
      && r.value.store.scouts.Keys == store.scouts.Keys
      && (forall id | id in store.scouts && id != scoutId :: r.value.store.scouts[id] == store.scouts[id])
      && var page := Yutori.GetUpdates(scoutId, store.scouts[scoutId].lastCursor, Yutori.DEFAULT_PAGE_SIZE, get);
         && page.Ok?
         && Iterated(page.value.items).Ok?
         && Ingest(store.updates, Iterated(page.value.items).value, UpdateConverter(scoutId, uuid, now, parseIso))
            == Ok(r.value.added)
         && (Iterated(page.value.items).value == [] ==> r.value.added == [])
         && (IsTruthy(page.value.nextCursor) ==>
               r.value.store.scouts[scoutId] == store.scouts[scoutId].(lastCursor := page.value.nextCursor))
         && (!IsTruthy(page.value.nextCursor) ==> r.value.store.scouts[scoutId] == store.scouts[scoutId])
  {
    if scoutId !in store.scouts then Err("Scout " + scoutId + " not found")
    else
      var sc := store.scouts[scoutId];
      var page := Yutori.GetUpdates(scoutId, sc.lastCursor, Yutori.DEFAULT_PAGE_SIZE, get);
      if page.Err? then Err(page.error)
      else
        var elems := Iterated(page.value.items);
        if elems.Err? then Err(elems.error)
        else
        var added := Ingest(store.updates, elems.value, UpdateConverter(scoutId, uuid, now, parseIso));
        if added.Err? then Err(added.error)
        else if !AllStorable(added.value) then Err(BIND_ERROR)
        else if IsTruthy(page.value.nextCursor) && !IsTextBindable(page.value.nextCursor) then Err(BIND_ERROR)
        else
          var sc' := if IsTruthy(page.value.nextCursor) then sc.(lastCursor := page.value.nextCursor) else sc;
          Ok(Fetched(Store(store.scouts[scoutId := sc'], store.updates + added.value), added.value))
  }

  /** Every update a fetch adds belongs to the fetched scout. */
  lemma AddedBelongToScout(stored: seq<Update>, items: seq<Json>, scoutId: string, uuid: nat -> string,
                           now: Timestamp, parseIso: IsoParser)
    requires UniqueIds(stored)
    ensures var r := Ingest(stored, items, UpdateConverter(scoutId, uuid, now, parseIso));
      r.Ok? ==> forall i | 0 <= i < |r.value| :: r.value[i].scoutId == scoutId
  {
    var convert := UpdateConverter(scoutId, uuid, now, parseIso);
    IngestFresh(stored, items, convert);
    var r := Ingest(stored, items, convert);
    if r.Ok? {
      forall i | 0 <= i < |r.value| ensures r.value[i].scoutId == scoutId {
        var k :| 0 <= k < |items| && convert(items[k], k) == Ok(r.value[i]);
        assert convert(items[k], k) == ToUpdate(items[k], scoutId, uuid(k), now, parseIso);
      }
    }
  }

  /** Appending updates of a stored scout with fresh distinct ids, and replacing that scout, keeps the invariant. */
  lemma AppendKeepsValid(store: Store, sc: Scout, added: seq<Update>)
    requires Valid(store) && sc.id in store.scouts
    requires UniqueIds(store.updates + added)
    requires forall i | 0 <= i < |added| :: added[i].scoutId == sc.id
    ensures Valid(Store(store.scouts[sc.id := sc], store.updates + added))
  {
    var s := Store(store.scouts[sc.id := sc], store.updates + added);
    forall i | 0 <= i < |s.updates| ensures s.updates[i].scoutId in s.scouts {
      if i >= |store.updates| {
        assert s.updates[i] == added[i - |store.updates|];
      } else {
        assert s.updates[i] == store.updates[i];
      }
    }
  }

  /** Fetching keeps the store's invariant, and the new updates are exactly those not seen before. */
  lemma FetchKeepsValid(store: Store, scoutId: string, get: (string, map<string, Json>) -> Yutori.HttpResult,
                        uuid: nat -> string, now: Timestamp, parseIso: IsoParser)
    requires Valid(store)
    ensures var r := FetchUpdates(store, scoutId, get, uuid, now, parseIso);
      r.Ok? ==> Valid(r.value.store) && forall i | 0 <= i < |r.value.added| :: r.value.added[i].id !in UpdateIds(store.updates)
  {
    var r := FetchUpdates(store, scoutId, get, uuid, now, parseIso);
    if r.Ok? {
      var page := Yutori.GetUpdates(scoutId, store.scouts[scoutId].lastCursor, Yutori.DEFAULT_PAGE_SIZE, get);
      var items := Iterated(page.value.items).value;
      IngestFresh(store.updates, items, UpdateConverter(scoutId, uuid, now, parseIso));
      AddedBelongToScout(store.updates, items, scoutId, uuid, now, parseIso);
      AppendKeepsValid(store, r.value.store.scouts[scoutId], r.value.added);
      assert r.value.store == Store(store.scouts[scoutId := r.value.store.scouts[scoutId]], store.updates + r.value.added);
    }
  }

  /** A 404 from the service is an empty page: nothing is stored and the cursor stays. */
  lemma NotFoundChangesNothing(store: Store, scoutId: string, get: (string, map<string, Json>) -> Yutori.HttpResult,
                               uuid: nat -> string, now: Timestamp, parseIso: IsoParser)
    requires scoutId in store.scouts
    requires get(scoutId, Yutori.UpdateParams(store.scouts[scoutId].lastCursor, Yutori.DEFAULT_PAGE_SIZE))
             == Yutori.StatusError(Yutori.HTTP_NOT_FOUND, "")
    ensures var r := FetchUpdates(store, scoutId, get, uuid, now, parseIso);
      r.Ok? && r.value.added == [] && r.value.store.updates == store.updates
      && r.value.store.scouts[scoutId] == store.scouts[scoutId]
  {
    assert store.updates + [] == store.updates;
  }

  /**
   * Only new rows are written: a page whose raw updates all convert to
   * stored ids succeeds whatever their text fields hold, and stores
   * nothing but its cursor.
   */
  lemma KnownUpdatesAreNotBound(store: Store, scoutId: string, get: (string, map<string, Json>) -> Yutori.HttpResult,
                                uuid: nat -> string, now: Timestamp, parseIso: IsoParser)
    requires scoutId in store.scouts
    requires var page := Yutori.GetUpdates(scoutId, store.scouts[scoutId].lastCursor, Yutori.DEFAULT_PAGE_SIZE, get);
      && page.Ok?
      && Iterated(page.value.items).Ok?
      && (IsTruthy(page.value.nextCursor) ==> IsTextBindable(page.value.nextCursor))
      && var items := Iterated(page.value.items).value;
         forall k | 0 <= k < |items| ::
           && ToUpdate(items[k], scoutId, uuid(k), now, parseIso).Ok?
           && ToUpdate(items[k], scoutId, uuid(k), now, parseIso).value.id in UpdateIds(store.updates)
    ensures var r := FetchUpdates(store, scoutId, get, uuid, now, parseIso);
      r.Ok? && r.value.added == [] && r.value.store.updates == store.updates
  {
    var page := Yutori.GetUpdates(scoutId, store.scouts[scoutId].lastCursor, Yutori.DEFAULT_PAGE_SIZE, get);
    var items := Iterated(page.value.items).value;
    var convert := UpdateConverter(scoutId, uuid, now, parseIso);
    forall k | 0 <= k < |items|
      ensures convert(items[k], k).Ok? && convert(items[k], k).value.id in UpdateIds(store.updates)
    {
      assert convert(items[k], k) == ToUpdate(items[k], scoutId, uuid(k), now, parseIso);
    }
    IngestNothingNew(store.updates, items, convert);
    assert store.updates + [] == store.updates;
  }

  // ---- get_scout_updates ----

  function ByTimestamp(u: Update): real {
    u.timestamp as real
  }

  function OfScout(us: seq<Update>, scoutId: string): (r: seq<Update>)
    ensures forall i | 0 <= i < |r| :: r[i].scoutId == scoutId && r[i] in us
    ensures forall i | 0 <= i < |us| && us[i].scoutId == scoutId :: us[i] in r
  {
    if us == [] then []
    else (if us[0].scoutId == scoutId then [us[0]] else []) + OfScout(us[1..], scoutId)
  }

  lemma SortedOfScout(us: seq<Update>, scoutId: string)
    ensures var sorted := Sort(OfScout(us, scoutId), ByTimestamp);
      && |sorted| == |OfScout(us, scoutId)|
      && NonIncreasing(sorted, ByTimestamp)
      && forall i | 0 <= i < |sorted| :: sorted[i].scoutId == scoutId && sorted[i] in us
  {
    var mine := OfScout(us, scoutId);
    var sorted := Sort(mine, ByTimestamp);
    SortSorted(mine, ByTimestamp);
    SortPermutes(mine, ByTimestamp);
    SortMembers(mine, ByTimestamp);
    forall i | 0 <= i < |sorted| ensures sorted[i].scoutId == scoutId && sorted[i] in us {
      OfScoutMember(us, scoutId, sorted[i]);
    }
  }

  lemma OfScoutMember(us: seq<Update>, scoutId: string, u: Update)
    requires u in OfScout(us, scoutId)
    ensures u.scoutId == scoutId && u in us
  {
    var mine := OfScout(us, scoutId);
    var j :| 0 <= j < |mine| && mine[j] == u;
  }

  /**
   * `get_scout_updates`: the scout's updates, newest first, at most
   * `limit` of them (a negative limit is no limit, as in SQLite).
   */
  function ScoutUpdates(store: Store, scoutId: string, limit: int): (r: seq<Update>)
    ensures 0 <= limit ==> |r| <= limit
    ensures limit < 0 ==> |r| == |OfScout(store.updates, scoutId)|
    ensures 0 <= limit ==> |r| == if limit <= |OfScout(store.updates, scoutId)| then limit else |OfScout(store.updates, scoutId)|
    ensures forall i | 0 <= i < |r| :: r[i].scoutId == scoutId && r[i] in store.updates
    ensures NonIncreasing(r, ByTimestamp)
    ensures multiset(r) <= multiset(OfScout(store.updates, scoutId))
    ensures r <= Sort(OfScout(store.updates, scoutId), ByTimestamp)
  {
    var mine := OfScout(store.updates, scoutId);
    var sorted := Sort(mine, ByTimestamp);
    SortedOfScout(store.updates, scoutId);
    SortPermutes(mine, ByTimestamp);
    var k := if limit < 0 || limit > |sorted| then |sorted| else limit;
    PrefixOfSorted(sorted, k, ByTimestamp);
    sorted[..k]
  }

  /** A prefix of a sorted sequence is sorted and draws on the sequence's elements. */
  lemma PrefixOfSorted<T>(s: seq<T>, k: nat, key: T -> real)
    requires k <= |s| && NonIncreasing(s, key)
    ensures NonIncreasing(s[..k], key)
    ensures multiset(s[..k]) <= multiset(s)
    ensures forall i | 0 <= i < k :: s[..k][i] == s[i]
  {
    assert s == s[..k] + s[k..];
  }

  /** No update left out of a limited listing is newer than one listed. */
  lemma ListingIsNewest(store: Store, scoutId: string, limit: int)
    requires limit >= 0
    ensures var mine := Sort(OfScout(store.updates, scoutId), ByTimestamp);
      var r := ScoutUpdates(store, scoutId, limit);
      forall i, j | 0 <= i < |r| && |r| <= j < |mine| :: r[i].timestamp >= mine[j].timestamp
  {
    var mine := Sort(OfScout(store.updates, scoutId), ByTimestamp);
    SortSorted(OfScout(store.updates, scoutId), ByTimestamp);
    var r := ScoutUpdates(store, scoutId, limit);
    assert r == mine[..|r|];
    forall i, j | 0 <= i < |r| && |r| <= j < |mine| ensures r[i].timestamp >= mine[j].timestamp {
      assert r[i] == mine[i];
      assert ByTimestamp(mine[i]) >= ByTimestamp(mine[j]);
    }
  }

  // ---- delete_scout ----

  datatype Deleted = Deleted(store: Store, ok: bool)

  /**
   * `delete_scout`: ask the service to delete the scout, then mark the
   * stored scout inactive whatever the answer; the answer is returned.
   */
  function DeleteScout(store: Store, scoutId: string, delete: string -> Yutori.HttpResult): (r: Deleted)
    ensures r.ok == Yutori.DeleteScout(scoutId, delete)
    ensures r.store.updates == store.updates
    ensures r.store.scouts.Keys == store.scouts.Keys
    ensures scoutId in store.scouts ==> r.store.scouts[scoutId] == store.scouts[scoutId].(isActive := false)
    ensures forall id | id in store.scouts && id != scoutId :: r.store.scouts[id] == store.scouts[id]
  {
    var ok := Yutori.DeleteScout(scoutId, delete);
    if scoutId in store.scouts then
      Deleted(Store(store.scouts[scoutId := store.scouts[scoutId].(isActive := false)], store.updates), ok)
    else Deleted(store, ok)
  }

  lemma DeleteKeepsValid(store: Store, scoutId: string, delete: string -> Yutori.HttpResult)
    requires Valid(store)
    ensures Valid(DeleteScout(store, scoutId, delete).store)
  {
  }
}

=== FILE: search_config.dfy ===
/**
 * Search configuration: the intent guardrails and query templates (data
 * only; nothing in the pipeline applies them), and the domain trust score
 * of a URL, looked up in a fixed table by the URL's host.
 */
module SearchConfig {

  import opened Common
  import opened Text
  import opened UrlParse

  /** One entry of `INTENT_GUARDRAILS`. */
  datatype Guardrail = Guardrail(topic: string, requiredTerms: seq<string>, negativeTerms: seq<string>, minRequiredHits: nat)

  const INTENT_GUARDRAILS: seq<Guardrail> := [
    Guardrail("voice_moderation",
      ["voice", "audio", "speech", "moderation", "toxicity", "safety"],
      ["voice agent", "call center", "voice generator", "text-to-speech", "tts", "voice cloning", "customer service agent"],
      1),
    Guardrail("medical_imaging",
      ["cancer", "tumor", "detection", "diagnosis", "screening", "radiology"],
      ["home remedy", "natural cure", "herbal", "alternative medicine"],
      1),
    Guardrail("climate_policy_energy",
      ["net-zero", "emissions", "policy", "energy", "climate", "transition"],
      ["conspiracy", "hoax", "fake", "denial"],
      1)
  ]

  /** `QUERY_TEMPLATES`: only the voice moderation topic has templates. */
  const QUERY_TEMPLATES_VOICE: seq<string> := [
    "\"{base_query}\" vendor",
    "\"{base_query}\" platform",
    "\"{base_query}\" API",
    "\"{base_query}\" solution"
  ]

  /** `DOMAIN_TRUST_SCORES`, in the order the dictionary lists its entries. */
  const DOMAIN_TRUST_SCORES: seq<(string, real)> := [
    ("modulate.ai", 1.0),
    ("unity.com", 1.0),
    ("discord.com", 0.9),
    ("microsoft.com", 0.9),
    ("spectrumlabsai.com", 0.9),
    ("hivemoderation.com", 0.9),
    ("krisp.ai", 0.8),
    ("speechly.com", 0.8),
    ("techcrunch.com", 0.7),
    ("venturebeat.com", 0.7),
    ("medium.com", 0.4),
    ("iea.org", 1.0),
    ("ipcc.ch", 1.0),
    ("worldbank.org", 1.0),
    ("unfccc.int", 1.0),
    ("ourworldindata.org", 0.9),
    ("nature.com", 0.9),
    ("science.org", 0.9),
    ("cancer.gov", 1.0),
    ("fda.gov", 1.0),
    ("nih.gov", 1.0),
    ("who.int", 1.0),
    ("cdc.gov", 1.0),
    ("mayoclinic.org", 0.8)
  ]

  const DEFAULT_TRUST_SCORE: real := 0.5

  /** Every score in the table lies between 0.4 and 1.0. */
  lemma TableScoresInRange()
    ensures forall i | 0 <= i < |DOMAIN_TRUST_SCORES| :: 0.4 <= DOMAIN_TRUST_SCORES[i].1 <= 1.0
  {
  }

  /** The host the table is searched for: the lower-cased netloc without one leading "www.". */
  function HostOf(netloc: string): string {
    var d := Lower(netloc);
    if StartsWith(d, "www.") then d[4..] else d
  }

  // ---------------------------------------------------------------------
  // The table lookup.
  // ---------------------------------------------------------------------

  /** The first index of `table` whose domain equals `host`. */
  function ExactIndex(table: seq<(string, real)>, host: string): (r: Option<nat>)
    ensures r.Some? ==> r.value < |table| && table[r.value].0 == host
    ensures r.Some? ==> forall j | 0 <= j < r.value :: table[j].0 != host
    ensures r.None? ==> forall j | 0 <= j < |table| :: table[j].0 != host
  {
    if table == [] then None
    else if table[0].0 == host then Some(0)
    else match ExactIndex(table[1..], host)
      case None => None
      case Some(k) => Some(k + 1)
  }

  /** The first index of `table` whose domain `host` ends with. */
  function SuffixIndex(table: seq<(string, real)>, host: string): (r: Option<nat>)
    ensures r.Some? ==> r.value < |table| && EndsWith(host, table[r.value].0)
    ensures r.Some? ==> forall j | 0 <= j < r.value :: !EndsWith(host, table[j].0)
    ensures r.None? ==> forall j | 0 <= j < |table| :: !EndsWith(host, table[j].0)
  {
    if table == [] then None
    else if EndsWith(host, table[0].0) then Some(0)
    else match SuffixIndex(table[1..], host)
      case None => None
      case Some(k) => Some(k + 1)
  }

  /** The score of a host: an exact entry, else the first entry the host ends with, else the default. */
  function HostTrust(host: string): (r: real)
    ensures 0.4 <= r <= 1.0
    ensures r == DEFAULT_TRUST_SCORE || exists i | 0 <= i < |DOMAIN_TRUST_SCORES| :: r == DOMAIN_TRUST_SCORES[i].1
    ensures (forall i | 0 <= i < |DOMAIN_TRUST_SCORES| :: !EndsWith(host, DOMAIN_TRUST_SCORES[i].0)) ==> r == DEFAULT_TRUST_SCORE
  {
    TableScoresInRange();
    match ExactIndex(DOMAIN_TRUST_SCORES, host)
    case Some(i) =>
      // an exact entry is also one the host ends with
      assert EndsWith(host, DOMAIN_TRUST_SCORES[i].0) by { assert host[|host| - |host|..] == host; }
      DOMAIN_TRUST_SCORES[i].1
    case None =>
      match SuffixIndex(DOMAIN_TRUST_SCORES, host)
      case Some(i) => DOMAIN_TRUST_SCORES[i].1
      case None => DEFAULT_TRUST_SCORE
  }

  /** `get_domain_trust_score`: a parse error gives the default score. */
  function TrustScore(url: string): (r: real)
    ensures 0.4 <= r <= 1.0
    ensures r == DEFAULT_TRUST_SCORE || exists i | 0 <= i < |DOMAIN_TRUST_SCORES| :: r == DOMAIN_TRUST_SCORES[i].1
    ensures Netloc(url).None? ==> r == DEFAULT_TRUST_SCORE
    ensures Netloc(url).Some? && (forall i | 0 <= i < |DOMAIN_TRUST_SCORES| :: !EndsWith(HostOf(Netloc(url).value), DOMAIN_TRUST_SCORES[i].0))
      ==> r == DEFAULT_TRUST_SCORE
  {
    match Netloc(url)
    case None => DEFAULT_TRUST_SCORE
    case Some(netloc) => HostTrust(HostOf(netloc))
  }

  // ---------------------------------------------------------------------
  // Properties of the table and of the lookup.
  // ---------------------------------------------------------------------

  /** `a` and `b` differ at the `k`-th character from their ends. */
  predicate DiffersFromEnd(a: string, b: string, k: nat) {
    k < |b| && k < |a| && a[|a| - 1 - k] != b[|b| - 1 - k]
  }

  /** `a` does not end with `b` when `b` is longer or one of their last six characters differs. */
  lemma TailDiffers(a: string, b: string)
    requires |b| > |a| || DiffersFromEnd(a, b, 0) || DiffersFromEnd(a, b, 1) || DiffersFromEnd(a, b, 2)
      || DiffersFromEnd(a, b, 3) || DiffersFromEnd(a, b, 4) || DiffersFromEnd(a, b, 5)
    ensures !EndsWith(a, b)
  {
  }

  // No domain of the table ends with another one. `NoOtherKeyEndsWith<k>Low`
  // says that no row 0-11 other than row k ends with row k's domain, and
  // `NoOtherKeyEndsWith<k>High` says the same of rows 12-23. The fact is
  // unrolled into these 48 concrete lemmas because one lemma quantified
  // over k leaves every row of the table symbolic at once, which is far
  // more work for the solver than the concrete halves together.
  // `NoOtherKeyEndsWith` dispatches to them and `TableSuffixFree` states
  // the quantified fact.

  lemma NoOtherKeyEndsWith0Low()
    ensures forall j | 0 <= j < 12 && j != 0 :: !EndsWith(DOMAIN_TRUST_SCORES[j].0, DOMAIN_TRUST_SCORES[0].0)
  {
    forall j | 0 <= j < 12 && j != 0 ensures !EndsWith(DOMAIN_TRUST_SCORES[j].0, DOMAIN_TRUST_SCORES[0].0) {
      TailDiffers(DOMAIN_TRUST_SCORES[j].0, DOMAIN_TRUST_SCORES[0].0);
    }
  }
  lemma NoOtherKeyEndsWith0High()
    ensures forall j | 12 <= j < 24 && j != 0 :: !EndsWith(DOMAIN_TRUST_SCORES[j].0, DOMAIN_TRUST_SCORES[0].0)
  {
    forall j | 12 <= j < 24 && j != 0 ensures !EndsWith(DOMAIN_TRUST_SCORES[j].0, DOMAIN_TRUST_SCORES[0].0) {
      TailDiffers(DOMAIN_TRUST_SCORES[j].0, DOMAIN_TRUST_SCORES[0].0);
    }
  }
  lemma NoOtherKeyEndsWith1Low()
    ensures forall j | 0 <= j < 12 && j != 1 :: !EndsWith(DOMAIN_TRUST_SCORES[j].0, DOMAIN_TRUST_SCORES[1].0)
  {
    forall j | 0 <= j < 12 && j != 1 ensures !EndsWith(DOMAIN_TRUST_SCORES[j].0, DOMAIN_TRUST_SCORES[1].0) {
      TailDiffers(DOMAIN_TRUST_SCORES[j].0, DOMAIN_TRUST_SCORES[1].0);
    }
  }
  lemma NoOtherKeyEndsWith1High()
    ensures forall j | 12 <= j < 24 && j != 1 :: !EndsWith(DOMAIN_TRUST_SCORES[j].0, DOMAIN_TRUST_SCORES[1].0)
  {
    forall j | 12 <= j < 24 && j != 1 ensures !EndsWith(DOMAIN_TRUST_SCORES[j].0, DOMAIN_TRUST_SCORES[1].0) {
      TailDiffers(DOMAIN_TRUST_SCORES[j].0, DOMAIN_TRUST_SCORES[1].0);
    }
  }
  lemma NoOtherKeyEndsWith2Low()
    ensures forall j | 0 <= j < 12 && j != 2 :: !EndsWith(DOMAIN_TRUST_SCORES[j].0, DOMAIN_TRUST_SCORES[2].0)
  {
    forall j | 0 <= j < 12 && j != 2 ensures !EndsWith(DOMAIN_TRUST_SCORES[j].0, DOMAIN_TRUST_SCORES[2].0) {
      TailDiffers(DOMAIN_TRUST_SCORES[j].0, DOMAIN_TRUST_SCORES[2].0);
    }
  }
  lemma NoOtherKeyEndsWith2High()
    ensures forall j | 12 <= j < 24 && j != 2 :: !EndsWith(DOMAIN_TRUST_SCORES[j].0, DOMAIN_TRUST_SCORES[2].0)
  {
    forall j | 12 <= j < 24 && j != 2 ensures !EndsWith(DOMAIN_TRUST_SCORES[j].0, DOMAIN_TRUST_SCORES[2].0) {
      TailDiffers(DOMAIN_TRUST_SCORES[j].0, DOMAIN_TRUST_SCORES[2].0);
    }
  }
  lemma NoOtherKeyEndsWith3Low()
    ensures forall j | 0 <= j < 12 && j != 3 :: !EndsWith(DOMAIN_TRUST_SCORES[j].0, DOMAIN_TRUST_SCORES[3].0)
  {
    forall j | 0 <= j < 12 && j != 3 ensures !EndsWith(DOMAIN_TRUST_SCORES[j].0, DOMAIN_TRUST_SCORES[3].0) {
      TailDiffers(DOMAIN_TRUST_SCORES[j].0, DOMAIN_TRUST_SCORES[3].0);
    }
  }
  lemma NoOtherKeyEndsWith3High()
    ensures forall j | 12 <= j < 24 && j != 3 :: !EndsWith(DOMAIN_TRUST_SCORES[j].0, DOMAIN_TRUST_SCORES[3].0)
  {
    forall j | 12 <= j < 24 && j != 3 ensures !EndsWith(DOMAIN_TRUST_SCORES[j].0, DOMAIN_TRUST_SCORES[3].0) {
      TailDiffers(DOMAIN_TRUST_SCORES[j].0, DOMAIN_TRUST_SCORES[3].0);
    }
  }
  lemma NoOtherKeyEndsWith4Low()
    ensures forall j | 0 <= j < 12 && j != 4 :: !EndsWith(DOMAIN_TRUST_SCORES[j].0, DOMAIN_TRUST_SCORES[4].0)
  {
    forall j | 0 <= j < 12 && j != 4 ensures !EndsWith(DOMAIN_TRUST_SCORES[j].0, DOMAIN_TRUST_SCORES[4].0) {
      TailDiffers(DOMAIN_TRUST_SCORES[j].0, DOMAIN_TRUST_SCORES[4].0);
    }
  }
  lemma NoOtherKeyEndsWith4High()
    ensures forall j | 12 <= j < 24 && j != 4 :: !EndsWith(DOMAIN_TRUST_SCORES[j].0, DOMAIN_TRUST_SCORES[4].0)
  {
    forall j | 12 <= j < 24 && j != 4 ensures !EndsWith(DOMAIN_TRUST_SCORES[j].0, DOMAIN_TRUST_SCORES[4].0) {
      TailDiffers(DOMAIN_TRUST_SCORES[j].0, DOMAIN_TRUST_SCORES[4].0);
    }
  }
  lemma NoOtherKeyEndsWith5Low()
    ensures forall j | 0 <= j < 12 && j != 5 :: !EndsWith(DOMAIN_TRUST_SCORES[j].0, DOMAIN_TRUST_SCORES[5].0)
  {
    forall j | 0 <= j < 12 && j != 5 ensures !EndsWith(DOMAIN_TRUST_SCORES[j].0, DOMAIN_TRUST_SCORES[5].0) {
      TailDiffers(DOMAIN_TRUST_SCORES[j].0, DOMAIN_TRUST_SCORES[5].0);
    }
  }
  lemma NoOtherKeyEndsWith5High()
    ensures forall j | 12 <= j < 24 && j != 5 :: !EndsWith(DOMAIN_TRUST_SCORES[j].0, DOMAIN_TRUST_SCORES[5].0)
  {
    forall j | 12 <= j < 24 && j != 5 ensures !EndsWith(DOMAIN_TRUST_SCORES[j].0, DOMAIN_TRUST_SCORES[5].0) {
      TailDiffers(DOMAIN_TRUST_SCORES[j].0, DOMAIN_TRUST_SCORES[5].0);
    }
  }
  lemma NoOtherKeyEndsWith6Low()
    ensures forall j | 0 <= j < 12 && j != 6 :: !EndsWith(DOMAIN_TRUST_SCORES[j].0, DOMAIN_TRUST_SCORES[6].0)
  {
    forall j | 0 <= j < 12 && j != 6 ensures !EndsWith(DOMAIN_TRUST_SCORES[j].0, DOMAIN_TRUST_SCORES[6].0) {
      TailDiffers(DOMAIN_TRUST_SCORES[j].0, DOMAIN_TRUST_SCORES[6].0);
    }
  }
  lemma NoOtherKeyEndsWith6High()
    ensures forall j | 12 <= j < 24 && j != 6 :: !EndsWith(DOMAIN_TRUST_SCORES[j].0, DOMAIN_TRUST_SCORES[6].0)
  {
    forall j | 12 <= j < 24 && j != 6 ensures !EndsWith(DOMAIN_TRUST_SCORES[j].0, DOMAIN_TRUST_SCORES[6].0) {
      TailDiffers(DOMAIN_TRUST_SCORES[j].0, DOMAIN_TRUST_SCORES[6].0);
    }
  }
  lemma NoOtherKeyEndsWith7Low()
    ensures forall j | 0 <= j < 12 && j != 7 :: !EndsWith(DOMAIN_TRUST_SCORES[j].0, DOMAIN_TRUST_SCORES[7].0)
  {
    forall j | 0 <= j < 12 && j != 7 ensures !EndsWith(DOMAIN_TRUST_SCORES[j].0, DOMAIN_TRUST_SCORES[7].0) {
      TailDiffers(DOMAIN_TRUST_SCORES[j].0, DOMAIN_TRUST_SCORES[7].0);
    }
  }
  lemma NoOtherKeyEndsWith7High()
    ensures forall j | 12 <= j < 24 && j != 7 :: !EndsWith(DOMAIN_TRUST_SCORES[j].0, DOMAIN_TRUST_SCORES[7].0)
  {
    forall j | 12 <= j < 24 && j != 7 ensures !EndsWith(DOMAIN_TRUST_SCORES[j].0, DOMAIN_TRUST_SCORES[7].0) {
      TailDiffers(DOMAIN_TRUST_SCORES[j].0, DOMAIN_TRUST_SCORES[7].0);
    }
  }
  lemma NoOtherKeyEndsWith8Low()
    ensures forall j | 0 <= j < 12 && j != 8 :: !EndsWith(DOMAIN_TRUST_SCORES[j].0, DOMAIN_TRUST_SCORES[8].0)
  {
    forall j | 0 <= j < 12 && j != 8 ensures !EndsWith(DOMAIN_TRUST_SCORES[j].0, DOMAIN_TRUST_SCORES[8].0) {
      TailDiffers(DOMAIN_TRUST_SCORES[j].0, DOMAIN_TRUST_SCORES[8].0);
    }
  }
  lemma NoOtherKeyEndsWith8High()
    ensures forall j | 12 <= j < 24 && j != 8 :: !EndsWith(DOMAIN_TRUST_SCORES[j].0, DOMAIN_TRUST_SCORES[8].0)
  {
    forall j | 12 <= j < 24 && j != 8 ensures !EndsWith(DOMAIN_TRUST_SCORES[j].0, DOMAIN_TRUST_SCORES[8].0) {
      TailDiffers(DOMAIN_TRUST_SCORES[j].0, DOMAIN_TRUST_SCORES[8].0);
    }
  }
  lemma NoOtherKeyEndsWith9Low()
    ensures forall j | 0 <= j < 12 && j != 9 :: !EndsWith(DOMAIN_TRUST_SCORES[j].0, DOMAIN_TRUST_SCORES[9].0)
  {
    forall j | 0 <= j < 12 && j != 9 ensures !EndsWith(DOMAIN_TRUST_SCORES[j].0, DOMAIN_TRUST_SCORES[9].0) {
      TailDiffers(DOMAIN_TRUST_SCORES[j].0, DOMAIN_TRUST_SCORES[9].0);
    }
  }
  lemma NoOtherKeyEndsWith9High()
    ensures forall j | 12 <= j < 24 && j != 9 :: !EndsWith(DOMAIN_TRUST_SCORES[j].0, DOMAIN_TRUST_SCORES[9].0)
  {
    forall j | 12 <= j < 24 && j != 9 ensures !EndsWith(DOMAIN_TRUST_SCORES[j].0, DOMAIN_TRUST_SCORES[9].0) {
      TailDiffers(DOMAIN_TRUST_SCORES[j].0, DOMAIN_TRUST_SCORES[9].0);
    }
  }
  lemma NoOtherKeyEndsWith10Low()
    ensures forall j | 0 <= j < 12 && j != 10 :: !EndsWith(DOMAIN_TRUST_SCORES[j].0, DOMAIN_TRUST_SCORES[10].0)
  {
    forall j | 0 <= j < 12 && j != 10 ensures !EndsWith(DOMAIN_TRUST_SCORES[j].0, DOMAIN_TRUST_SCORES[10].0) {
      TailDiffers(DOMAIN_TRUST_SCORES[j].0, DOMAIN_TRUST_SCORES[10].0);
    }
  }
  lemma NoOtherKeyEndsWith10High()
    ensures forall j | 12 <= j < 24 && j != 10 :: !EndsWith(DOMAIN_TRUST_SCORES[j].0, DOMAIN_TRUST_SCORES[10].0)
  {
    forall j | 12 <= j < 24 && j != 10 ensures !EndsWith(DOMAIN_TRUST_SCORES[j].0, DOMAIN_TRUST_SCORES[10].0) {
      TailDiffers(DOMAIN_TRUST_SCORES[j].0, DOMAIN_TRUST_SCORES[10].0);
    }
  }
  lemma NoOtherKeyEndsWith11Low()
    ensures forall j | 0 <= j < 12 && j != 11 :: !EndsWith(DOMAIN_TRUST_SCORES[j].0, DOMAIN_TRUST_SCORES[11].0)
  {
    forall j | 0 <= j < 12 && j != 11 ensures !EndsWith(DOMAIN_TRUST_SCORES[j].0, DOMAIN_TRUST_SCORES[11].0) {
      TailDiffers(DOMAIN_TRUST_SCORES[j].0, DOMAIN_TRUST_SCORES[11].0);
    }
  }
  lemma NoOtherKeyEndsWith11High()
    ensures forall j | 12 <= j < 24 && j != 11 :: !EndsWith(DOMAIN_TRUST_SCORES[j].0, DOMAIN_TRUST_SCORES[11].0)
  {
    forall j | 12 <= j < 24 && j != 11 ensures !EndsWith(DOMAIN_TRUST_SCORES[j].0, DOMAIN_TRUST_SCORES[11].0) {
      TailDiffers(DOMAIN_TRUST_SCORES[j].0, DOMAIN_TRUST_SCORES[11].0);
    }
  }
  lemma NoOtherKeyEndsWith12Low()
    ensures forall j | 0 <= j < 12 && j != 12 :: !EndsWith(DOMAIN_TRUST_SCORES[j].0, DOMAIN_TRUST_SCORES[12].0)
  {
    forall j | 0 <= j < 12 && j != 12 ensures !EndsWith(DOMAIN_TRUST_SCORES[j].0, DOMAIN_TRUST_SCORES[12].0) {
      TailDiffers(DOMAIN_TRUST_SCORES[j].0, DOMAIN_TRUST_SCORES[12].0);
    }
  }
  lemma NoOtherKeyEndsWith12High()
    ensures forall j | 12 <= j < 24 && j != 12 :: !EndsWith(DOMAIN_TRUST_SCORES[j].0, DOMAIN_TRUST_SCORES[12].0)
  {
    forall j | 12 <= j < 24 && j != 12 ensures !EndsWith(DOMAIN_TRUST_SCORES[j].0, DOMAIN_TRUST_SCORES[12].0) {
      TailDiffers(DOMAIN_TRUST_SCORES[j].0, DOMAIN_TRUST_SCORES[12].0);
    }
  }
  lemma NoOtherKeyEndsWith13Low()
    ensures forall j | 0 <= j < 12 && j != 13 :: !EndsWith(DOMAIN_TRUST_SCORES[j].0, DOMAIN_TRUST_SCORES[13].0)
  {
    forall j | 0 <= j < 12 && j != 13 ensures !EndsWith(DOMAIN_TRUST_SCORES[j].0, DOMAIN_TRUST_SCORES[13].0) {
      TailDiffers(DOMAIN_TRUST_SCORES[j].0, DOMAIN_TRUST_SCORES[13].0);
    }
  }
  lemma NoOtherKeyEndsWith13High()
    ensures forall j | 12 <= j < 24 && j != 13 :: !EndsWith(DOMAIN_TRUST_SCORES[j].0, DOMAIN_TRUST_SCORES[13].0)
  {
    forall j | 12 <= j < 24 && j != 13 ensures !EndsWith(DOMAIN_TRUST_SCORES[j].0, DOMAIN_TRUST_SCORES[13].0) {
      TailDiffers(DOMAIN_TRUST_SCORES[j].0, DOMAIN_TRUST_SCORES[13].0);
    }
  }
  lemma NoOtherKeyEndsWith14Low()
    ensures forall j | 0 <= j < 12 && j != 14 :: !EndsWith(DOMAIN_TRUST_SCORES[j].0, DOMAIN_TRUST_SCORES[14].0)
  {
    forall j | 0 <= j < 12 && j != 14 ensures !EndsWith(DOMAIN_TRUST_SCORES[j].0, DOMAIN_TRUST_SCORES[14].0) {
      TailDiffers(DOMAIN_TRUST_SCORES[j].0, DOMAIN_TRUST_SCORES[14].0);
    }
  }
  lemma NoOtherKeyEndsWith14High()
    ensures forall j | 12 <= j < 24 && j != 14 :: !EndsWith(DOMAIN_TRUST_SCORES[j].0, DOMAIN_TRUST_SCORES[14].0)
  {
    forall j | 12 <= j < 24 && j != 14 ensures !EndsWith(DOMAIN_TRUST_SCORES[j].0, DOMAIN_TRUST_SCORES[14].0) {
      TailDiffers(DOMAIN_TRUST_SCORES[j].0, DOMAIN_TRUST_SCORES[14].0);
    }
  }
  lemma NoOtherKeyEndsWith15Low()
    ensures forall j | 0 <= j < 12 && j != 15 :: !EndsWith(DOMAIN_TRUST_SCORES[j].0, DOMAIN_TRUST_SCORES[15].0)
  {
    forall j | 0 <= j < 12 && j != 15 ensures !EndsWith(DOMAIN_TRUST_SCORES[j].0, DOMAIN_TRUST_SCORES[15].0) {
      TailDiffers(DOMAIN_TRUST_SCORES[j].0, DOMAIN_TRUST_SCORES[15].0);
    }
  }
  lemma NoOtherKeyEndsWith15High()
    ensures forall j | 12 <= j < 24 && j != 15 :: !EndsWith(DOMAIN_TRUST_SCORES[j].0, DOMAIN_TRUST_SCORES[15].0)
  {
    forall j | 12 <= j < 24 && j != 15 ensures !EndsWith(DOMAIN_TRUST_SCORES[j].0, DOMAIN_TRUST_SCORES[15].0) {
      TailDiffers(DOMAIN_TRUST_SCORES[j].0, DOMAIN_TRUST_SCORES[15].0);
    }
  }
  lemma NoOtherKeyEndsWith16Low()
    ensures forall j | 0 <= j < 12 && j != 16 :: !EndsWith(DOMAIN_TRUST_SCORES[j].0, DOMAIN_TRUST_SCORES[16].0)
  {
    forall j | 0 <= j < 12 && j != 16 ensures !EndsWith(DOMAIN_TRUST_SCORES[j].0, DOMAIN_TRUST_SCORES[16].0) {
      TailDiffers(DOMAIN_TRUST_SCORES[j].0, DOMAIN_TRUST_SCORES[16].0);
    }
  }
  lemma NoOtherKeyEndsWith16High()
    ensures forall j | 12 <= j < 24 && j != 16 :: !EndsWith(DOMAIN_TRUST_SCORES[j].0, DOMAIN_TRUST_SCORES[16].0)
  {
    forall j | 12 <= j < 24 && j != 16 ensures !EndsWith(DOMAIN_TRUST_SCORES[j].0, DOMAIN_TRUST_SCORES[16].0) {
      TailDiffers(DOMAIN_TRUST_SCORES[j].0, DOMAIN_TRUST_SCORES[16].0);
    }
  }
  lemma NoOtherKeyEndsWith17Low()
    ensures forall j | 0 <= j < 12 && j != 17 :: !EndsWith(DOMAIN_TRUST_SCORES[j].0, DOMAIN_TRUST_SCORES[17].0)
  {
    forall j | 0 <= j < 12 && j != 17 ensures !EndsWith(DOMAIN_TRUST_SCORES[j].0, DOMAIN_TRUST_SCORES[17].0) {
      TailDiffers(DOMAIN_TRUST_SCORES[j].0, DOMAIN_TRUST_SCORES[17].0);
    }
  }
  lemma NoOtherKeyEndsWith17High()
    ensures forall j | 12 <= j < 24 && j != 17 :: !EndsWith(DOMAIN_TRUST_SCORES[j].0, DOMAIN_TRUST_SCORES[17].0)
  {
    forall j | 12 <= j < 24 && j != 17 ensures !EndsWith(DOMAIN_TRUST_SCORES[j].0, DOMAIN_TRUST_SCORES[17].0) {
      TailDiffers(DOMAIN_TRUST_SCORES[j].0, DOMAIN_TRUST_SCORES[17].0);
    }
  }
  lemma NoOtherKeyEndsWith18Low()
    ensures forall j | 0 <= j < 12 && j != 18 :: !EndsWith(DOMAIN_TRUST_SCORES[j].0, DOMAIN_TRUST_SCORES[18].0)
  {
    forall j | 0 <= j < 12 && j != 18 ensures !EndsWith(DOMAIN_TRUST_SCORES[j].0, DOMAIN_TRUST_SCORES[18].0) {
      TailDiffers(DOMAIN_TRUST_SCORES[j].0, DOMAIN_TRUST_SCORES[18].0);
    }
  }
  lemma NoOtherKeyEndsWith18High()
    ensures forall j | 12 <= j < 24 && j != 18 :: !EndsWith(DOMAIN_TRUST_SCORES[j].0, DOMAIN_TRUST_SCORES[18].0)
  {
    forall j | 12 <= j < 24 && j != 18 ensures !EndsWith(DOMAIN_TRUST_SCORES[j].0, DOMAIN_TRUST_SCORES[18].0) {
      TailDiffers(DOMAIN_TRUST_SCORES[j].0, DOMAIN_TRUST_SCORES[18].0);
    }
  }
  lemma NoOtherKeyEndsWith19Low()
    ensures forall j | 0 <= j < 12 && j != 19 :: !EndsWith(DOMAIN_TRUST_SCORES[j].0, DOMAIN_TRUST_SCORES[19].0)
  {
    forall j | 0 <= j < 12 && j != 19 ensures !EndsWith(DOMAIN_TRUST_SCORES[j].0, DOMAIN_TRUST_SCORES[19].0) {
      TailDiffers(DOMAIN_TRUST_SCORES[j].0, DOMAIN_TRUST_SCORES[19].0);
    }
  }
  lemma NoOtherKeyEndsWith19High()
    ensures forall j | 12 <= j < 24 && j != 19 :: !EndsWith(DOMAIN_TRUST_SCORES[j].0, DOMAIN_TRUST_SCORES[19].0)
  {
    forall j | 12 <= j < 24 && j != 19 ensures !EndsWith(DOMAIN_TRUST_SCORES[j].0, DOMAIN_TRUST_SCORES[19].0) {
      TailDiffers(DOMAIN_TRUST_SCORES[j].0, DOMAIN_TRUST_SCORES[19].0);
    }
  }
  lemma NoOtherKeyEndsWith20Low()
    ensures forall j | 0 <= j < 12 && j != 20 :: !EndsWith(DOMAIN_TRUST_SCORES[j].0, DOMAIN_TRUST_SCORES[20].0)
  {
    forall j | 0 <= j < 12 && j != 20 ensures !EndsWith(DOMAIN_TRUST_SCORES[j].0, DOMAIN_TRUST_SCORES[20].0) {
      TailDiffers(DOMAIN_TRUST_SCORES[j].0, DOMAIN_TRUST_SCORES[20].0);
    }
  }
  lemma NoOtherKeyEndsWith20High()
    ensures forall j | 12 <= j < 24 && j != 20 :: !EndsWith(DOMAIN_TRUST_SCORES[j].0, DOMAIN_TRUST_SCORES[20].0)
  {
    forall j | 12 <= j < 24 && j != 20 ensures !EndsWith(DOMAIN_TRUST_SCORES[j].0, DOMAIN_TRUST_SCORES[20].0) {
      TailDiffers(DOMAIN_TRUST_SCORES[j].0, DOMAIN_TRUST_SCORES[20].0);
    }
  }
  lemma NoOtherKeyEndsWith21Low()
    ensures forall j | 0 <= j < 12 && j != 21 :: !EndsWith(DOMAIN_TRUST_SCORES[j].0, DOMAIN_TRUST_SCORES[21].0)
  {
    forall j | 0 <= j < 12 && j != 21 ensures !EndsWith(DOMAIN_TRUST_SCORES[j].0, DOMAIN_TRUST_SCORES[21].0) {
      TailDiffers(DOMAIN_TRUST_SCORES[j].0, DOMAIN_TRUST_SCORES[21].0);
    }
  }
  lemma NoOtherKeyEndsWith21High()
    ensures forall j | 12 <= j < 24 && j != 21 :: !EndsWith(DOMAIN_TRUST_SCORES[j].0, DOMAIN_TRUST_SCORES[21].0)
  {
    forall j | 12 <= j < 24 && j != 21 ensures !EndsWith(DOMAIN_TRUST_SCORES[j].0, DOMAIN_TRUST_SCORES[21].0) {
      TailDiffers(DOMAIN_TRUST_SCORES[j].0, DOMAIN_TRUST_SCORES[21].0);
    }
  }
  lemma NoOtherKeyEndsWith22Low()
    ensures forall j | 0 <= j < 12 && j != 22 :: !EndsWith(DOMAIN_TRUST_SCORES[j].0, DOMAIN_TRUST_SCORES[22].0)
  {
    forall j | 0 <= j < 12 && j != 22 ensures !EndsWith(DOMAIN_TRUST_SCORES[j].0, DOMAIN_TRUST_SCORES[22].0) {
      TailDiffers(DOMAIN_TRUST_SCORES[j].0, DOMAIN_TRUST_SCORES[22].0);
    }
  }
  lemma NoOtherKeyEndsWith22High()
    ensures forall j | 12 <= j < 24 && j != 22 :: !EndsWith(DOMAIN_TRUST_SCORES[j].0, DOMAIN_TRUST_SCORES[22].0)
  {
    forall j | 12 <= j < 24 && j != 22 ensures !EndsWith(DOMAIN_TRUST_SCORES[j].0, DOMAIN_TRUST_SCORES[22].0) {
      TailDiffers(DOMAIN_TRUST_SCORES[j].0, DOMAIN_TRUST_SCORES[22].0);
    }
  }
  lemma NoOtherKeyEndsWith23Low()
    ensures forall j | 0 <= j < 12 && j != 23 :: !EndsWith(DOMAIN_TRUST_SCORES[j].0, DOMAIN_TRUST_SCORES[23].0)
  {
    forall j | 0 <= j < 12 && j != 23 ensures !EndsWith(DOMAIN_TRUST_SCORES[j].0, DOMAIN_TRUST_SCORES[23].0) {
      TailDiffers(DOMAIN_TRUST_SCORES[j].0, DOMAIN_TRUST_SCORES[23].0);
    }
  }
  lemma NoOtherKeyEndsWith23High()
    ensures forall j | 12 <= j < 24 && j != 23 :: !EndsWith(DOMAIN_TRUST_SCORES[j].0, DOMAIN_TRUST_SCORES[23].0)
  {
    forall j | 12 <= j < 24 && j != 23 ensures !EndsWith(DOMAIN_TRUST_SCORES[j].0, DOMAIN_TRUST_SCORES[23].0) {
      TailDiffers(DOMAIN_TRUST_SCORES[j].0, DOMAIN_TRUST_SCORES[23].0);
    }
  }

  lemma NoOtherKeyEndsWith(k: nat)
    requires k < |DOMAIN_TRUST_SCORES|
    ensures forall j | 0 <= j < |DOMAIN_TRUST_SCORES| && j != k :: !EndsWith(DOMAIN_TRUST_SCORES[j].0, DOMAIN_TRUST_SCORES[k].0)
  {
    if k == 0 { NoOtherKeyEndsWith0Low(); NoOtherKeyEndsWith0High(); }
    else if k == 1 { NoOtherKeyEndsWith1Low(); NoOtherKeyEndsWith1High(); }
    else if k == 2 { NoOtherKeyEndsWith2Low(); NoOtherKeyEndsWith2High(); }
    else if k == 3 { NoOtherKeyEndsWith3Low(); NoOtherKeyEndsWith3High(); }
    else if k == 4 { NoOtherKeyEndsWith4Low(); NoOtherKeyEndsWith4High(); }
    else if k == 5 { NoOtherKeyEndsWith5Low(); NoOtherKeyEndsWith5High(); }
    else if k == 6 { NoOtherKeyEndsWith6Low(); NoOtherKeyEndsWith6High(); }
    else if k == 7 { NoOtherKeyEndsWith7Low(); NoOtherKeyEndsWith7High(); }
    else if k == 8 { NoOtherKeyEndsWith8Low(); NoOtherKeyEndsWith8High(); }
    else if k == 9 { NoOtherKeyEndsWith9Low(); NoOtherKeyEndsWith9High(); }
    else if k == 10 { NoOtherKeyEndsWith10Low(); NoOtherKeyEndsWith10High(); }
    else if k == 11 { NoOtherKeyEndsWith11Low(); NoOtherKeyEndsWith11High(); }
    else if k == 12 { NoOtherKeyEndsWith12Low(); NoOtherKeyEndsWith12High(); }
    else if k == 13 { NoOtherKeyEndsWith13Low(); NoOtherKeyEndsWith13High(); }
    else if k == 14 { NoOtherKeyEndsWith14Low(); NoOtherKeyEndsWith14High(); }
    else if k == 15 { NoOtherKeyEndsWith15Low(); NoOtherKeyEndsWith15High(); }
    else if k == 16 { NoOtherKeyEndsWith16Low(); NoOtherKeyEndsWith16High(); }
    else if k == 17 { NoOtherKeyEndsWith17Low(); NoOtherKeyEndsWith17High(); }
    else if k == 18 { NoOtherKeyEndsWith18Low(); NoOtherKeyEndsWith18High(); }
    else if k == 19 { NoOtherKeyEndsWith19Low(); NoOtherKeyEndsWith19High(); }
    else if k == 20 { NoOtherKeyEndsWith20Low(); NoOtherKeyEndsWith20High(); }
    else if k == 21 { NoOtherKeyEndsWith21Low(); NoOtherKeyEndsWith21High(); }
    else if k == 22 { NoOtherKeyEndsWith22Low(); NoOtherKeyEndsWith22High(); }
    else if k == 23 { NoOtherKeyEndsWith23Low(); NoOtherKeyEndsWith23High(); }
  }

  /** No domain of the table ends with another one (so no two are equal either). */
  lemma TableSuffixFree()
    ensures forall i, j | 0 <= i < |DOMAIN_TRUST_SCORES| && 0 <= j < |DOMAIN_TRUST_SCORES| && i != j ::
      !EndsWith(DOMAIN_TRUST_SCORES[j].0, DOMAIN_TRUST_SCORES[i].0)
  {
    forall i | 0 <= i < |DOMAIN_TRUST_SCORES|
      ensures forall j | 0 <= j < |DOMAIN_TRUST_SCORES| && j != i :: !EndsWith(DOMAIN_TRUST_SCORES[j].0, DOMAIN_TRUST_SCORES[i].0)
    {
      NoOtherKeyEndsWith(i);
    }
  }

  /** Two suffixes of one string: the shorter is a suffix of the longer. */
  lemma EndsWithBoth(h: string, a: string, b: string)
    requires EndsWith(h, a) && EndsWith(h, b) && |a| <= |b|
    ensures EndsWith(b, a)
  {
    assert b[|b| - |a|..] == h[|h| - |a|..];
  }

  /**
   * A host made of any text followed by a table domain gets that domain's
   * score: the suffix match has no dot boundary, so "blog.modulate.ai" and
   * "xmodulate.ai" both score as "modulate.ai" does.
   */
  lemma SuffixInherits(p: string, i: nat)
    requires i < |DOMAIN_TRUST_SCORES|
    ensures HostTrust(p + DOMAIN_TRUST_SCORES[i].0) == DOMAIN_TRUST_SCORES[i].1
  {
    var d := DOMAIN_TRUST_SCORES[i].0;
    var h := p + d;
    assert EndsWith(h, d) by { assert h[|h| - |d|..] == d; }
    TableSuffixFree();
    match ExactIndex(DOMAIN_TRUST_SCORES, h)
    case Some(j) =>
      assert j == i;
    case None =>
      var j := SuffixIndex(DOMAIN_TRUST_SCORES, h).value;
      var e := DOMAIN_TRUST_SCORES[j].0;
      if |e| <= |d| {
        EndsWithBoth(h, e, d);
      } else {
        EndsWithBoth(h, d, e);
      }
      assert j == i;
  }

  /** An exact table hit returns that entry's score. */
  lemma ExactHit(i: nat)
    requires i < |DOMAIN_TRUST_SCORES|
    ensures HostTrust(DOMAIN_TRUST_SCORES[i].0) == DOMAIN_TRUST_SCORES[i].1
  {
    SuffixInherits("", i);
    assert "" + DOMAIN_TRUST_SCORES[i].0 == DOMAIN_TRUST_SCORES[i].0;
  }

  /** Every domain of the table ends with a letter. */
  lemma KeysEndWithLetter()
    ensures forall i | 0 <= i < |DOMAIN_TRUST_SCORES| ::
      |DOMAIN_TRUST_SCORES[i].0| > 0 && IsAsciiLetter(DOMAIN_TRUST_SCORES[i].0[|DOMAIN_TRUST_SCORES[i].0| - 1])
  {
  }

  /** A host that some entry of a table of letter-ending domains matches ends with a letter too. */
  lemma MatchEndsWithLetter(table: seq<(string, real)>, host: string)
    requires forall i | 0 <= i < |table| :: |table[i].0| > 0 && IsAsciiLetter(table[i].0[|table[i].0| - 1])
    ensures ExactIndex(table, host).Some? || SuffixIndex(table, host).Some? ==>
      host != [] && IsAsciiLetter(host[|host| - 1])
  {
    if ExactIndex(table, host).Some? {
      var i := ExactIndex(table, host).value;
      assert table[i].0 == host;
    }
    if SuffixIndex(table, host).Some? {
      var d := table[SuffixIndex(table, host).value].0;
      assert host[|host| - |d|..][|d| - 1] == host[|host| - 1];
    }
  }

  /** No entry whose domain ends with a letter matches a host that does not. */
  lemma NoMatchForNonLetterEnd(table: seq<(string, real)>, host: string)
    requires forall i | 0 <= i < |table| :: |table[i].0| > 0 && IsAsciiLetter(table[i].0[|table[i].0| - 1])
    requires host == [] || !IsAsciiLetter(host[|host| - 1])
    ensures ExactIndex(table, host).None? && SuffixIndex(table, host).None?
  {
    MatchEndsWithLetter(table, host);
  }

  /**
   * A host that is empty or ends with something other than a letter (a
   * port number, say) matches no entry and gets the default score.
   */
  lemma NonLetterEndDefault(host: string)
    requires host == [] || !IsAsciiLetter(host[|host| - 1])
    ensures HostTrust(host) == DEFAULT_TRUST_SCORE
  {
    KeysEndWithLetter();
    NoMatchForNonLetterEnd(DOMAIN_TRUST_SCORES, host);
  }

  /** A host whose netloc ends with a non-letter ends with that same character, or is empty. */
  lemma HostEndsLikeNetloc(n: string)
    requires n != [] && !IsAsciiLetter(n[|n| - 1])
    ensures HostOf(n) == [] || !IsAsciiLetter(HostOf(n)[|HostOf(n)| - 1])
  {
    var d := Lower(n);
    assert d[|d| - 1] == LowerChar(n[|n| - 1]);
  }

  /**
   * The score of a "scheme://netloc/path" URL is the score of its
   * lower-cased netloc without "www.", or the default when `urlparse`
   * rejects the netloc's brackets.
   */
  lemma TrustOfUrl(sc: string, h: string, path: string)
    requires IsScheme(sc)
    requires forall k | 0 <= k < |h| :: !IsNetlocDelimiter(h[k]) && !IsUnsafeUrlChar(h[k])
    requires forall k | 0 <= k < |path| :: !IsUnsafeUrlChar(path[k])
    requires path == [] || IsNetlocDelimiter(path[0])
    ensures TrustScore(sc + "://" + h + path) ==
      if IsNetlocAccepted(h) then HostTrust(HostOf(h)) else DEFAULT_TRUST_SCORE
  {
    SchemeNetloc(sc, h, path);
  }
}

=== FILE: seeds.dfy ===
/**
 * Topic classification, topic-gated seed and keyword tables, and the
 * rewrite of a research question into a keyword search query.
 */
module Seeds {

  import opened Text

  const VOICE_MODERATION := "voice_moderation"
  const MEDICAL_IMAGING := "medical_imaging"
  const CLIMATE_POLICY_ENERGY := "climate_policy_energy"
  const UNKNOWN := "unknown"

  /** The registered topics, in the order the classifier scores them (its tie-break order). */
  const TOPIC_ORDER: seq<string> := [CLIMATE_POLICY_ENERGY, MEDICAL_IMAGING, VOICE_MODERATION]

  const SEEDS_VOICE_MODERATION: seq<string> := [
    "https://www.modulate.ai/toxmod",
    "https://unity.com/products/vivox-voice-chat",
    "https://discord.com/safety",
    "https://azure.microsoft.com/en-us/products/ai-services/ai-content-safety"
  ]

  const SEEDS_MEDICAL_IMAGING: seq<string> := [
    "https://www.cancer.gov/about-cancer/screening",
    "https://www.fda.gov/medical-devices/software-medical-device-samd/artificial-intelligence-and-machine-learning-aiml-enabled-medical-devices",
    "https://pubmed.ncbi.nlm.nih.gov/?term=deep+learning+mammography+cancer+detection",
    "https://www.nature.com/subjects/cancer-screening"
  ]

  const SEEDS_CLIMATE_POLICY_ENERGY: seq<string> := [
    "https://www.iea.org/reports/net-zero-by-2050",
    "https://www.ipcc.ch/report/ar6/wg3/",
    "https://www.worldbank.org/en/topic/climatechange",
    "https://unfccc.int/process-and-meetings/the-paris-agreement/nationally-determined-contributions-ndcs",
    "https://ourworldindata.org/energy",
    "https://www.irena.org/publications"
  ]

  const SEEDS_GENERIC: seq<string> := ["https://en.wikipedia.org/wiki/Artificial_intelligence"]

  /** Classification keywords per topic. */
  const TOPIC_KEYWORDS_VOICE: seq<string> := [
    "voice", "speech", "toxicity", "harassment", "moderation",
    "discord", "gaming", "chat", "audio", "vocal"
  ]

  const TOPIC_KEYWORDS_MEDICAL: seq<string> := [
    "cancer", "radiology", "imaging", "mammography", "ct", "mri",
    "biopsy", "screening", "diagnosis", "medical", "tumor", "oncology"
  ]

  const TOPIC_KEYWORDS_CLIMATE: seq<string> := [
    "net-zero", "net zero", "emissions", "2050", "decarbonization",
    "energy transition", "renewables", "fossil fuels", "climate policy",
    "ndc", "cop", "carbon", "ipcc", "iea", "unfccc", "paris agreement",
    "developing countries", "emerging markets", "climate finance"
  ]

  /** Relevance keywords per topic, used to score fetched text. */
  const KEYWORDS_VOICE: seq<string> := [
    "voice moderation", "speech toxicity", "voice chat safety", "harassment",
    "real-time", "toxicity", "content moderation", "audio", "transcription moderation",
    "voice chat", "safety tools", "automated moderation", "proactive voice"
  ]

  const KEYWORDS_MEDICAL: seq<string> := [
    "cancer detection", "medical imaging", "radiology", "ai diagnosis",
    "deep learning", "mammography", "ct scan", "mri", "screening",
    "sensitivity", "specificity", "radiologist", "accuracy"
  ]

  const KEYWORDS_CLIMATE: seq<string> := [
    "net zero", "emissions", "decarbonization", "energy transition",
    "renewable energy", "climate policy", "ndc", "paris agreement",
    "ipcc", "iea", "developing countries", "climate finance",
    "fossil fuels", "carbon neutral", "mitigation", "cop"
  ]

  predicate IsRegisteredTopic(topic: string) {
    topic == VOICE_MODERATION || topic == MEDICAL_IMAGING || topic == CLIMATE_POLICY_ENERGY
  }

  /** The classification keyword list of a registered topic. */
  function TopicKeywords(topic: string): seq<string>
    requires IsRegisteredTopic(topic)
  {
    if topic == VOICE_MODERATION then TOPIC_KEYWORDS_VOICE
    else if topic == MEDICAL_IMAGING then TOPIC_KEYWORDS_MEDICAL
    else TOPIC_KEYWORDS_CLIMATE
  }

  /** How many entries of `kws` occur inside `text`; each entry counts once however often it occurs. */
  function HitCount(kws: seq<string>, text: string): (n: nat)
    ensures n <= |kws|
  {
    if |kws| == 0 then 0
    else HitCount(kws[..|kws| - 1], text) + (if IsInfix(kws[|kws| - 1], text) then 1 else 0)
  }

  /** The keywords of `kws` that occur inside `text`. */
  ghost function HitSet(kws: seq<string>, text: string): set<string> {
    set k | k in kws && IsInfix(k, text)
  }

  predicate Distinct(kws: seq<string>) {
    forall i, j :: 0 <= i < j < |kws| ==> kws[i] != kws[j]
  }

  /** For a list without repeats the hit count is the number of distinct keywords that occur. */
  lemma {:induction false} HitCountIsDistinctHits(kws: seq<string>, text: string)
    requires Distinct(kws)
    ensures HitCount(kws, text) == |HitSet(kws, text)|
    decreases |kws|
  {
    if |kws| > 0 {
      var n := |kws| - 1;
      var init := kws[..n];
      HitCountIsDistinctHits(init, text);
      assert kws[n] !in init by {
        forall j | 0 <= j < n ensures init[j] != kws[n] {
          assert init[j] == kws[j];
        }
      }
      assert kws == init + [kws[n]];
      assert kws[n] !in HitSet(init, text);
      if IsInfix(kws[n], text) {
        assert HitSet(kws, text) == HitSet(init, text) + {kws[n]} by {
          forall k ensures k in HitSet(kws, text) <==> k in HitSet(init, text) + {kws[n]} {
            assert k in kws <==> k in init || k == kws[n];
          }
        }
      } else {
        assert HitSet(kws, text) == HitSet(init, text) by {
          forall k ensures k in HitSet(kws, text) <==> k in HitSet(init, text) {
            assert k in kws <==> k in init || k == kws[n];
          }
        }
      }
    }
  }

  /** Every position listed in `hits` holds a keyword that occurs: the count is at least their number. */
  lemma {:induction false} HitCountAtLeast(kws: seq<string>, text: string, hits: set<nat>)
    requires forall i | i in hits :: i < |kws| && IsInfix(kws[i], text)
    ensures HitCount(kws, text) >= |hits|
    decreases |kws|
  {
    if |kws| > 0 {
      var n := |kws| - 1;
      var init := kws[..n];
      var rest := hits - {n};
      forall i | i in rest ensures i < |init| && IsInfix(init[i], text) {
        assert init[i] == kws[i];
      }
      HitCountAtLeast(init, text, rest);
    } else {
      assert hits == {} by {
        forall i | i in hits ensures false { }
      }
    }
  }

  /** Every position listed in `misses` holds a keyword that does not occur: the count is at most the other positions. */
  lemma {:induction false} HitCountAtMost(kws: seq<string>, text: string, misses: set<nat>)
    requires forall i | i in misses :: i < |kws| && !IsInfix(kws[i], text)
    ensures HitCount(kws, text) + |misses| <= |kws|
    decreases |kws|
  {
    if |kws| > 0 {
      var n := |kws| - 1;
      var init := kws[..n];
      var rest := misses - {n};
      forall i | i in rest ensures i < |init| && !IsInfix(init[i], text) {
        assert init[i] == kws[i];
      }
      HitCountAtMost(init, text, rest);
    } else {
      assert misses == {} by {
        forall i | i in misses ensures false { }
      }
    }
  }

  /** Keyword hits of `query` (lower-cased) for a registered topic. */
  function TopicScore(topic: string, query: string): nat
    requires IsRegisteredTopic(topic)
  {
    HitCount(TopicKeywords(topic), Lower(query))
  }

  /**
   * `classify_topic`: the registered topic with the most keyword hits; a tie
   * goes to the earliest topic of `TOPIC_ORDER` (Python's `max` keeps the
   * first maximum); `UNKNOWN` when no keyword of any topic occurs.
   */
  function ClassifyTopic(query: string): (topic: string)
    ensures topic == UNKNOWN || IsRegisteredTopic(topic)
    ensures var c, m, v := TopicScore(CLIMATE_POLICY_ENERGY, query),
                          TopicScore(MEDICAL_IMAGING, query),
                          TopicScore(VOICE_MODERATION, query);
      && (topic == UNKNOWN <==> c == 0 && m == 0 && v == 0)
      && (topic == CLIMATE_POLICY_ENERGY <==> c > 0 && c >= m && c >= v)
      && (topic == MEDICAL_IMAGING <==> m > 0 && m > c && m >= v)
      && (topic == VOICE_MODERATION <==> v > 0 && v > c && v > m)
  {
    var c := TopicScore(CLIMATE_POLICY_ENERGY, query);
    var m := TopicScore(MEDICAL_IMAGING, query);
    var v := TopicScore(VOICE_MODERATION, query);
    var scores := [c, m, v];
    var best := FirstMax(scores);
    assert scores[0] == c && scores[1] == m && scores[2] == v;
    assert |UNKNOWN| == 7 && |VOICE_MODERATION| == 16 && |MEDICAL_IMAGING| == 15
      && |CLIMATE_POLICY_ENERGY| == 21;
    if scores[best] == 0 then UNKNOWN
    else if best == 0 then CLIMATE_POLICY_ENERGY
    else if best == 1 then MEDICAL_IMAGING
    else VOICE_MODERATION
  }

  /** Index of the first maximal element, as Python's `max` over an ordered dict picks it. */
  function FirstMax(xs: seq<nat>): (k: nat)
    requires |xs| > 0
    ensures k < |xs|
    ensures forall j :: 0 <= j < |xs| ==> xs[j] <= xs[k]
    ensures forall j :: 0 <= j < k ==> xs[j] < xs[k]
  {
    if |xs| == 1 then 0
    else
      var k := FirstMax(xs[..|xs| - 1]);
      if xs[|xs| - 1] > xs[k] then |xs| - 1 else k
  }

  /** `get_seeds_for_topic`: the topic's seed URLs, the generic list for anything else. */
  function SeedsForTopic(topic: string): (seeds: seq<string>)
    ensures topic == VOICE_MODERATION ==> seeds == SEEDS_VOICE_MODERATION
    ensures topic == MEDICAL_IMAGING ==> seeds == SEEDS_MEDICAL_IMAGING
    ensures topic == CLIMATE_POLICY_ENERGY ==> seeds == SEEDS_CLIMATE_POLICY_ENERGY
    ensures !IsRegisteredTopic(topic) ==> seeds == SEEDS_GENERIC
  {
    if topic == VOICE_MODERATION then SEEDS_VOICE_MODERATION
    else if topic == MEDICAL_IMAGING then SEEDS_MEDICAL_IMAGING
    else if topic == CLIMATE_POLICY_ENERGY then SEEDS_CLIMATE_POLICY_ENERGY
    else SEEDS_GENERIC
  }

  /** `get_keywords_for_topic`: the topic's relevance keywords, empty for anything else. */
  function KeywordsForTopic(topic: string): (kws: seq<string>)
    ensures kws == [] <==> !IsRegisteredTopic(topic)
    ensures forall i :: 0 <= i < |kws| ==> |kws[i]| > 0
  {
    if topic == VOICE_MODERATION then KEYWORDS_VOICE
    else if topic == MEDICAL_IMAGING then KEYWORDS_MEDICAL
    else if topic == CLIMATE_POLICY_ENERGY then KEYWORDS_CLIMATE
    else []
  }

  /** High-signal search terms per topic used by the query rewrite. */
  function SignalTerms(topic: string): seq<string> {
    if topic == CLIMATE_POLICY_ENERGY then
      ["IEA", "IPCC", "World Bank", "NDC", "energy transition", "net zero", "2050", "developing countries"]
    else if topic == MEDICAL_IMAGING then
      ["FDA", "cancer detection", "radiology", "AI diagnosis", "clinical trial"]
    else if topic == VOICE_MODERATION then
      ["voice moderation", "speech toxicity", "content moderation", "AI safety"]
    else []
  }

  const STOPWORDS: seq<string> := ["about", "what", "how", "when", "where", "which"]

  predicate IsImportant(w: string) {
    |w| > 4 && w !in STOPWORDS
  }

  /** The words of `ws` kept by the rewrite, in order. */
  function ImportantWords(ws: seq<string>): (r: seq<string>)
    ensures |r| <= |ws|
    ensures forall i :: 0 <= i < |r| ==> r[i] in ws && IsImportant(r[i])
    ensures forall w | w in ws && IsImportant(w) :: w in r
  {
    if |ws| == 0 then []
    else if IsImportant(ws[0]) then [ws[0]] + ImportantWords(ws[1..])
    else ImportantWords(ws[1..])
  }

  /** The filter keeps order: filtering a concatenation concatenates the filtered parts. */
  lemma {:induction false} ImportantWordsAppend(a: seq<string>, b: seq<string>)
    ensures ImportantWords(a + b) == ImportantWords(a) + ImportantWords(b)
    decreases |a|
  {
    if |a| > 0 {
      assert (a + b)[0] == a[0];
      assert (a + b)[1..] == a[1..] + b;
      ImportantWordsAppend(a[1..], b);
    } else {
      assert a + b == b;
    }
  }

  /** The terms the rewrite joins: up to 3 signal terms, then up to 5 important lower-cased words. */
  function RewriteTerms(query: string, topic: string): seq<string> {
    SignalTerms(topic)[..Min(3, |SignalTerms(topic)|)]
      + ImportantWords(Words(Lower(query)))[..Min(5, |ImportantWords(Words(Lower(query)))|)]
  }

  function Min(a: nat, b: nat): nat {
    if a <= b then a else b
  }

  /**
   * `rewrite_query_for_search`: the rewrite terms joined by single spaces,
   * or the query itself when there are no terms. The result is empty only
   * for an empty query; for a registered topic it leads with the topic's
   * first signal term; with neither signal terms nor important words it
   * is the query unchanged.
   */
  function RewriteQuery(query: string, topic: string): (r: string)
    ensures r == "" ==> query == ""
    ensures IsRegisteredTopic(topic) ==> StartsWith(r, SignalTerms(topic)[0])
    ensures !IsRegisteredTopic(topic) && ImportantWords(Words(Lower(query))) == [] ==> r == query
  {
    var terms := RewriteTerms(query, topic);
    var rewritten := Join(" ", terms);
    assert IsRegisteredTopic(topic) ==> terms[0] == SignalTerms(topic)[0] && StartsWith(rewritten, terms[0]) by {
      if IsRegisteredTopic(topic) {
        JoinStartsWithFirst(" ", terms);
      }
    }
    if rewritten != "" then rewritten else query
  }

  /**
   * For a topic without signal terms, splitting the rewrite gives back the
   * first five important words of the lower-cased query.
   */
  lemma RewriteOfUnregisteredTopic(query: string, topic: string)
    requires !IsRegisteredTopic(topic)
    requires ImportantWords(Words(Lower(query))) != []
    ensures var imp := ImportantWords(Words(Lower(query)));
      Words(RewriteQuery(query, topic)) == imp[..Min(5, |imp|)]
  {
    var imp := ImportantWords(Words(Lower(query)));
    var kept := imp[..Min(5, |imp|)];
    assert RewriteTerms(query, topic) == kept;
    forall i | 0 <= i < |kept| ensures IsWord(kept[i]) {
      assert kept[i] in Words(Lower(query));
    }
    WordsOfJoin(kept);
  }

  /** With no signal terms and no important word, the query is searched unchanged. */
  lemma RewriteFallsBackToQuery(query: string, topic: string)
    requires !IsRegisteredTopic(topic)
    requires ImportantWords(Words(Lower(query))) == []
    ensures RewriteQuery(query, topic) == query
  {
  }

  /** Joining two non-empty runs of terms puts one separator between them. */
  lemma {:induction false} JoinConcat(sep: string, a: seq<string>, b: seq<string>)
    requires a != [] && b != []
    ensures Join(sep, a + b) == Join(sep, a) + sep + Join(sep, b)
    decreases |a|
  {
    if |a| == 1 {
      assert (a + b)[0] == a[0];
      assert (a + b)[1..] == b;
    } else {
      assert (a + b)[0] == a[0];
      assert (a + b)[1..] == a[1..] + b;
      JoinConcat(sep, a[1..], b);
    }
  }

  /**
   * For a registered topic the rewrite always starts with the topic's first
   * three signal terms, followed by up to five important words of the
   * lower-cased query; the query itself is never the fallback.
   */
  lemma RewriteOfRegisteredTopic(query: string, topic: string)
    requires IsRegisteredTopic(topic)
    ensures var lead := Join(" ", SignalTerms(topic)[..3]);
      var imp := ImportantWords(Words(Lower(query)));
      var kept := imp[..Min(5, |imp|)];
      && lead != ""
      && StartsWith(RewriteQuery(query, topic), lead)
      && RewriteQuery(query, topic) == if kept == [] then lead else lead + " " + Join(" ", kept)
  {
    var sig := SignalTerms(topic)[..3];
    var lead := Join(" ", sig);
    var imp := ImportantWords(Words(Lower(query)));
    var kept := imp[..Min(5, |imp|)];
    assert RewriteTerms(query, topic) == sig + kept;
    assert |sig[0]| > 0;
    assert |lead| >= |sig[0]| by {
      assert lead == sig[0] + " " + Join(" ", sig[1..]);
    }
    if kept == [] {
      assert sig + kept == sig;
    } else {
      JoinConcat(" ", sig, kept);
      assert (lead + " " + Join(" ", kept))[..|lead|] == lead;
    }
  }
}

=== FILE: seeds_examples.dfy ===
/** The positions of the climate keywords that the worked query lacks. */
module ClimateMissSets {
  const CLIMATE_MISSES_LOW: set<nat> := {0, 1, 3, 4}
  const CLIMATE_MISSES_MID: set<nat> := {5, 6, 7, 8}
  const CLIMATE_MISSES_HIGH: set<nat> := {10, 11, 12, 14, 15, 16, 17, 18}
  /**
   * The 16 climate keywords shown absent from the query: all but
   * "emissions" (2), "ndc" (9) and "iea" (13), which the bound of at most
   * three climate hits leaves unexamined.
   */
  const CLIMATE_MISSES: set<nat> := CLIMATE_MISSES_LOW + CLIMATE_MISSES_MID + CLIMATE_MISSES_HIGH

  lemma LowCard() ensures |CLIMATE_MISSES_LOW| == 4 { }
  lemma MidCard() ensures |CLIMATE_MISSES_MID| == 4 { }
  lemma HighCard() ensures |CLIMATE_MISSES_HIGH| == 8 { }
  lemma Disjoint()
    ensures CLIMATE_MISSES_LOW !! CLIMATE_MISSES_MID
    ensures (CLIMATE_MISSES_LOW + CLIMATE_MISSES_MID) !! CLIMATE_MISSES_HIGH
  { }

  lemma ClimateMissesCard()
    ensures |CLIMATE_MISSES| == 16
  {
    LowCard();
    MidCard();
    HighCard();
    Disjoint();
  }
}

/**
 * A worked classification: the query "voice moderation toxicity detection
 * for discord" (its six words joined by single spaces) is classified as
 * voice moderation, with 4 voice hits, and medical imaging still scores a
 * hit because "ct" occurs inside "detection".
 */
module SeedsExamples {

  import opened Text
  import opened Seeds
  import opened ClimateMissSets

  const WORDS: seq<string> := ["voice", "moderation", "toxicity", "detection", "for", "discord"]

  /** Each word of a join is an infix of it. */
  lemma {:induction false} WordInJoin(sep: string, ws: seq<string>, i: nat)
    requires i < |ws|
    ensures IsInfix(ws[i], Join(sep, ws))
    decreases |ws|
  {
    if |ws| == 1 {
      InfixOfConcat("", ws[0], "");
      assert "" + ws[0] + "" == ws[0];
    } else if i == 0 {
      InfixOfConcat("", ws[0], sep + Join(sep, ws[1..]));
      assert Join(sep, ws) == "" + ws[0] + (sep + Join(sep, ws[1..]));
    } else {
      WordInJoin(sep, ws[1..], i - 1);
      InfixOfConcat(ws[0] + sep, Join(sep, ws[1..]), "");
      assert Join(sep, ws) == (ws[0] + sep) + Join(sep, ws[1..]) + "";
      InfixTrans(ws[i], Join(sep, ws[1..]), Join(sep, ws));
    }
  }

  /** A character found in no word and not in the separator is not in the join. */
  lemma {:induction false} CharNotInJoin(c: char, sep: string, ws: seq<string>)
    requires c !in sep
    requires forall i :: 0 <= i < |ws| ==> c !in ws[i]
    ensures c !in Join(sep, ws)
    decreases |ws|
  {
    if |ws| > 1 {
      CharNotInJoin(c, sep, ws[1..]);
    }
  }

  /** Joining lower-case words with a lower-case separator gives lower-case text. */
  lemma {:induction false} LowerJoin(sep: string, ws: seq<string>)
    requires Lower(sep) == sep
    requires forall i :: 0 <= i < |ws| ==> Lower(ws[i]) == ws[i]
    ensures Lower(Join(sep, ws)) == Join(sep, ws)
    decreases |ws|
  {
    if |ws| > 1 {
      LowerJoin(sep, ws[1..]);
      LowerAppend(ws[0], sep);
      LowerAppend(ws[0] + sep, Join(sep, ws[1..]));
    }
  }

  lemma LowerQuery()
    ensures Lower(Join(" ", WORDS)) == Join(" ", WORDS)
  {
    LowerJoin(" ", WORDS);
  }

  /** The characters the misses below rely on: none of them occurs in the query. */
  predicate LacksMissChars(t: string) {
    'b' !in t && 'g' !in t && 'h' !in t && 'l' !in t && 'p' !in t
    && 'u' !in t && 'w' !in t && 'z' !in t && '2' !in t && '-' !in t
  }

  /** A character absent from every word of the query is absent from the query. */
  lemma NotInQuery(c: char)
    requires c != ' ' && c !in "voice" && c !in "moderation" && c !in "toxicity"
    requires c !in "detection" && c !in "for" && c !in "discord"
    ensures c !in Join(" ", WORDS)
  {
    CharNotInJoin(c, " ", WORDS);
  }

  lemma QueryLacksB() ensures 'b' !in Join(" ", WORDS) { NotInQuery('b'); }
  lemma QueryLacksG() ensures 'g' !in Join(" ", WORDS) { NotInQuery('g'); }
  lemma QueryLacksH() ensures 'h' !in Join(" ", WORDS) { NotInQuery('h'); }
  lemma QueryLacksL() ensures 'l' !in Join(" ", WORDS) { NotInQuery('l'); }
  lemma QueryLacksP() ensures 'p' !in Join(" ", WORDS) { NotInQuery('p'); }
  lemma QueryLacksU() ensures 'u' !in Join(" ", WORDS) { NotInQuery('u'); }
  lemma QueryLacksW() ensures 'w' !in Join(" ", WORDS) { NotInQuery('w'); }
  lemma QueryLacksZ() ensures 'z' !in Join(" ", WORDS) { NotInQuery('z'); }
  lemma QueryLacksTwo() ensures '2' !in Join(" ", WORDS) { NotInQuery('2'); }
  lemma QueryLacksDash() ensures '-' !in Join(" ", WORDS) { NotInQuery('-'); }

  lemma QueryLacksMissChars()
    ensures LacksMissChars(Join(" ", WORDS))
  {
    QueryLacksB();
    QueryLacksG();
    QueryLacksH();
    QueryLacksL();
    QueryLacksP();
    QueryLacksU();
    QueryLacksW();
    QueryLacksZ();
    QueryLacksTwo();
    QueryLacksDash();
  }

  /** Keyword `kws[i]` cannot occur in `t` because its character `c` does not. */
  lemma Absent(kws: seq<string>, i: nat, c: char, t: string)
    requires i < |kws| && c in kws[i] && c !in t
    ensures !IsInfix(kws[i], t)
  {
    NotInfixByChar(kws[i], t, c);
  }

  lemma VoiceHits(t: string)
    requires t == Join(" ", WORDS)
    ensures forall i | i in {0, 2, 4, 5} :: i < |TOPIC_KEYWORDS_VOICE| && IsInfix(TOPIC_KEYWORDS_VOICE[i], t)
  {
    WordInJoin(" ", WORDS, 0);
    WordInJoin(" ", WORDS, 1);
    WordInJoin(" ", WORDS, 2);
    WordInJoin(" ", WORDS, 5);
  }

  lemma VoiceMisses(t: string)
    requires LacksMissChars(t)
    ensures forall i | i in {1, 3, 6, 7, 8, 9} :: i < |TOPIC_KEYWORDS_VOICE| && !IsInfix(TOPIC_KEYWORDS_VOICE[i], t)
  {
    var k := TOPIC_KEYWORDS_VOICE;
    Absent(k, 1, 'p', t);
    Absent(k, 3, 'h', t);
    Absent(k, 6, 'g', t);
    Absent(k, 7, 'h', t);
    Absent(k, 8, 'u', t);
    Absent(k, 9, 'l', t);
  }

  lemma MedicalHit(t: string)
    requires t == Join(" ", WORDS)
    ensures forall i | i in {4} :: i < |TOPIC_KEYWORDS_MEDICAL| && IsInfix(TOPIC_KEYWORDS_MEDICAL[i], t)
  {
    WordInJoin(" ", WORDS, 3);
    assert OccursAt("ct", "detection", 4);
    InfixTrans("ct", "detection", t);
  }

  lemma MedicalMisses(t: string)
    requires LacksMissChars(t)
    ensures forall i | i in {1, 2, 3, 6, 7, 8, 9, 10, 11} ::
      i < |TOPIC_KEYWORDS_MEDICAL| && !IsInfix(TOPIC_KEYWORDS_MEDICAL[i], t)
  {
    var k := TOPIC_KEYWORDS_MEDICAL;
    Absent(k, 1, 'l', t);
    Absent(k, 2, 'g', t);
    Absent(k, 3, 'g', t);
    Absent(k, 6, 'b', t);
    Absent(k, 7, 'g', t);
    Absent(k, 8, 'g', t);
    Absent(k, 9, 'l', t);
    Absent(k, 10, 'u', t);
    Absent(k, 11, 'l', t);
  }

  lemma ClimateMissesLow(t: string)
    requires LacksMissChars(t)
    ensures forall i | i in CLIMATE_MISSES_LOW ::
      i < |TOPIC_KEYWORDS_CLIMATE| && !IsInfix(TOPIC_KEYWORDS_CLIMATE[i], t)
  {
    var k := TOPIC_KEYWORDS_CLIMATE;
    Absent(k, 0, '-', t);
    Absent(k, 1, 'z', t);
    Absent(k, 3, '2', t);
    Absent(k, 4, 'b', t);
  }

  lemma ClimateMissesMid(t: string)
    requires LacksMissChars(t)
    ensures forall i | i in CLIMATE_MISSES_MID ::
      i < |TOPIC_KEYWORDS_CLIMATE| && !IsInfix(TOPIC_KEYWORDS_CLIMATE[i], t)
  {
    var k := TOPIC_KEYWORDS_CLIMATE;
    Absent(k, 5, 'g', t);
    Absent(k, 6, 'w', t);
    Absent(k, 7, 'l', t);
    Absent(k, 8, 'l', t);
  }

  lemma ClimateMissesHigh(t: string)
    requires LacksMissChars(t)
    ensures forall i | i in CLIMATE_MISSES_HIGH ::
      i < |TOPIC_KEYWORDS_CLIMATE| && !IsInfix(TOPIC_KEYWORDS_CLIMATE[i], t)
  {
    var k := TOPIC_KEYWORDS_CLIMATE;
    Absent(k, 10, 'p', t);
    Absent(k, 11, 'b', t);
    Absent(k, 12, 'p', t);
    Absent(k, 14, 'u', t);
    Absent(k, 15, 'p', t);
    Absent(k, 16, 'p', t);
    Absent(k, 17, 'g', t);
    Absent(k, 18, 'l', t);
  }

  lemma QueryFacts(t: string)
    requires t == Join(" ", WORDS)
    ensures Lower(t) == t && LacksMissChars(t)
    ensures forall i | i in {0, 2, 4, 5} :: i < |TOPIC_KEYWORDS_VOICE| && IsInfix(TOPIC_KEYWORDS_VOICE[i], t)
    ensures forall i | i in {4} :: i < |TOPIC_KEYWORDS_MEDICAL| && IsInfix(TOPIC_KEYWORDS_MEDICAL[i], t)
  {
    LowerQuery();
    QueryLacksMissChars();
    VoiceHits(t);
    MedicalHit(t);
  }

  lemma VoiceScoreOf(t: string)
    requires Lower(t) == t && LacksMissChars(t)
    requires forall i | i in {0, 2, 4, 5} :: i < |TOPIC_KEYWORDS_VOICE| && IsInfix(TOPIC_KEYWORDS_VOICE[i], t)
    ensures TopicScore(VOICE_MODERATION, t) == 4
  {
    VoiceMisses(t);
    HitCountAtLeast(TOPIC_KEYWORDS_VOICE, t, {0, 2, 4, 5});
    HitCountAtMost(TOPIC_KEYWORDS_VOICE, t, {1, 3, 6, 7, 8, 9});
  }

  lemma MedicalScoreOf(t: string)
    requires Lower(t) == t && LacksMissChars(t)
    requires forall i | i in {4} :: i < |TOPIC_KEYWORDS_MEDICAL| && IsInfix(TOPIC_KEYWORDS_MEDICAL[i], t)
    ensures 1 <= TopicScore(MEDICAL_IMAGING, t) <= 3
  {
    MedicalMisses(t);
    HitCountAtLeast(TOPIC_KEYWORDS_MEDICAL, t, {4});
    HitCountAtMost(TOPIC_KEYWORDS_MEDICAL, t, {1, 2, 3, 6, 7, 8, 9, 10, 11});
  }

  lemma ClimateMisses(t: string)
    requires LacksMissChars(t)
    ensures forall i | i in CLIMATE_MISSES ::
      i < |TOPIC_KEYWORDS_CLIMATE| && !IsInfix(TOPIC_KEYWORDS_CLIMATE[i], t)
  {
    ClimateMissesLow(t);
    ClimateMissesMid(t);
    ClimateMissesHigh(t);
  }

  lemma ClimateScoreOf(t: string)
    requires Lower(t) == t && LacksMissChars(t)
    ensures TopicScore(CLIMATE_POLICY_ENERGY, t) <= 3
  {
    ClimateMisses(t);
    ClimateMissesCard();
    HitCountAtMost(TOPIC_KEYWORDS_CLIMATE, t, CLIMATE_MISSES);
  }

  /**
   * The voice topic scores exactly 4 (voice, toxicity, moderation, discord),
   * medical imaging scores at least 1 because "ct" occurs inside "detection",
   * and the query is classified as voice moderation.
   */
  lemma VoiceModerationQuery()
    ensures TopicScore(VOICE_MODERATION, Join(" ", WORDS)) == 4
    ensures 1 <= TopicScore(MEDICAL_IMAGING, Join(" ", WORDS)) <= 3
    ensures IsInfix("ct", Join(" ", WORDS))
    ensures ClassifyTopic(Join(" ", WORDS)) == VOICE_MODERATION
  {
    var t := Join(" ", WORDS);
    QueryFacts(t);
    VoiceScoreOf(t);
    MedicalScoreOf(t);
    ClimateScoreOf(t);
    assert TOPIC_KEYWORDS_MEDICAL[4] == "ct";
  }
}

=== FILE: stable_sort.dfy ===
/**
 * Python's `list.sort(key=k, reverse=True)` and the filters the pipeline
 * applies to sorted lists. The sort is stable: elements with equal keys
 * keep their original relative order, even with `reverse=True`.
 */
module StableSort {

  import opened Text

  /** Keys never increase from left to right. */
  predicate NonIncreasing<T>(xs: seq<T>, key: T -> real) {
    forall i, j | 0 <= i < j < |xs| :: key(xs[i]) >= key(xs[j])
  }

  /** The elements of `xs` whose key is exactly `v`, in their order in `xs`. */
  function WithKey<T>(xs: seq<T>, key: T -> real, v: real): (r: seq<T>)
    ensures |r| <= |xs|
    ensures forall i | 0 <= i < |r| :: key(r[i]) == v
  {
    if xs == [] then []
    else (if key(xs[0]) == v then [xs[0]] else []) + WithKey(xs[1..], key, v)
  }

  /** The list comprehension `[x for x in xs if key(x) > floor]`. */
  function Above<T>(xs: seq<T>, key: T -> real, floor: real): (r: seq<T>)
    ensures |r| <= |xs|
    ensures forall i | 0 <= i < |r| :: key(r[i]) > floor
  {
    if xs == [] then []
    else (if key(xs[0]) > floor then [xs[0]] else []) + Above(xs[1..], key, floor)
  }

  /** Places `x` after every element of `s` whose key is at least its own. */
  function Insert<T>(x: T, s: seq<T>, key: T -> real): seq<T> {
    if s == [] then [x]
    else if key(s[0]) >= key(x) then [s[0]] + Insert(x, s[1..], key)
    else [x] + s
  }

  /** The stable descending sort: each element in turn is inserted behind its equals. */
  function Sort<T>(xs: seq<T>, key: T -> real): seq<T> {
    if xs == [] then [] else Insert(xs[|xs| - 1], Sort(xs[..|xs| - 1], key), key)
  }

  lemma {:induction false} WithKeyAppend<T>(a: seq<T>, b: seq<T>, key: T -> real, v: real)
    ensures WithKey(a + b, key, v) == WithKey(a, key, v) + WithKey(b, key, v)
  {
    if a == [] {
      assert a + b == b;
    } else {
      assert (a + b)[1..] == a[1..] + b;
      WithKeyAppend(a[1..], b, key, v);
    }
  }

  lemma {:induction false} AboveAppend<T>(a: seq<T>, b: seq<T>, key: T -> real, floor: real)
    ensures Above(a + b, key, floor) == Above(a, key, floor) + Above(b, key, floor)
  {
    if a == [] {
      assert a + b == b;
    } else {
      assert (a + b)[1..] == a[1..] + b;
      AboveAppend(a[1..], b, key, floor);
    }
  }

  /** No element of `s` has key `v` when every key of `s` is below it. */
  lemma {:induction false} WithKeyNone<T>(s: seq<T>, key: T -> real, v: real)
    requires forall i | 0 <= i < |s| :: key(s[i]) < v
    ensures WithKey(s, key, v) == []
  {
    if s != [] {
      WithKeyNone(s[1..], key, v);
    }
  }

  /** Putting an element no smaller than every key in front of a sorted list keeps it sorted. */
  lemma ConsSorted<T>(a: T, t: seq<T>, key: T -> real)
    requires NonIncreasing(t, key)
    requires forall i | 0 <= i < |t| :: key(t[i]) <= key(a)
    ensures NonIncreasing([a] + t, key)
  {
    var r := [a] + t;
    forall i, j | 0 <= i < j < |r| ensures key(r[i]) >= key(r[j]) {
      assert r[j] == t[j - 1];
      if i > 0 {
        assert r[i] == t[i - 1];
      }
    }
  }

  /** The keys of a sorted list are bounded by its first key. */
  lemma HeadBounds<T>(s: seq<T>, key: T -> real)
    requires NonIncreasing(s, key) && s != []
    ensures forall i | 0 <= i < |s| :: key(s[i]) <= key(s[0])
  {
    forall i | 0 <= i < |s| ensures key(s[i]) <= key(s[0]) {
      if i > 0 {
        assert key(s[0]) >= key(s[i]);
      }
    }
  }

  /** Inserting keeps a common upper bound on the keys. */
  lemma {:induction false} InsertBounded<T>(x: T, s: seq<T>, key: T -> real, m: real)
    requires key(x) <= m
    requires forall i | 0 <= i < |s| :: key(s[i]) <= m
    ensures forall i | 0 <= i < |Insert(x, s, key)| :: key(Insert(x, s, key)[i]) <= m
  {
    if s != [] && key(s[0]) >= key(x) {
      InsertBounded(x, s[1..], key, m);
      assert Insert(x, s, key) == [s[0]] + Insert(x, s[1..], key);
    }
  }

  /** Inserting into a non-increasing list keeps it non-increasing. */
  lemma {:induction false} InsertSorted<T>(x: T, s: seq<T>, key: T -> real)
    requires NonIncreasing(s, key)
    ensures NonIncreasing(Insert(x, s, key), key)
  {
    if s == [] {
      assert Insert(x, s, key) == [x];
    } else {
      HeadBounds(s, key);
      if key(s[0]) >= key(x) {
        InsertSorted(x, s[1..], key);
        InsertBounded(x, s[1..], key, key(s[0]));
        ConsSorted(s[0], Insert(x, s[1..], key), key);
      } else {
        ConsSorted(x, s, key);
      }
    }
  }

  /** Inserting adds exactly one occurrence of `x`. */
  lemma {:induction false} InsertMultiset<T>(x: T, s: seq<T>, key: T -> real)
    ensures multiset(Insert(x, s, key)) == multiset(s) + multiset{x}
  {
    if s != [] && key(s[0]) >= key(x) {
      InsertMultiset(x, s[1..], key);
      assert s == [s[0]] + s[1..];
    }
  }

  /** `x` lands behind every element of `s` that shares its key. */
  lemma {:induction false} InsertWithKey<T>(x: T, s: seq<T>, key: T -> real, v: real)
    requires NonIncreasing(s, key)
    ensures WithKey(Insert(x, s, key), key, v) == WithKey(s, key, v) + (if key(x) == v then [x] else [])
  {
    var r := Insert(x, s, key);
    if s == [] {
      assert r == [x];
      assert r[1..] == [];
    } else if key(s[0]) >= key(x) {
      var t := Insert(x, s[1..], key);
      assert r == [s[0]] + t;
      assert r[1..] == t;
      InsertWithKey(x, s[1..], key, v);
    } else {
      assert r == [x] + s;
      assert r[1..] == s;
      if key(x) == v {
        forall i | 0 <= i < |s| ensures key(s[i]) < v {
          assert i == 0 || key(s[0]) >= key(s[i]);
        }
        WithKeyNone(s, key, v);
      }
    }
  }

  /** The sort orders by key. */
  lemma {:induction false} SortSorted<T>(xs: seq<T>, key: T -> real)
    ensures NonIncreasing(Sort(xs, key), key)
  {
    if xs != [] {
      SortSorted(xs[..|xs| - 1], key);
      InsertSorted(xs[|xs| - 1], Sort(xs[..|xs| - 1], key), key);
    }
  }

  /** The sort keeps every element with its multiplicity. */
  lemma {:induction false} SortPermutes<T>(xs: seq<T>, key: T -> real)
    ensures multiset(Sort(xs, key)) == multiset(xs)
    ensures |Sort(xs, key)| == |xs|
  {
    if xs != [] {
      SortPermutes(xs[..|xs| - 1], key);
      InsertMultiset(xs[|xs| - 1], Sort(xs[..|xs| - 1], key), key);
      assert xs == xs[..|xs| - 1] + [xs[|xs| - 1]];
    }
    assert |multiset(Sort(xs, key))| == |Sort(xs, key)|;
  }

  /** The sorted sequence holds exactly the input's elements. */
  lemma SortMembers<T>(xs: seq<T>, key: T -> real)
    ensures forall x :: x in Sort(xs, key) <==> x in xs
  {
    SortPermutes(xs, key);
    forall x ensures x in Sort(xs, key) <==> x in xs {
      assert x in Sort(xs, key) <==> x in multiset(Sort(xs, key));
      assert x in xs <==> x in multiset(xs);
    }
  }

  /** The sort is stable: for each key, the elements carrying it appear in their input order. */
  lemma {:induction false} SortStable<T>(xs: seq<T>, key: T -> real, v: real)
    ensures WithKey(Sort(xs, key), key, v) == WithKey(xs, key, v)
  {
    if xs != [] {
      var init := xs[..|xs| - 1];
      var x := xs[|xs| - 1];
      SortStable(init, key, v);
      SortSorted(init, key);
      InsertWithKey(x, Sort(init, key), key, v);
      assert xs == init + [x];
      WithKeyAppend(init, [x], key, v);
      assert [x][1..] == [];
    }
  }

  /** Filtering only drops elements, so a bound on every key survives it. */
  lemma {:induction false} AboveBounded<T>(s: seq<T>, key: T -> real, floor: real, m: real)
    requires forall i | 0 <= i < |s| :: key(s[i]) <= m
    ensures forall i | 0 <= i < |Above(s, key, floor)| :: key(Above(s, key, floor)[i]) <= m
  {
    if s != [] {
      AboveBounded(s[1..], key, floor, m);
    }
  }

  /** On a sorted list, inserting and then filtering is filtering and then inserting. */
  lemma {:induction false} AboveInsert<T>(x: T, s: seq<T>, key: T -> real, floor: real)
    requires NonIncreasing(s, key)
    ensures Above(Insert(x, s, key), key, floor) ==
      if key(x) > floor then Insert(x, Above(s, key, floor), key) else Above(s, key, floor)
  {
    if s == [] {
      assert Insert(x, s, key) == [x];
      assert [x][1..] == [];
    } else if key(s[0]) >= key(x) {
      AboveInsert(x, s[1..], key, floor);
      AboveInsertBehind(x, s, key, floor);
    } else {
      AboveInsertFront(x, s, key, floor);
    }
  }

  /** The step of `AboveInsert` when `x` goes behind the head. */
  lemma AboveInsertBehind<T>(x: T, s: seq<T>, key: T -> real, floor: real)
    requires s != [] && key(s[0]) >= key(x)
    requires Above(Insert(x, s[1..], key), key, floor) ==
      if key(x) > floor then Insert(x, Above(s[1..], key, floor), key) else Above(s[1..], key, floor)
    ensures Above(Insert(x, s, key), key, floor) ==
      if key(x) > floor then Insert(x, Above(s, key, floor), key) else Above(s, key, floor)
  {
    var t := Insert(x, s[1..], key);
    assert Insert(x, s, key) == [s[0]] + t;
    assert ([s[0]] + t)[1..] == t;
  }

  /** The case of `AboveInsert` when `x` goes in front. */
  lemma AboveInsertFront<T>(x: T, s: seq<T>, key: T -> real, floor: real)
    requires NonIncreasing(s, key)
    requires s != [] && key(s[0]) < key(x)
    ensures Above(Insert(x, s, key), key, floor) ==
      if key(x) > floor then Insert(x, Above(s, key, floor), key) else Above(s, key, floor)
  {
    assert Insert(x, s, key) == [x] + s;
    assert ([x] + s)[1..] == s;
    var a := Above(s, key, floor);
    if key(x) > floor && a != [] {
      forall i | 0 <= i < |s| ensures key(s[i]) <= key(s[0]) {
        assert i == 0 || key(s[0]) >= key(s[i]);
      }
      AboveBounded(s, key, floor, key(s[0]));
      assert key(a[0]) < key(x);
    }
  }

  /** Filtering a sorted list gives the sorted filtered list. */
  lemma {:induction false} AboveSort<T>(xs: seq<T>, key: T -> real, floor: real)
    ensures Above(Sort(xs, key), key, floor) == Sort(Above(xs, key, floor), key)
  {
    if xs != [] {
      var init := xs[..|xs| - 1];
      var x := xs[|xs| - 1];
      var ai := Above(init, key, floor);
      assert Sort(xs, key) == Insert(x, Sort(init, key), key);
      AboveSort(init, key, floor);
      SortSorted(init, key);
      AboveInsert(x, Sort(init, key), key, floor);
      assert xs == init + [x];
      AboveOfSnoc(init, x, key, floor);
      if key(x) > floor {
        var a := ai + [x];
        assert a[..|a| - 1] == ai;
        assert Sort(a, key) == Insert(x, Sort(ai, key), key);
      } else {
        assert ai + [] == ai;
      }
    }
  }

  lemma AboveOfSnoc<T>(init: seq<T>, x: T, key: T -> real, floor: real)
    ensures Above(init + [x], key, floor) ==
      Above(init, key, floor) + (if key(x) > floor then [x] else [])
  {
    AboveAppend(init, [x], key, floor);
    assert [x][1..] == [];
  }

  /** Filtering by `key > floor` commutes with selecting one key `v`. */
  lemma {:induction false} WithKeyAbove<T>(s: seq<T>, key: T -> real, floor: real, v: real)
    ensures WithKey(Above(s, key, floor), key, v) == if v > floor then WithKey(s, key, v) else []
  {
    if s != [] {
      WithKeyAbove(s[1..], key, floor, v);
      var h := if key(s[0]) > floor then [s[0]] else [];
      WithKeyAppend(h, Above(s[1..], key, floor), key, v);
      if key(s[0]) > floor {
        assert ([s[0]])[1..] == [];
      }
    }
  }

  /** For each key, a prefix of a list carries a prefix of that key's elements. */
  lemma WithKeyOfPrefix<T>(s: seq<T>, n: nat, key: T -> real, v: real)
    requires n <= |s|
    ensures WithKey(s, key, v) == WithKey(s[..n], key, v) + WithKey(s[n..], key, v)
  {
    assert s == s[..n] + s[n..];
    WithKeyAppend(s[..n], s[n..], key, v);
  }

  /** `[x for x in sorted(xs, key=key, reverse=True) if key(x) > floor][:n]`. */
  function Top<T>(xs: seq<T>, key: T -> real, floor: real, n: nat): seq<T> {
    PyTake(Above(Sort(xs, key), key, floor), n)
  }

  /** The elements that pass the floor but fall beyond the first `n`. */
  function Passed<T>(xs: seq<T>, key: T -> real, floor: real, n: nat): seq<T> {
    var p := Above(Sort(xs, key), key, floor);
    p[|PyTake(p, n)|..]
  }

  /** The top `n` are `n` elements above the floor, or all of them when fewer pass. */
  lemma TopLength<T>(xs: seq<T>, key: T -> real, floor: real, n: nat)
    ensures var k := |Above(xs, key, floor)|; |Top(xs, key, floor, n)| == if n <= k then n else k
  {
    AboveSort(xs, key, floor);
    SortPermutes(Above(xs, key, floor), key);
  }

  /** The top elements come best first, and each is above the floor. */
  lemma TopSorted<T>(xs: seq<T>, key: T -> real, floor: real, n: nat)
    ensures NonIncreasing(Top(xs, key, floor, n), key)
    ensures forall i | 0 <= i < |Top(xs, key, floor, n)| :: key(Top(xs, key, floor, n)[i]) > floor
  {
    var p := Above(Sort(xs, key), key, floor);
    AboveSort(xs, key, floor);
    SortSorted(Above(xs, key, floor), key);
    var r := Top(xs, key, floor, n);
    forall i, j | 0 <= i < j < |r| ensures key(r[i]) >= key(r[j]) {
      assert r[i] == p[i] && r[j] == p[j];
    }
  }

  /**
   * The selected and the passed-over elements are together exactly the
   * elements above the floor, and none passed over beats one selected.
   */
  lemma TopSplit<T>(xs: seq<T>, key: T -> real, floor: real, n: nat)
    ensures multiset(Top(xs, key, floor, n)) + multiset(Passed(xs, key, floor, n)) == multiset(Above(xs, key, floor))
    ensures forall i, j | 0 <= i < |Top(xs, key, floor, n)| && 0 <= j < |Passed(xs, key, floor, n)| ::
      key(Top(xs, key, floor, n)[i]) >= key(Passed(xs, key, floor, n)[j])
  {
    var a := Above(xs, key, floor);
    var p := Above(Sort(xs, key), key, floor);
    AboveSort(xs, key, floor);
    SortSorted(a, key);
    SortPermutes(a, key);
    var k := |PyTake(p, n)|;
    assert Top(xs, key, floor, n) == p[..k] && Passed(xs, key, floor, n) == p[k..];
    SplitSorted(p, k, key);
  }

  /** Cutting a sorted sequence in two keeps its elements and puts none of the back before the front. */
  lemma SplitSorted<T>(p: seq<T>, k: nat, key: T -> real)
    requires k <= |p| && NonIncreasing(p, key)
    ensures multiset(p[..k]) + multiset(p[k..]) == multiset(p)
    ensures forall i, j | 0 <= i < k && 0 <= j < |p| - k :: key(p[..k][i]) >= key(p[k..][j])
  {
    assert p == p[..k] + p[k..];
    forall i, j | 0 <= i < k && 0 <= j < |p| - k ensures key(p[..k][i]) >= key(p[k..][j]) {
      assert p[..k][i] == p[i] && p[k..][j] == p[k + j];
    }
  }

  /** Ties keep their input order: for each key, the selected elements are the first ones carrying it. */
  lemma TopStable<T>(xs: seq<T>, key: T -> real, floor: real, n: nat, v: real)
    ensures WithKey(Top(xs, key, floor, n), key, v) <= WithKey(xs, key, v)
  {
    var p := Above(Sort(xs, key), key, floor);
    var r := Top(xs, key, floor, n);
    WithKeyOfPrefix(p, |r|, key, v);
    WithKeyAbove(Sort(xs, key), key, floor, v);
    SortStable(xs, key, v);
  }

  lemma {:induction false} AboveSubset<T>(s: seq<T>, key: T -> real, floor: real)
    ensures multiset(Above(s, key, floor)) <= multiset(s)
  {
    if s != [] {
      AboveSubset(s[1..], key, floor);
      assert s == [s[0]] + s[1..];
    }
  }

  /** Every selected element is one of the input elements. */
  lemma TopFromInput<T>(xs: seq<T>, key: T -> real, floor: real, n: nat)
    ensures forall i | 0 <= i < |Top(xs, key, floor, n)| :: Top(xs, key, floor, n)[i] in xs
  {
    TopSplit(xs, key, floor, n);
    AboveSubset(xs, key, floor);
    var r := Top(xs, key, floor, n);
    forall i | 0 <= i < |r| ensures r[i] in xs {
      assert r[i] in multiset(r);
      assert r[i] in multiset(xs);
    }
  }
}

=== FILE: text.dfy ===
/**
 * The Python `str` operations the pipeline relies on, written out over
 * `string` (a `seq<char>`): case folding, substring search and counting,
 * whitespace splitting and stripping, joining, slicing and `str(int)`.
 */
module Text {

  import opened Common

  /** Python's `str.isspace()` for one character (the full Unicode set Python uses). */
  predicate IsSpace(c: char) {
    var n := c as int;
    || (9 <= n <= 13) || (28 <= n <= 32) || n == 0x85 || n == 0xA0 || n == 0x1680
    || (0x2000 <= n <= 0x200A) || n == 0x2028 || n == 0x2029 || n == 0x202F
    || n == 0x205F || n == 0x3000
  }

  function LowerChar(c: char): char {
    if 'A' <= c <= 'Z' then (c as int + 32) as char else c
  }

  /** `s.lower()`, restricted to the ASCII letters. */
  function Lower(s: string): (r: string)
    ensures |r| == |s|
  {
    seq(|s|, i requires 0 <= i < |s| => LowerChar(s[i]))
  }

  lemma LowerAppend(a: string, b: string)
    ensures Lower(a + b) == Lower(a) + Lower(b)
  {
    assert forall i | 0 <= i < |a + b| :: Lower(a + b)[i] == (Lower(a) + Lower(b))[i];
  }

  /** Python's `k in s` for strings: `k` occurs somewhere inside `s`. */
  predicate IsInfix(k: string, s: string) {
    exists i | 0 <= i <= |s| - |k| :: OccursAt(k, s, i)
  }

  /** `k` occurs in `s` starting at index `i`. */
  predicate OccursAt(k: string, s: string, i: int) {
    0 <= i <= |s| - |k| && s[i..i + |k|] == k
  }

  predicate StartsWith(s: string, p: string) {
    |p| <= |s| && s[..|p|] == p
  }

  /** Python's `s.endswith(p)`. */
  predicate EndsWith(s: string, p: string) {
    |p| <= |s| && s[|s| - |p|..] == p
  }

  /** Python's `s.count(k)` for a non-empty `k`: the occurrences found by a left-to-right scan that skips past each match. */
  function Count(s: string, k: string): nat
    requires |k| > 0
    decreases |s|
  {
    if |s| < |k| then 0
    else if s[..|k|] == k then 1 + Count(s[|k|..], k)
    else Count(s[1..], k)
  }

  /** Text appended after `s` never removes an occurrence the scan of `s` found. */
  lemma {:induction false} CountAppend(s: string, t: string, k: string)
    requires |k| > 0
    ensures Count(s + t, k) >= Count(s, k)
    decreases |s|
  {
    if |s| < |k| {
    } else if s[..|k|] == k {
      assert (s + t)[..|k|] == k;
      assert (s + t)[|k|..] == s[|k|..] + t;
      CountAppend(s[|k|..], t, k);
    } else {
      assert (s + t)[..|k|] == s[..|k|];
      assert (s + t)[1..] == s[1..] + t;
      CountAppend(s[1..], t, k);
    }
  }

  /** A word of `str.split()`: non-empty and free of whitespace. */
  predicate IsWord(w: string) {
    |w| > 0 && forall j :: 0 <= j < |w| ==> !IsSpace(w[j])
  }

  /** Length of the run of non-whitespace characters that starts `s`. */
  function WordLen(s: string): (n: nat)
    ensures n <= |s|
    ensures forall j :: 0 <= j < n ==> !IsSpace(s[j])
    ensures n < |s| ==> IsSpace(s[n])
    decreases |s|
  {
    if |s| == 0 || IsSpace(s[0]) then 0 else 1 + WordLen(s[1..])
  }

  /** Python's `s.split()` with no separator: the maximal whitespace-free runs, in order. */
  function Words(s: string): (ws: seq<string>)
    ensures forall i :: 0 <= i < |ws| ==> IsWord(ws[i])
    decreases |s|
  {
    if |s| == 0 then []
    else if IsSpace(s[0]) then Words(s[1..])
    else
      var n := WordLen(s);
      [s[..n]] + Words(s[n..])
  }

  /** Python's `sep.join(ws)`. */
  function Join(sep: string, ws: seq<string>): string {
    if |ws| == 0 then ""
    else if |ws| == 1 then ws[0]
    else ws[0] + sep + Join(sep, ws[1..])
  }

  /** A join starts with its first element. */
  lemma JoinStartsWithFirst(sep: string, ws: seq<string>)
    requires ws != []
    ensures StartsWith(Join(sep, ws), ws[0])
  {
    if |ws| > 1 {
      assert (ws[0] + sep + Join(sep, ws[1..]))[..|ws[0]|] == ws[0];
    }
  }

  lemma WordsAfterWord(w: string, t: string)
    requires IsWord(w)
    requires t == [] || IsSpace(t[0])
    ensures Words(w + t) == [w] + Words(t)
  {
    WordLenOf(w, t);
    assert (w + t)[..|w|] == w;
    assert (w + t)[|w|..] == t;
  }

  lemma {:induction false} WordLenOf(w: string, t: string)
    requires forall j :: 0 <= j < |w| ==> !IsSpace(w[j])
    requires t == [] || IsSpace(t[0])
    ensures WordLen(w + t) == |w|
    decreases |w|
  {
    if |w| > 0 {
      assert (w + t)[1..] == w[1..] + t;
      WordLenOf(w[1..], t);
    }
  }

  /** Splitting a single-space join of words gives the words back. */
  lemma {:induction false} WordsOfJoin(ws: seq<string>)
    requires forall i :: 0 <= i < |ws| ==> IsWord(ws[i])
    ensures Words(Join(" ", ws)) == ws
    decreases |ws|
  {
    if |ws| == 0 {
    } else if |ws| == 1 {
      WordsAfterWord(ws[0], "");
      assert ws[0] + "" == ws[0];
    } else {
      var rest := Join(" ", ws[1..]);
      assert Join(" ", ws) == ws[0] + (" " + rest);
      WordsAfterWord(ws[0], " " + rest);
      assert (" " + rest)[1..] == rest;
      WordsOfJoin(ws[1..]);
      assert ws == [ws[0]] + ws[1..];
    }
  }

  /** Python's `s.split(d)` for a one-character separator: always at least one piece. */
  function SplitOn(s: string, d: char): (parts: seq<string>)
    ensures |parts| > 0
    ensures forall i :: 0 <= i < |parts| ==> d !in parts[i]
    decreases |s|
  {
    if |s| == 0 then [""]
    else
      var rest := SplitOn(s[1..], d);
      if s[0] == d then [""] + rest else [[s[0]] + rest[0]] + rest[1..]
  }

  /** Re-joining the pieces of a split with the separator restores the original text. */
  lemma {:induction false} JoinSplitOn(s: string, d: char)
    ensures Join([d], SplitOn(s, d)) == s
    decreases |s|
  {
    if |s| > 0 {
      var rest := SplitOn(s[1..], d);
      JoinSplitOn(s[1..], d);
      if s[0] == d {
        assert SplitOn(s, d) == [""] + rest;
        assert ([""] + rest)[1..] == rest;
      } else {
        var parts := [[s[0]] + rest[0]] + rest[1..];
        assert SplitOn(s, d) == parts;
        if |rest| == 1 {
          assert Join([d], rest) == rest[0];
        } else {
          assert parts[1..] == rest[1..];
          assert Join([d], rest) == rest[0] + [d] + Join([d], rest[1..]);
        }
      }
    }
  }

  /** The index of the first `c` in `s` (Python's `s.find(c)` when it is not -1). */
  function Find(s: string, c: char): (r: Option<nat>)
    ensures r.Some? ==> r.value < |s| && s[r.value] == c && c !in s[..r.value]
    ensures r.None? ==> c !in s
  {
    if s == [] then None
    else if s[0] == c then Some(0)
    else match Find(s[1..], c)
      case None => None
      case Some(k) => Some(k + 1)
  }

  /** `Find` stops at the first occurrence. */
  lemma {:induction false} FindFirst(p: string, c: char, q: string)
    requires c !in p
    ensures Find(p + [c] + q, c) == Some(|p|)
    decreases |p|
  {
    if p != [] {
      assert (p + [c] + q)[1..] == p[1..] + [c] + q;
      FindFirst(p[1..], c, q);
    }
  }

  /**
   * Python's `s.partition(c)`: the text before the first `c`, whether
   * there is one, and the text after it; without a `c`, all of `s` and
   * two empty parts.
   */
  function Partition(s: string, c: char): (r: (string, bool, string))
    ensures !r.1 ==> c !in s && r == (s, false, "")
    ensures r.1 ==> s == r.0 + [c] + r.2 && c !in r.0
  {
    match Find(s, c)
    case None => (s, false, "")
    case Some(i) =>
      assert s == s[..i] + [c] + s[i + 1..];
      (s[..i], true, s[i + 1..])
  }

  /** Partitioning at the first `c` finds the text on either side of it. */
  lemma PartitionAt(p: string, c: char, q: string)
    requires c !in p
    ensures Partition(p + [c] + q, c) == (p, true, q)
  {
    FindFirst(p, c, q);
    var s := p + [c] + q;
    assert s[..|p|] == p && s[|p| + 1..] == q;
  }

  /** The index of the last `c` in `s` (Python's `s.rfind(c)` when it is not -1). */
  function FindLast(s: string, c: char): (r: Option<nat>)
    ensures r.Some? ==> r.value < |s| && s[r.value] == c && forall k | r.value < k < |s| :: s[k] != c
    ensures r.None? ==> forall k | 0 <= k < |s| :: s[k] != c
    decreases |s|
  {
    if s == [] then None
    else if s[|s| - 1] == c then Some(|s| - 1)
    else FindLast(s[..|s| - 1], c)
  }

  /** `FindLast` stops at the last occurrence. */
  lemma {:induction false} FindLastOf(p: string, c: char, q: string)
    requires c !in q
    ensures FindLast(p + [c] + q, c) == Some(|p|)
    decreases |q|
  {
    var s := p + [c] + q;
    if q != [] {
      assert s[..|s| - 1] == p + [c] + q[..|q| - 1];
      FindLastOf(p, c, q[..|q| - 1]);
    }
  }

  /** Python's `s.rpartition(c)[2]`: the text after the last `c`, or all of `s` when there is none. */
  function AfterLast(s: string, c: char): (r: string)
    ensures |r| <= |s| && r == s[|s| - |r|..] && c !in r
    ensures |r| < |s| ==> s[|s| - |r| - 1] == c
  {
    match FindLast(s, c)
    case None => s
    case Some(i) => s[i + 1..]
  }

  /** What follows the last `c` of `p + [c] + q`, when `q` holds none, is `q`. */
  lemma AfterLastOf(p: string, c: char, q: string)
    requires c !in q
    ensures AfterLast(p + [c] + q, c) == q
  {
    FindLastOf(p, c, q);
    var s := p + [c] + q;
    assert s[|p| + 1..] == q;
  }

  /** A string with no `c` has itself as the text after the last `c`. */
  lemma AfterLastNone(s: string, c: char)
    requires c !in s
    ensures AfterLast(s, c) == s
  {
  }

  /** Every character of a join satisfies `ok` when those of the separator and of every piece do. */
  lemma {:induction false} JoinAlphabet(sep: string, ws: seq<string>, ok: char -> bool)
    requires forall k | 0 <= k < |sep| :: ok(sep[k])
    requires forall i, k | 0 <= i < |ws| && 0 <= k < |ws[i]| :: ok(ws[i][k])
    ensures forall k | 0 <= k < |Join(sep, ws)| :: ok(Join(sep, ws)[k])
    decreases |ws|
  {
    if |ws| > 1 {
      JoinAlphabet(sep, ws[1..], ok);
      var rest := Join(sep, ws[1..]);
      var j := ws[0] + sep + rest;
      assert Join(sep, ws) == j;
      forall k | 0 <= k < |j| ensures ok(j[k]) {
        if k < |ws[0]| {
          assert j[k] == ws[0][k];
        } else if k < |ws[0]| + |sep| {
          assert j[k] == sep[k - |ws[0]|];
        } else {
          assert j[k] == rest[k - |ws[0]| - |sep|];
        }
      }
    }
  }

  /** Splitting a piece free of the separator gives that piece alone. */
  lemma {:induction false} SplitOnNone(w: string, d: char)
    requires d !in w
    ensures SplitOn(w, d) == [w]
    decreases |w|
  {
    if |w| > 0 {
      SplitOnNone(w[1..], d);
      assert [w[0]] + w[1..] == w;
    }
  }

  /** Splitting at a separator after a piece free of it peels that piece off. */
  lemma {:induction false} SplitOnAfter(w: string, d: char, t: string)
    requires d !in w
    ensures SplitOn(w + [d] + t, d) == [w] + SplitOn(t, d)
    decreases |w|
  {
    if |w| == 0 {
      assert w + [d] + t == [d] + t;
      assert ([d] + t)[1..] == t;
    } else {
      var s := w + [d] + t;
      assert s[1..] == w[1..] + [d] + t;
      SplitOnAfter(w[1..], d, t);
      assert [w[0]] + w[1..] == w;
    }
  }

  /** Splitting a join at its one-character separator gives the pieces back, when none holds the separator. */
  lemma {:induction false} SplitOnJoin(ws: seq<string>, d: char)
    requires |ws| > 0
    requires forall i | 0 <= i < |ws| :: d !in ws[i]
    ensures SplitOn(Join([d], ws), d) == ws
    decreases |ws|
  {
    if |ws| == 1 {
      SplitOnNone(ws[0], d);
    } else {
      SplitOnJoin(ws[1..], d);
      SplitOnAfter(ws[0], d, Join([d], ws[1..]));
      assert ws == [ws[0]] + ws[1..];
    }
  }

  /** `s.lstrip()`. */
  function TrimStart(s: string): (r: string)
    ensures |r| <= |s| && r == s[|s| - |r|..]
    ensures r == [] || !IsSpace(r[0])
    ensures forall j :: 0 <= j < |s| - |r| ==> IsSpace(s[j])
    decreases |s|
  {
    if |s| > 0 && IsSpace(s[0]) then TrimStart(s[1..]) else s
  }

  /** `s.rstrip()`. */
  function TrimEnd(s: string): (r: string)
    ensures |r| <= |s| && r == s[..|r|]
    ensures r == [] || !IsSpace(r[|r| - 1])
    ensures forall j :: |r| <= j < |s| ==> IsSpace(s[j])
    decreases |s|
  {
    if |s| > 0 && IsSpace(s[|s| - 1]) then TrimEnd(s[..|s| - 1]) else s
  }

  /** `s.strip()`. */
  function Strip(s: string): string {
    TrimEnd(TrimStart(s))
  }

  /** Python's slice `s[:n]`, including the negative `n` that counts from the end. */
  function PyTake<T>(s: seq<T>, n: int): (r: seq<T>)
    ensures |r| <= |s| && r == s[..|r|]
    ensures 0 <= n ==> |r| == if n <= |s| then n else |s|
    ensures n < 0 ==> |r| == if |s| + n >= 0 then |s| + n else 0
  {
    if n >= 0 then (if n <= |s| then s[..n] else s)
    else if |s| + n >= 0 then s[..|s| + n]
    else []
  }

  /** Python truthiness of an optional string: present and non-empty. */
  predicate Truthy(s: Option<string>) {
    s.Some? && s.value != ""
  }

  /** Python's `a or b` over optional strings. */
  function Or(a: Option<string>, b: Option<string>): Option<string> {
    if Truthy(a) then a else b
  }

  function DigitChar(d: nat): char
    requires d < 10
  {
    "0123456789"[d]
  }

  /** `str(n)` for a non-negative integer: its decimal digits, without leading zeros. */
  function NatToString(n: nat): (r: string)
    ensures |r| > 0
    ensures forall j :: 0 <= j < |r| ==> '0' <= r[j] <= '9'
    decreases n
  {
    if n < 10 then [DigitChar(n)] else NatToString(n / 10) + [DigitChar(n % 10)]
  }

  /** Reading the digits back (base 10) gives the number. */
  function DigitsValue(s: string): nat
    requires forall j :: 0 <= j < |s| ==> '0' <= s[j] <= '9'
  {
    if |s| == 0 then 0 else 10 * DigitsValue(s[..|s| - 1]) + (s[|s| - 1] as int - '0' as int)
  }

  lemma {:induction false} NatToStringValue(n: nat)
    ensures DigitsValue(NatToString(n)) == n
    decreases n
  {
    if n >= 10 {
      var r := NatToString(n);
      assert r[..|r| - 1] == NatToString(n / 10);
      NatToStringValue(n / 10);
    }
  }

  /** `k` sits inside `p + k + q`. */
  lemma InfixOfConcat(p: string, k: string, q: string)
    ensures IsInfix(k, p + k + q)
  {
    assert OccursAt(k, p + k + q, |p|);
  }

  /** Being an infix is transitive. */
  lemma InfixTrans(a: string, b: string, c: string)
    requires IsInfix(a, b) && IsInfix(b, c)
    ensures IsInfix(a, c)
  {
    var i :| 0 <= i <= |b| - |a| && OccursAt(a, b, i);
    var j :| 0 <= j <= |c| - |b| && OccursAt(b, c, j);
    assert c[j..j + |b|] == b;
    forall t | 0 <= t < |a|
      ensures c[j + i + t] == a[t]
    {
      assert c[j..j + |b|][i + t] == c[j + i + t];
      assert b[i..i + |a|][t] == b[i + t];
    }
    assert c[j + i..j + i + |a|] == a;
    assert OccursAt(a, c, j + i);
  }

  /** A string containing a character absent from `s` cannot occur inside `s`. */
  lemma NotInfixByChar(k: string, s: string, c: char)
    requires c in k && c !in s
    ensures !IsInfix(k, s)
  {
    var j :| 0 <= j < |k| && k[j] == c;
    forall i | 0 <= i <= |s| - |k|
      ensures !OccursAt(k, s, i)
    {
      assert s[i..i + |k|][j] == s[i + j];
    }
  }
}

=== FILE: trust_examples.dfy ===
/**
 * Worked trust scores for concrete URLs.
 */
module TrustExamples {

  import opened Common
  import opened Text
  import opened IpAddress
  import opened UrlParse
  import opened SearchConfig

  lemma FdaHost()
    ensures HostOf("WWW.FDA.gov") == "fda.gov"
  {
    var s := "WWW.FDA.gov";
    var r := Lower(s);
    forall i | 0 <= i < |s| ensures r[i] == "www.fda.gov"[i] { }
  }

  lemma FdaScore()
    ensures HostTrust("fda.gov") == 1.0
  {
    assert DOMAIN_TRUST_SCORES[19] == ("fda.gov", 1.0);
    ExactHit(19);
  }

  /** Upper case and a leading "www." do not change the score: "https://WWW.FDA.gov/x" scores 1.0. */
  lemma FdaExampleUrl()
    ensures TrustScore("https" + "://" + "WWW.FDA.gov" + "/x") == HostTrust(HostOf("WWW.FDA.gov"))
  {
    NoBracketsAccepted("WWW.FDA.gov");
    TrustOfUrl("https", "WWW.FDA.gov", "/x");
  }

  lemma FdaExample()
    ensures TrustScore("https" + "://" + "WWW.FDA.gov" + "/x") == 1.0
  {
    FdaExampleUrl();
    FdaHost();
    FdaScore();
  }

  /** The port stays part of the netloc, so a trusted domain with an explicit port gets the default. */
  lemma PortExampleUrl()
    ensures TrustScore("https" + "://" + "modulate.ai:443" + "/") == HostTrust(HostOf("modulate.ai:443"))
  {
    NoBracketsAccepted("modulate.ai:443");
    TrustOfUrl("https", "modulate.ai:443", "/");
  }

  lemma PortExample()
    ensures TrustScore("https" + "://" + "modulate.ai:443" + "/") == DEFAULT_TRUST_SCORE
  {
    PortExampleUrl();
    PortHost();
  }

  lemma PortHost()
    ensures HostTrust(HostOf("modulate.ai:443")) == DEFAULT_TRUST_SCORE
  {
    HostEndsLikeNetloc("modulate.ai:443");
    NonLetterEndDefault(HostOf("modulate.ai:443"));
  }

  /** Any host ending with "modulate.ai" scores 1.0. */
  lemma ModulateSuffix(p: string)
    ensures HostTrust(p + "modulate.ai") == 1.0
  {
    assert DOMAIN_TRUST_SCORES[0] == ("modulate.ai", 1.0);
    SuffixInherits(p, 0);
  }

  lemma XmodulateHost()
    ensures HostOf("xmodulate.ai") == "x" + "modulate.ai"
  {
    var s := "xmodulate.ai";
    var r := Lower(s);
    forall i | 0 <= i < |s| ensures r[i] == s[i] { }
    assert r == s;
    assert !StartsWith(r, "www.") by { assert r[..4][0] == r[0]; }
  }

  /** "xmodulate.ai" is not a subdomain of "modulate.ai", yet scores as it does. */
  lemma XmodulateExampleUrl()
    ensures TrustScore("https" + "://" + "xmodulate.ai" + "/") == HostTrust(HostOf("xmodulate.ai"))
  {
    NoBracketsAccepted("xmodulate.ai");
    TrustOfUrl("https", "xmodulate.ai", "/");
  }

  lemma XmodulateExample()
    ensures TrustScore("https" + "://" + "xmodulate.ai" + "/") == 1.0
  {
    XmodulateExampleUrl();
    XmodulateHost();
    ModulateSuffix("x");
  }

  lemma BlogHost()
    ensures HostOf("blog.modulate.ai") == "blog." + "modulate.ai"
  {
    var s := "blog.modulate.ai";
    var r := Lower(s);
    forall i | 0 <= i < |s| ensures r[i] == s[i] { }
    assert r == s;
    assert !StartsWith(r, "www.") by { assert r[..4][0] == r[0]; }
  }

  /** A subdomain scores as its parent domain. */
  lemma SubdomainExampleUrl()
    ensures TrustScore("https" + "://" + "blog.modulate.ai" + "/") == HostTrust(HostOf("blog.modulate.ai"))
  {
    NoBracketsAccepted("blog.modulate.ai");
    TrustOfUrl("https", "blog.modulate.ai", "/");
  }

  lemma SubdomainExample()
    ensures TrustScore("https" + "://" + "blog.modulate.ai" + "/") == 1.0
  {
    SubdomainExampleUrl();
    BlogHost();
    ModulateSuffix("blog.");
  }

  /** Without a scheme there is no netloc, so even a table domain gets the default. */
  lemma NoSchemeExample()
    ensures TrustScore("modulate.ai") == DEFAULT_TRUST_SCORE
  {
    NoAuthority("modulate.ai");
    NonLetterEndDefault(HostOf(""));
  }

  /** An unbalanced IPv6 bracket makes `urlparse` raise, which gives the default. */
  lemma BadBracketExample()
    ensures TrustScore("http://[::1/") == DEFAULT_TRUST_SCORE
  {
    assert "http://[::1/" == "http" + "://" + "[::1" + "/";
    assert "[::1"[0] == '[' && ']' !in "[::1";
    SchemeNetloc("http", "[::1", "/");
  }

  /**
   * Text between the closing bracket and the port makes `urlparse` raise,
   * so such a URL gets the default score whatever its host.
   */
  lemma TextAfterBracketDefault(sc: string, host: string, port: string, path: string)
    requires IsScheme(sc)
    requires forall k | 0 <= k < |host| :: host[k] !in "[]@/?#\t\r\n"
    requires forall k | 0 <= k < |port| :: port[k] !in "@/?#\t\r\n"
    requires port != "" && port[0] != ':'
    requires forall k | 0 <= k < |path| :: !IsUnsafeUrlChar(path[k])
    requires path == [] || IsNetlocDelimiter(path[0])
    ensures TrustScore(sc + "://" + ("[" + host + "]" + port) + path) == DEFAULT_TRUST_SCORE
  {
    var h := "[" + host + "]" + port;
    assert h == "" + "[" + host + "]" + port;
    BracketedAuthority("", host, port);
    BracketedChars(host, port);
    TrustOfUrl(sc, h, path);
  }

  lemma BracketedChars(host: string, port: string)
    requires forall k | 0 <= k < |host| :: host[k] !in "[]@/?#\t\r\n"
    requires forall k | 0 <= k < |port| :: port[k] !in "@/?#\t\r\n"
    ensures var h := "[" + host + "]" + port;
      forall k | 0 <= k < |h| :: !IsNetlocDelimiter(h[k]) && !IsUnsafeUrlChar(h[k])
  {
    var h := "[" + host + "]" + port;
    forall k | 0 <= k < |h| ensures !IsNetlocDelimiter(h[k]) && !IsUnsafeUrlChar(h[k]) {
      if 0 < k <= |host| {
        assert h[k] == host[k - 1];
      } else if k > |host| + 1 {
        assert h[k] == port[k - |host| - 2];
      }
    }
  }

  /** "https://[x]modulate.ai/" ends in a table domain, yet gets the default. */
  lemma TextAfterBracketExample()
    ensures TrustScore("https" + "://" + ("[" + "x" + "]" + "modulate.ai") + "/") == DEFAULT_TRUST_SCORE
  {
    assert IsScheme("https");
    TextAfterBracketDefault("https", "x", "modulate.ai", "/");
  }

  /** An IPv6 loopback between brackets, with a port, is accepted. */
  lemma BracketedLoopbackAccepted()
    ensures IsBracketedHost("::1")
  {
    LoopbackExample();
    SplitOnNone("::1", '.');
  }
}

=== FILE: url_parse.dfy ===
/**
 * The part of Python's `urllib.parse.urlparse` the trust score depends on:
 * how the netloc (the authority component of section 3.2 of RFC 3986) is
 * split off a URL, and when parsing raises.
 */
module UrlParse {

  import opened Common
  import opened Text
  import opened IpAddress

  /** The C0 control characters and the space, which `urlsplit` strips from the front of a URL. */
  predicate IsC0OrSpace(c: char) {
    c as int <= 0x20
  }

  /** Tab, carriage return and line feed, which `urlsplit` deletes everywhere in a URL. */
  predicate IsUnsafeUrlChar(c: char) {
    c == '\t' || c == '\r' || c == '\n'
  }

  function LStripC0(s: string): (r: string)
    ensures |r| <= |s| && r == s[|s| - |r|..]
    ensures r == [] || !IsC0OrSpace(r[0])
    ensures forall k | 0 <= k < |s| - |r| :: IsC0OrSpace(s[k])
  {
    if |s| > 0 && IsC0OrSpace(s[0]) then LStripC0(s[1..]) else s
  }

  function RemoveUnsafe(s: string): (r: string)
    ensures forall k | 0 <= k < |r| :: !IsUnsafeUrlChar(r[k])
    ensures (forall k | 0 <= k < |s| :: !IsUnsafeUrlChar(s[k])) ==> r == s
  {
    if s == [] then []
    else if IsUnsafeUrlChar(s[0]) then RemoveUnsafe(s[1..])
    else [s[0]] + RemoveUnsafe(s[1..])
  }

  /** The characters Python allows in a URL scheme. */
  predicate IsSchemeChar(c: char) {
    ('a' <= c <= 'z') || ('A' <= c <= 'Z') || ('0' <= c <= '9') || c == '+' || c == '-' || c == '.'
  }

  predicate IsAsciiLetter(c: char) {
    ('a' <= c <= 'z') || ('A' <= c <= 'Z')
  }

  /**
   * What is left of `url` after its scheme: a scheme is the text before the
   * first ':' when it is non-empty, starts with an ASCII letter and holds
   * scheme characters only.
   */
  function AfterScheme(url: string): (rest: string)
    ensures rest == url || (exists i | 0 < i < |url| :: url[i] == ':' && rest == url[i + 1..])
  {
    match Find(url, ':')
    case None => url
    case Some(i) =>
      if i > 0 && IsAsciiLetter(url[0]) && forall k | 0 <= k < i :: IsSchemeChar(url[k])
      then url[i + 1..]
      else url
  }

  predicate IsNetlocDelimiter(c: char) {
    c == '/' || c == '?' || c == '#'
  }

  /** The length of the netloc at the front of `s`: up to the first '/', '?' or '#'. */
  function NetlocLength(s: string): (n: nat)
    ensures n <= |s|
    ensures forall k | 0 <= k < n :: !IsNetlocDelimiter(s[k])
    ensures n < |s| ==> IsNetlocDelimiter(s[n])
  {
    if s == [] || IsNetlocDelimiter(s[0]) then 0 else 1 + NetlocLength(s[1..])
  }

  /**
   * The regular expression `\Av[a-fA-F0-9]+\..+\Z` that an IPvFuture host
   * must match: 'v', hex digits, a '.', then at least one character other
   * than a line feed.
   */
  predicate IsIPvFuture(h: string) {
    exists i | 2 <= i < |h| - 1 :: IsIPvFutureAt(h, i)
  }

  /** `h` matches the IPvFuture pattern with its '.' at index `i`. */
  predicate IsIPvFutureAt(h: string, i: int) {
    && 2 <= i < |h| - 1
    && h[0] == 'v'
    && (forall k | 1 <= k < i :: IsHexDigit(h[k]))
    && h[i] == '.'
    && forall k | i < k < |h| :: h[k] != '\n'
  }

  /**
   * `_check_bracketed_host`: a host starting with 'v' must be an IPvFuture
   * address; any other must be accepted by `ip_address` and not be an
   * IPv4 address.
   */
  predicate IsBracketedHost(h: string) {
    if h != [] && h[0] == 'v' then IsIPvFuture(h)
    else IsIPAddress(h) && !IsIPv4(h)
  }

  /**
   * `_check_bracketed_netloc`, for a netloc holding both brackets. In the
   * host and port after the last '@', nothing may come before '[', and
   * after the first ']' only a ":port" may follow; the text between is
   * checked as a bracketed host. Without a '[' after the last '@', the host
   * checked is the text before the first ']'.
   */
  predicate IsBracketedNetlocOk(netloc: string) {
    var hostPort := AfterLast(netloc, '@');
    var (before, opens, bracketed) := Partition(hostPort, '[');
    if opens then
      var (hostname, closes, port) := Partition(bracketed, ']');
      && before == ""
      && (port == "" || port[0] == ':')
      && IsBracketedHost(hostname)
    else
      IsBracketedHost(Partition(hostPort, ']').0)
  }

  /**
   * A netloc `urlsplit` lets through: it holds both IPv6 brackets or
   * neither, and with both it passes the bracketed-netloc check.
   */
  predicate IsNetlocAccepted(netloc: string) {
    && ('[' in netloc) == (']' in netloc)
    && ('[' in netloc ==> IsBracketedNetlocOk(netloc))
  }

  /**
   * `urlparse(url).netloc`: `None` when `urlparse` raises (a netloc with
   * exactly one of '[' and ']', or a bracketed host that is not an IPv6 or
   * IPvFuture address), the empty string when the URL has no "//"
   * authority.
   */
  function Netloc(url: string): (r: Option<string>)
    ensures r.Some? ==> forall k | 0 <= k < |r.value| :: !IsNetlocDelimiter(r.value[k])
    ensures r.Some? ==> ('[' in r.value) == (']' in r.value)
    ensures r.Some? && '[' in r.value ==> IsBracketedNetlocOk(r.value)
  {
    var rest := AfterScheme(RemoveUnsafe(LStripC0(url)));
    if |rest| >= 2 && rest[0] == '/' && rest[1] == '/' then
      var netloc := LeadingNetloc(rest[2..]);
      if IsNetlocAccepted(netloc) then Some(netloc) else None
    else Some("")
  }

  /** The netloc at the front of `s`: the text before the first '/', '?' or '#'. */
  function LeadingNetloc(s: string): (netloc: string)
    ensures StartsWith(s, netloc)
    ensures forall k | 0 <= k < |netloc| :: !IsNetlocDelimiter(netloc[k])
    ensures |netloc| < |s| ==> IsNetlocDelimiter(s[|netloc|])
  {
    s[..NetlocLength(s)]
  }

  /** A well-formed scheme: non-empty, starting with an ASCII letter, scheme characters only. */
  predicate IsScheme(sc: string) {
    sc != [] && IsAsciiLetter(sc[0]) && forall k | 0 <= k < |sc| :: IsSchemeChar(sc[k])
  }

  /** What follows a well-formed scheme's ':' is the rest of the URL. */
  lemma AfterSchemeOf(sc: string, t: string)
    requires IsScheme(sc)
    ensures AfterScheme(sc + ":" + t) == t
  {
    var url := sc + ":" + t;
    assert url == sc + [':'] + t;
    assert ':' !in sc by {
      forall k | 0 <= k < |sc| ensures sc[k] != ':' {
        assert IsSchemeChar(sc[k]);
      }
    }
    FindFirst(sc, ':', t);
    assert forall k | 0 <= k < |sc| :: url[k] == sc[k];
  }

  /**
   * Once the scheme is split off, the netloc is what follows "//" up to the
   * path, unless its brackets are unbalanced or enclose an invalid host,
   * when parsing raises.
   */
  lemma NetlocOfAuthority(url: string, h: string, path: string)
    requires AfterScheme(RemoveUnsafe(LStripC0(url))) == "//" + (h + path)
    requires forall k | 0 <= k < |h| :: !IsNetlocDelimiter(h[k])
    requires path == [] || IsNetlocDelimiter(path[0])
    ensures Netloc(url) == if IsNetlocAccepted(h) then Some(h) else None
  {
    AuthorityNetloc(h, path);
  }

  /** The netloc after "//" runs up to the path. */
  lemma AuthorityNetloc(h: string, path: string)
    requires forall k | 0 <= k < |h| :: !IsNetlocDelimiter(h[k])
    requires path == [] || IsNetlocDelimiter(path[0])
    ensures var rest := "//" + (h + path);
      |rest| >= 2 && rest[0] == '/' && rest[1] == '/' && LeadingNetloc(rest[2..]) == h
  {
    var rest := "//" + (h + path);
    DropPrefix("//", h + path);
    NetlocLengthOf(h, path);
    TakePrefix(h, path);
  }

  lemma DropPrefix(p: string, s: string)
    ensures (p + s)[|p|..] == s
  {
  }

  lemma TakePrefix(p: string, s: string)
    ensures (p + s)[..|p|] == p
  {
  }

  /** A URL that starts with a visible character and holds no tab, CR or LF survives the clean-up unchanged. */
  lemma CleanUrl(url: string)
    requires |url| > 0 && !IsC0OrSpace(url[0])
    requires forall k | 0 <= k < |url| :: !IsUnsafeUrlChar(url[k])
    ensures RemoveUnsafe(LStripC0(url)) == url
  {
  }

  /**
   * The netloc of "scheme://netloc/path": the text between "//" and the
   * path, query or fragment; parsing raises when exactly one IPv6 bracket
   * occurs in it or the bracketed host is not a valid address.
   */
  lemma SchemeNetloc(sc: string, h: string, path: string)
    requires IsScheme(sc)
    requires forall k | 0 <= k < |h| :: !IsNetlocDelimiter(h[k]) && !IsUnsafeUrlChar(h[k])
    requires forall k | 0 <= k < |path| :: !IsUnsafeUrlChar(path[k])
    requires path == [] || IsNetlocDelimiter(path[0])
    ensures Netloc(sc + "://" + h + path) == if IsNetlocAccepted(h) then Some(h) else None
  {
    var url := sc + "://" + h + path;
    assert url == sc + ":" + ("//" + (h + path));
    assert url[0] == sc[0];
    CleanUrl(url);
    AfterSchemeOf(sc, "//" + (h + path));
    NetlocOfAuthority(url, h, path);
  }

  /** The host and port part of a netloc is what follows the user information and its '@'. */
  lemma HostPortAfterUserinfo(userinfo: string, hp: string)
    requires userinfo == "" || userinfo[|userinfo| - 1] == '@'
    requires '@' !in hp
    ensures AfterLast(userinfo + hp, '@') == hp
  {
    if userinfo == "" {
      assert userinfo + hp == hp;
      AfterLastNone(hp, '@');
    } else {
      var u := userinfo[..|userinfo| - 1];
      assert userinfo + hp == u + ['@'] + hp;
      AfterLastOf(u, '@', hp);
    }
  }

  /** "[host]port" splits into the host between the brackets and the port after them. */
  lemma BracketedParts(host: string, port: string)
    requires '[' !in host && ']' !in host
    ensures var (before, opens, bracketed) := Partition("[" + host + "]" + port, '[');
      && before == "" && opens
      && Partition(bracketed, ']') == (host, true, port)
  {
    assert "[" + host + "]" + port == "" + ['['] + (host + "]" + port);
    PartitionAt("", '[', host + "]" + port);
    assert host + "]" + port == host + [']'] + port;
    PartitionAt(host, ']', port);
  }

  /**
   * A netloc "[host]port" after any user information is accepted exactly
   * when the host is an IPv6 or IPvFuture address and the port part is
   * empty or starts with ':'.
   */
  lemma BracketedAuthority(userinfo: string, host: string, port: string)
    requires userinfo == "" || userinfo[|userinfo| - 1] == '@'
    requires '@' !in host && '@' !in port && '[' !in host && ']' !in host
    ensures IsNetlocAccepted(userinfo + "[" + host + "]" + port)
            <==> IsBracketedHost(host) && (port == "" || port[0] == ':')
  {
    var n := userinfo + ("[" + host + "]" + port);
    Regroup(userinfo, host, port);
    assert n[|userinfo|] == '[' && n[|userinfo| + 1 + |host|] == ']';
    AcceptedWithBrackets(n);
    BracketedCheckOf(userinfo, host, port);
  }

  /** The bracketed-netloc check of "userinfo[host]port" checks the host and the port's lead. */
  lemma BracketedCheckOf(userinfo: string, host: string, port: string)
    requires userinfo == "" || userinfo[|userinfo| - 1] == '@'
    requires '@' !in host && '@' !in port && '[' !in host && ']' !in host
    ensures IsBracketedNetlocOk(userinfo + ("[" + host + "]" + port))
            == (IsBracketedHost(host) && (port == "" || port[0] == ':'))
  {
    var hp := "[" + host + "]" + port;
    assert '@' !in hp by {
      assert hp == ['['] + host + [']'] + port;
    }
    HostPortAfterUserinfo(userinfo, hp);
    BracketedParts(host, port);
  }

  lemma Regroup(userinfo: string, host: string, port: string)
    ensures userinfo + "[" + host + "]" + port == userinfo + ("[" + host + "]" + port)
  {
  }

  /** A netloc without brackets is always accepted. */
  lemma NoBracketsAccepted(n: string)
    requires '[' !in n && ']' !in n
    ensures IsNetlocAccepted(n)
  {
  }

  /** With both brackets present, acceptance is the bracketed-netloc check. */
  lemma AcceptedWithBrackets(n: string)
    requires '[' in n && ']' in n
    ensures IsNetlocAccepted(n) == IsBracketedNetlocOk(n)
  {
  }

  /** Text between the user information and '[' makes parsing raise. */
  lemma TextBeforeBracket(pre: string, rest: string)
    requires pre != "" && '@' !in pre && '[' !in pre && '@' !in rest
    ensures !IsNetlocAccepted(pre + "[" + rest)
  {
    var n := pre + "[" + rest;
    assert n == pre + ['['] + rest;
    if ']' in n {
      assert '@' !in n;
      AfterLastNone(n, '@');
      PartitionAt(pre, '[', rest);
    }
  }

  /** A URL without ':' that does not start with "//" has an empty netloc. */
  lemma NoAuthority(url: string)
    requires |url| > 0 && !IsC0OrSpace(url[0]) && url[0] != '/'
    requires forall k | 0 <= k < |url| :: !IsUnsafeUrlChar(url[k]) && url[k] != ':'
    ensures Netloc(url) == Some("")
  {
    CleanUrl(url);
  }

  lemma {:induction false} NetlocLengthOf(h: string, path: string)
    requires forall k | 0 <= k < |h| :: !IsNetlocDelimiter(h[k])
    requires path == [] || IsNetlocDelimiter(path[0])
    ensures NetlocLength(h + path) == |h|
    decreases |h|
  {
    if h == [] {
      assert h + path == path;
    } else {
      assert (h + path)[1..] == h[1..] + path;
      NetlocLengthOf(h[1..], path);
    }
  }
}

=== FILE: web_agent.dfy ===
/**
 * The web agent's handling of one research task: classify the task,
 * search, fetch, score every document by keyword relevance and domain
 * trust, keep the best three above a quality floor, and combine them into
 * one finding (or return one of three insufficient-evidence findings).
 */
module WebAgent {

  import opened Common
  import opened Text
  import opened Seeds
  import opened SearchConfig
  import opened StableSort
  import opened Models

  /** How many results the agent asks the retriever for. */
  const SEARCH_RESULTS: int := 8
  /** Documents must score strictly above this to be kept. */
  const QUALITY_FLOOR: real := 0.15
  /** At most this many documents are combined into a finding. */
  const TOP_K: nat := 3
  /** Each kept document contributes at most this many characters. */
  const TRUNCATE_CHARS: nat := 3000

  const NO_SOURCES_TEXT := "Insufficient evidence: No relevant sources found for this query."
  const EXTRACTION_FAILED_TEXT := "Insufficient evidence: Could not extract content from sources."
  const MULTIPLE_SOURCES := "Multiple Sources"

  function RMin(a: real, b: real): real {
    if b < a then b else a
  }

  /** Total occurrences of the keywords in `text`, each keyword counted by `str.count`. */
  function KeywordHits(text: string, kws: seq<string>): nat
    requires forall i | 0 <= i < |kws| :: |kws[i]| > 0
  {
    if kws == [] then 0 else Count(text, kws[0]) + KeywordHits(text, kws[1..])
  }

  /**
   * The content relevance of a text for a topic: ten keyword occurrences
   * (in the lower-cased text) make a full score; a topic without keywords
   * falls back to the text length, 5000 characters making a full score.
   */
  function ContentScore(content: string, topic: string): (r: real)
    ensures 0.0 <= r <= 1.0
    ensures !IsRegisteredTopic(topic) ==>
      (r == 1.0 <==> |content| >= 5000) && (|content| < 5000 ==> r * 5000.0 == |content| as real)
    ensures IsRegisteredTopic(topic) ==>
      var h := KeywordHits(Lower(content), KeywordsForTopic(topic));
      (r == 1.0 <==> h >= 10) && (h < 10 ==> r * 10.0 == h as real)
  {
    var kws := KeywordsForTopic(topic);
    if kws == [] then RMin(|content| as real / 5000.0, 1.0)
    else RMin(KeywordHits(Lower(content), kws) as real / 10.0, 1.0)
  }

  lemma {:induction false} KeywordHitsAppend(s: string, t: string, kws: seq<string>)
    requires forall i | 0 <= i < |kws| :: |kws[i]| > 0
    ensures KeywordHits(s + t, kws) >= KeywordHits(s, kws)
  {
    if kws != [] {
      CountAppend(s, t, kws[0]);
      KeywordHitsAppend(s, t, kws[1..]);
    }
  }

  /** Appending text to a document never lowers its content score. */
  lemma ContentScoreGrows(s: string, t: string, topic: string)
    ensures ContentScore(s + t, topic) >= ContentScore(s, topic)
  {
    if IsRegisteredTopic(topic) {
      LowerAppend(s, t);
      KeywordHitsAppend(Lower(s), Lower(t), KeywordsForTopic(topic));
    }
  }

  /** The ranking score: 60% content relevance, 40% domain trust. */
  function FinalScore(content: real, trust: real): (r: real)
    ensures 0.0 <= content <= 1.0 && 0.0 <= trust <= 1.0 ==> 0.0 <= r <= 1.0
    ensures 0.0 <= content ==> r >= 0.4 * trust
    ensures content == 1.0 && trust == 1.0 ==> r == 1.0
  {
    0.6 * content + 0.4 * trust
  }

  /** A fetched document with its final, content and trust scores. */
  datatype Scored = Scored(doc: Document, final: real, content: real, trust: real)

  /** The sort key: the final score. */
  function FinalOf(s: Scored): real {
    s.final
  }

  function ScoreDoc(doc: Document, topic: string): Scored {
    var c := ContentScore(doc.text, topic);
    var t := TrustScore(doc.url);
    Scored(doc, FinalScore(c, t), c, t)
  }

  /** Every document scored, in fetch order. */
  function ScoreDocs(docs: seq<Document>, topic: string): (r: seq<Scored>)
    ensures |r| == |docs|
    ensures forall i | 0 <= i < |r| :: r[i] == ScoreDoc(docs[i], topic)
  {
    seq(|docs|, i requires 0 <= i < |docs| => ScoreDoc(docs[i], topic))
  }

  /**
   * Every document clears the quality floor: the trust score is at least
   * 0.4, so the final score is at least 0.16 whatever the content.
   */
  lemma EveryDocumentClearsFloor(doc: Document, topic: string)
    ensures FinalOf(ScoreDoc(doc, topic)) > QUALITY_FLOOR
    ensures 0.16 <= FinalOf(ScoreDoc(doc, topic)) <= 1.0
  {
  }

  /** The documents kept: sorted best first (stably), above the floor, at most three. */
  function Selected(docs: seq<Document>, topic: string): (r: seq<Scored>)
    ensures forall i | 0 <= i < |r| :: r[i] in ScoreDocs(docs, topic)
  {
    TopFromInput(ScoreDocs(docs, topic), FinalOf, QUALITY_FLOOR, TOP_K);
    Top(ScoreDocs(docs, topic), FinalOf, QUALITY_FLOOR, TOP_K)
  }

  /** As many documents are kept as were fetched, up to three. */
  lemma SelectedCount(docs: seq<Document>, topic: string)
    ensures |Selected(docs, topic)| == if |docs| <= 3 then |docs| else 3
  {
    var xs := ScoreDocs(docs, topic);
    TopLength(xs, FinalOf, QUALITY_FLOOR, TOP_K);
    AboveAll(xs);
  }

  /** Nothing is filtered out by the floor. */
  lemma AboveAll(xs: seq<Scored>)
    requires forall i | 0 <= i < |xs| :: xs[i].final > QUALITY_FLOOR
    ensures Above(xs, FinalOf, QUALITY_FLOOR) == xs
  {
    if xs != [] {
      AboveAll(xs[1..]);
    }
  }

  /**
   * The selection is ordered best first and clears the floor; with the
   * documents passed over it makes up exactly the documents above the
   * floor, and no passed-over document outscores a selected one.
   */
  lemma SelectionIsTopThree(docs: seq<Document>, topic: string)
    ensures |Selected(docs, topic)| <= 3
    ensures NonIncreasing(Selected(docs, topic), FinalOf)
    ensures forall i | 0 <= i < |Selected(docs, topic)| :: Selected(docs, topic)[i].final > QUALITY_FLOOR
    ensures var xs := ScoreDocs(docs, topic);
      multiset(Selected(docs, topic)) + multiset(Passed(xs, FinalOf, QUALITY_FLOOR, TOP_K)) ==
      multiset(Above(xs, FinalOf, QUALITY_FLOOR))
    ensures var xs := ScoreDocs(docs, topic); var p := Passed(xs, FinalOf, QUALITY_FLOOR, TOP_K);
      forall i, j | 0 <= i < |Selected(docs, topic)| && 0 <= j < |p| ::
        Selected(docs, topic)[i].final >= p[j].final
  {
    var xs := ScoreDocs(docs, topic);
    TopSorted(xs, FinalOf, QUALITY_FLOOR, TOP_K);
    TopSplit(xs, FinalOf, QUALITY_FLOOR, TOP_K);
  }

  /** Every final score lies in [0.16, 1]. */
  predicate InRange(xs: seq<Scored>) {
    forall i | 0 <= i < |xs| :: 0.16 <= xs[i].final <= 1.0
  }

  lemma ScoreDocsInRange(docs: seq<Document>, topic: string)
    ensures InRange(ScoreDocs(docs, topic))
  {
    forall i | 0 <= i < |docs| ensures 0.16 <= ScoreDocs(docs, topic)[i].final <= 1.0 {
      EveryDocumentClearsFloor(docs[i], topic);
    }
  }

  /** The selected documents keep the bounds of the scored ones. */
  lemma TopInRange(xs: seq<Scored>)
    requires InRange(xs)
    ensures InRange(Top(xs, FinalOf, QUALITY_FLOOR, TOP_K))
  {
    TopFromInput(xs, FinalOf, QUALITY_FLOOR, TOP_K);
  }

  /** Documents with equal final scores are kept in fetch order. */
  lemma SelectionIsStable(docs: seq<Document>, topic: string, v: real)
    ensures WithKey(Selected(docs, topic), FinalOf, v) <= WithKey(ScoreDocs(docs, topic), FinalOf, v)
  {
    TopStable(ScoreDocs(docs, topic), FinalOf, QUALITY_FLOOR, TOP_K, v);
  }

  /** How the two kinds of score are rendered inside a source block (Python float formatting). */
  datatype Formats = Formats(trustRepr: real -> string, twoDecimals: real -> string)

  const SOURCE_END := "\n=== SOURCE END ==="

  /** A document's text as it enters the combined evidence: its first 3000 characters. */
  function Truncated(text: string): (r: string)
    ensures |r| <= TRUNCATE_CHARS
    ensures StartsWith(text, r)
    ensures |text| <= TRUNCATE_CHARS ==> r == text
    ensures |text| > TRUNCATE_CHARS ==> r == text[..TRUNCATE_CHARS]
  {
    PyTake(text, TRUNCATE_CHARS)
  }

  /** The metadata lines that open a source block. */
  function SourceHeader(s: Scored, fmt: Formats): string {
    "\n\n=== SOURCE START ===\nURL: " + s.doc.url + "\nTRUST_SCORE: " + fmt.trustRepr(s.trust)
    + "\nRELEVANCE: " + fmt.twoDecimals(s.content) + "\nCONTENT:\n"
  }

  function SourceBlock(s: Scored, fmt: Formats): string {
    SourceHeader(s, fmt) + Truncated(s.doc.text) + SOURCE_END
  }

  /** The blocks of the kept documents, in selection order. */
  function Combined(top: seq<Scored>, fmt: Formats): string {
    if top == [] then "" else SourceBlock(top[0], fmt) + Combined(top[1..], fmt)
  }

  lemma InfixAfter(k: string, p: string, t: string)
    requires IsInfix(k, t)
    ensures IsInfix(k, p + t)
  {
    var i :| 0 <= i <= |t| - |k| && OccursAt(k, t, i);
    assert (p + t)[|p| + i..|p| + i + |k|] == t[i..i + |k|];
    assert OccursAt(k, p + t, |p| + i);
  }

  /** A block holds its document's truncated text. */
  lemma BlockHoldsText(s: Scored, fmt: Formats)
    ensures IsInfix(Truncated(s.doc.text), SourceBlock(s, fmt))
  {
    InfixOfConcat(SourceHeader(s, fmt), Truncated(s.doc.text), SOURCE_END);
  }

  /** Every kept document's block appears in the combined evidence. */
  lemma {:induction false} CombinedHoldsEveryBlock(top: seq<Scored>, fmt: Formats)
    ensures forall i | 0 <= i < |top| :: IsInfix(SourceBlock(top[i], fmt), Combined(top, fmt))
  {
    if top != [] {
      CombinedHoldsEveryBlock(top[1..], fmt);
      var b := SourceBlock(top[0], fmt);
      var rest := Combined(top[1..], fmt);
      assert Combined(top, fmt) == b + rest;
      forall i | 0 <= i < |top|
        ensures IsInfix(SourceBlock(top[i], fmt), b + rest)
      {
        if i == 0 {
          assert OccursAt(b, b + rest, 0);
        } else {
          assert top[1..][i - 1] == top[i];
          InfixAfter(SourceBlock(top[i], fmt), b, rest);
        }
      }
    }
  }

  /** Every kept document's truncated text appears in the combined evidence. */
  lemma CombinedHoldsEverySource(top: seq<Scored>, fmt: Formats)
    ensures forall i | 0 <= i < |top| :: IsInfix(Truncated(top[i].doc.text), Combined(top, fmt))
  {
    CombinedHoldsEveryBlock(top, fmt);
    forall i | 0 <= i < |top| ensures IsInfix(Truncated(top[i].doc.text), Combined(top, fmt)) {
      BlockHoldsText(top[i], fmt);
      InfixTrans(Truncated(top[i].doc.text), SourceBlock(top[i], fmt), Combined(top, fmt));
    }
  }

  function SumFinal(top: seq<Scored>): real {
    if top == [] then 0.0 else top[0].final + SumFinal(top[1..])
  }

  lemma {:induction false} SumFinalBounds(top: seq<Scored>, lo: real, hi: real)
    requires forall i | 0 <= i < |top| :: lo < top[i].final <= hi
    ensures |top| as real * lo <= SumFinal(top) <= |top| as real * hi
    ensures top != [] ==> |top| as real * lo < SumFinal(top)
  {
    if top != [] {
      SumFinalBounds(top[1..], lo, hi);
    }
  }

  /** The mean final score of the kept documents. */
  function Average(top: seq<Scored>): (r: real)
    requires top != []
    ensures r * |top| as real == SumFinal(top)
  {
    SumFinal(top) / |top| as real
  }

  lemma DivAbove(a: real, n: real, lo: real)
    requires n > 0.0 && a > n * lo
    ensures a / n > lo
  {
    assert a / n - lo == (a - n * lo) / n;
  }

  lemma DivAtMost(a: real, n: real, hi: real)
    requires n > 0.0 && a <= n * hi
    ensures a / n <= hi
  {
    assert hi - a / n == (n * hi - a) / n;
  }

  /** The mean lies strictly above the floor every kept document clears, and within any common upper bound. */
  lemma AverageBounds(top: seq<Scored>, lo: real, hi: real)
    requires top != []
    requires forall i | 0 <= i < |top| :: lo < top[i].final <= hi
    ensures lo < Average(top) <= hi
  {
    SumFinalBounds(top, lo, hi);
    var n := |top| as real;
    DivAbove(SumFinal(top), n, lo);
    DivAtMost(SumFinal(top), n, hi);
  }

  function Urls(cs: seq<Candidate>): (r: seq<string>)
    ensures |r| == |cs| && forall i | 0 <= i < |r| :: r[i] == cs[i].url
  {
    seq(|cs|, i requires 0 <= i < |cs| => cs[i].url)
  }

  function DocUrls(top: seq<Scored>): (r: seq<string>)
    ensures |r| == |top| && forall i | 0 <= i < |r| :: r[i] == top[i].doc.url
  {
    seq(|top|, i requires 0 <= i < |top| => top[i].doc.url)
  }

  function Methods(top: seq<Scored>): (r: seq<string>)
    ensures |r| == |top| && forall i | 0 <= i < |r| :: r[i] == top[i].doc.retrievalMethod
  {
    seq(|top|, i requires 0 <= i < |top| => top[i].doc.retrievalMethod)
  }

  function ErrorFinding(text: string, error: string, topic: string): Finding {
    Finding(NOT_AVAILABLE, text, 0.0, Some(ErrorData(error, topic)), None)
  }

  function LowRelevanceText(topic: string): string {
    "Insufficient evidence: Sources retrieved but low relevance for topic (" + topic + ")."
  }

  /** The finding that combines the kept documents. */
  function Evidence(top: seq<Scored>, topic: string, fmt: Formats): (r: Finding)
    requires top != [] && InRange(top)
    ensures r.sourceUrl == MULTIPLE_SOURCES
    ensures r.data == Some(EvidenceData(|top|, DocUrls(top), Methods(top), topic, r.relevance))
    ensures r.relevance == Average(top)
    ensures QUALITY_FLOOR < r.relevance <= 1.0
    ensures forall i | 0 <= i < |top| :: IsInfix(Truncated(top[i].doc.text), r.content)
  {
    var avg := Average(top);
    AverageBounds(top, QUALITY_FLOOR, 1.0);
    CombinedHoldsEverySource(top, fmt);
    Finding(MULTIPLE_SOURCES, Combined(top, fmt), avg,
            Some(EvidenceData(|top|, DocUrls(top), Methods(top), topic, avg)), None)
  }

  /**
   * What the agent returns for a classified task, given what the search
   * found and what the fetch extracted.
   */
  function Respond(topic: string, cands: seq<Candidate>, docs: seq<Document>, fmt: Formats): (r: Finding)
    ensures cands == [] ==>
      r.sourceUrl == NOT_AVAILABLE && r.relevance == 0.0 && r.content == NO_SOURCES_TEXT
      && r.data == Some(ErrorData("no_sources_found", topic))
    ensures cands != [] && docs == [] ==>
      r.sourceUrl == NOT_AVAILABLE && r.relevance == 0.0 && r.content == EXTRACTION_FAILED_TEXT
      && r.data == Some(ErrorData("extraction_failed", topic))
    ensures r.sourceUrl == NOT_AVAILABLE <==> cands == [] || docs == []
    ensures r.data.Some? && r.data.value.topic == topic
    ensures r.data != Some(ErrorData("low_relevance", topic))
    ensures r.sourceUrl != NOT_AVAILABLE ==>
      var top := Selected(docs, topic);
      && r.sourceUrl == MULTIPLE_SOURCES
      && 1 <= |top| <= 3
      && r.data == Some(EvidenceData(|top|, DocUrls(top), Methods(top), topic, r.relevance))
      && r.relevance == Average(top)
      && QUALITY_FLOOR < r.relevance <= 1.0
      && (forall i | 0 <= i < |top| :: IsInfix(Truncated(top[i].doc.text), r.content))
  {
    if cands == [] then ErrorFinding(NO_SOURCES_TEXT, "no_sources_found", topic)
    else if docs == [] then ErrorFinding(EXTRACTION_FAILED_TEXT, "extraction_failed", topic)
    else
      var top := Selected(docs, topic);
      SelectedCount(docs, topic);
      if top == [] then
        ErrorFinding(LowRelevanceText(topic), "low_relevance", topic)
      else
        ScoreDocsInRange(docs, topic);
        TopInRange(ScoreDocs(docs, topic));
        Evidence(top, topic, fmt)
  }

  /**
   * One research task end to end: the task's description is classified,
   * searched for (eight results), and the candidates' URLs fetched.
   * `search` and `fetchMany` are the retriever's, outside this model.
   */
  function ExecuteTask(
    task: Task,
    search: (string, int) -> seq<Candidate>,
    fetchMany: seq<string> -> seq<Document>,
    fmt: Formats): (r: Finding)
    ensures r.data.Some? && r.data.value.topic == ClassifyTopic(task.description)
    ensures var cands := search(task.description, SEARCH_RESULTS);
      r.sourceUrl != NOT_AVAILABLE <==> cands != [] && fetchMany(Urls(cands)) != []
    ensures var cands := search(task.description, SEARCH_RESULTS);
      r == Respond(ClassifyTopic(task.description), cands, if cands == [] then [] else fetchMany(Urls(cands)), fmt)
  {
    var topic := ClassifyTopic(task.description);
    var cands := search(task.description, SEARCH_RESULTS);
    if cands == [] then Respond(topic, cands, [], fmt)
    else Respond(topic, cands, fetchMany(Urls(cands)), fmt)
  }

  /** The quality tier a trust score is logged with. */
  datatype Tier = TierA | TierB | TierC | TierUnknown {
    /** The tier's label: "A", "B", "C" or "unknown". */
    function Name(): string {
      match this
      case TierA => "A"
      case TierB => "B"
      case TierC => "C"
      case TierUnknown => "unknown"
    }

    /** Higher is better. */
    function Rank(): nat {
      match this
      case TierA => 3
      case TierB => 2
      case TierC => 1
      case TierUnknown => 0
    }
  }

  /** The lowest trust score that reaches a tier. */
  function Threshold(t: Tier): real {
    match t
    case TierA => 0.9
    case TierB => 0.6
    case TierC => 0.3
    case TierUnknown => 0.0
  }

  /** The best tier whose threshold the trust score reaches (inclusive). */
  function TierOf(trust: real): (t: Tier)
    ensures t != TierUnknown ==> trust >= Threshold(t)
    ensures t == TierUnknown <==> trust < 0.3
    ensures forall u: Tier | u != TierUnknown && trust >= Threshold(u) :: u.Rank() <= t.Rank()
  {
    if trust >= 0.9 then TierA
    else if trust >= 0.6 then TierB
    else if trust >= 0.3 then TierC
    else TierUnknown
  }

  /** A higher trust score never gets a lower tier. */
  lemma TierMonotone(a: real, b: real)
    requires a <= b
    ensures TierOf(a).Rank() <= TierOf(b).Rank()
  {
  }

  /** Every URL's trust score is at least 0.4, so no document is logged with tier "unknown". */
  lemma NoUnknownTier(url: string)
    ensures TierOf(TrustScore(url)) != TierUnknown
    ensures TierOf(TrustScore(url)).Rank() >= TierC.Rank()
  {
  }
}

=== FILE: yutori_client.dfy ===
/**
 * The client of the scouting service: the interval guard and payload of
 * scout creation, the request parameters and response normalisation of
 * update polling, deletion, and the monitoring-query enhancement. The
 * HTTP calls themselves are parameters.
 */
module Yutori {

  import opened Common
  import opened Text
  import opened JsonData

  /** The service refuses schedules shorter than 30 minutes. */
  const MIN_INTERVAL_SECONDS: int := 1800
  const DEFAULT_TIMEZONE := "America/Los_Angeles"
  const DEFAULT_PAGE_SIZE: int := 20
  const INTERVAL_ERROR := "interval_seconds must be >= 1800 (30 minutes)"
  const HTTP_NOT_FOUND: nat := 404

  /** What an HTTP call produced: a decoded body, an error status, or a transport failure. */
  datatype HttpResult =
    | Response(data: Json)
    | StatusError(status: nat, text: string)
    | Failure(message: string)

  /** Reading a field of a body that is not an object raises. */
  const NO_GET_ERROR := "response body is not an object"

  /** Python's `len(v)` is defined: strings, lists and objects. */
  predicate HasLen(v: Json) {
    v.JStr? || v.JArr? || v.JObj?
  }

  /** Python's `v[:20]` is defined: strings and lists. */
  predicate IsSliceable(v: Json) {
    v.JStr? || v.JArr?
  }

  /** The message the client raises for an error status. */
  function StatusMessage(status: nat, text: string): string {
    "HTTP " + NatToString(status) + ": " + text
  }

  /** The body of the creation request. */
  function CreatePayload(query: string, intervalSeconds: int, webhookUrl: Option<string>,
                         outputSchema: Json, timezone: string): (p: map<string, Json>)
    ensures "query" in p && p["query"] == JStr(query)
    ensures "output_interval" in p && p["output_interval"] == JInt(intervalSeconds)
    ensures "user_timezone" in p && p["user_timezone"] == JStr(timezone)
    ensures "skip_email" in p && p["skip_email"] == JBool(true)
    ensures "webhook_url" in p <==> IsTruthy(OfOption(webhookUrl))
    ensures "webhook_url" in p ==> p["webhook_url"] == OfOption(webhookUrl)
    ensures "task_spec" in p <==> IsTruthy(outputSchema)
    ensures "task_spec" in p ==>
      p["task_spec"] == JObj(map["output_schema" := JObj(map["json_schema" := outputSchema])])
    ensures p.Keys <= {"query", "output_interval", "user_timezone", "skip_email", "webhook_url", "task_spec"}
  {
    var base := map[
      "query" := JStr(query),
      "output_interval" := JInt(intervalSeconds),
      "user_timezone" := JStr(timezone),
      "skip_email" := JBool(true)];
    var withHook := if IsTruthy(OfOption(webhookUrl)) then base["webhook_url" := OfOption(webhookUrl)] else base;
    if IsTruthy(outputSchema) then
      withHook["task_spec" := JObj(map["output_schema" := JObj(map["json_schema" := outputSchema])])]
    else withHook
  }

  /**
   * `create_scout`: a short interval fails before any request; otherwise
   * the service's decoded answer, or the failure of the call.
   */
  function CreateScout(query: string, intervalSeconds: int, webhookUrl: Option<string>, outputSchema: Json,
                       timezone: string, post: map<string, Json> -> HttpResult): (r: Result<Json, string>)
    ensures intervalSeconds < MIN_INTERVAL_SECONDS ==> r == Err(INTERVAL_ERROR)
    ensures intervalSeconds >= MIN_INTERVAL_SECONDS ==>
      var answer := post(CreatePayload(query, intervalSeconds, webhookUrl, outputSchema, timezone));
      && (answer.Response? && answer.data.JObj? ==> r == Ok(answer.data))
      && (answer.Response? && !answer.data.JObj? ==> r.Err?)
      && (answer.StatusError? ==> r == Err(StatusMessage(answer.status, answer.text)))
      && (answer.Failure? ==> r == Err(answer.message))
    ensures r.Ok? ==> r.value.JObj?
  {
    if intervalSeconds < MIN_INTERVAL_SECONDS then Err(INTERVAL_ERROR)
    else
      match post(CreatePayload(query, intervalSeconds, webhookUrl, outputSchema, timezone))
      case Response(data) => if data.JObj? then Ok(data) else Err(NO_GET_ERROR)
      case StatusError(status, text) => Err(StatusMessage(status, text))
      case Failure(message) => Err(message)
  }

  /** A refused interval makes no request: the outcome is the same whatever the service would answer. */
  lemma ShortIntervalSendsNothing(query: string, intervalSeconds: int, webhookUrl: Option<string>, outputSchema: Json,
                                  timezone: string, p1: map<string, Json> -> HttpResult, p2: map<string, Json> -> HttpResult)
    requires intervalSeconds < MIN_INTERVAL_SECONDS
    ensures CreateScout(query, intervalSeconds, webhookUrl, outputSchema, timezone, p1)
         == CreateScout(query, intervalSeconds, webhookUrl, outputSchema, timezone, p2)
    ensures CreateScout(query, intervalSeconds, webhookUrl, outputSchema, timezone, p1).Err?
  {
  }

  /** The query parameters of an update poll. */
  function UpdateParams(cursor: Json, pageSize: int): (p: map<string, Json>)
    ensures "page_size" in p && p["page_size"] == JInt(pageSize)
    ensures "cursor" in p <==> IsTruthy(cursor)
    ensures "cursor" in p ==> p["cursor"] == cursor
    ensures p.Keys <= {"page_size", "cursor"}
  {
    var base := map["page_size" := JInt(pageSize)];
    if IsTruthy(cursor) then base["cursor" := cursor] else base
  }

  /** A normalised page of updates. */
  datatype Page = Page(items: Json, nextCursor: Json, hasMore: bool)

  const EMPTY_PAGE := Page(JArr([]), JNull, false)

  /**
   * `get_updates`: the page with `has_more` set from the cursor; a 404 is
   * an empty page, any other error a failure. A body that is not an
   * object has no `get`, items without a length cannot be counted, and a
   * truthy cursor that cannot be sliced cannot be logged: each of these
   * raises, so fails too.
   */
  function GetUpdates(scoutId: string, cursor: Json, pageSize: int,
                      get: (string, map<string, Json>) -> HttpResult): (r: Result<Page, string>)
    ensures var answer := get(scoutId, UpdateParams(cursor, pageSize));
      && (answer.Response? ==>
            (r.Ok? <==>
              && answer.data.JObj?
              && HasLen(Get(answer.data.fields, "items", JArr([])))
              && (IsTruthy(Get(answer.data.fields, "next_cursor", JNull)) ==>
                    IsSliceable(Get(answer.data.fields, "next_cursor", JNull)))))
      && (answer.Response? && r.Ok? ==>
            r.value == Page(Get(answer.data.fields, "items", JArr([])), Get(answer.data.fields, "next_cursor", JNull),
                            IsTruthy(Get(answer.data.fields, "next_cursor", JNull))))
      && (answer.StatusError? && answer.status == HTTP_NOT_FOUND ==> r == Ok(EMPTY_PAGE))
      && (answer.StatusError? && answer.status != HTTP_NOT_FOUND ==> r == Err(StatusMessage(answer.status, answer.text)))
      && (answer.Failure? ==> r.Err?)
    ensures r.Ok? ==> r.value.hasMore == IsTruthy(r.value.nextCursor)
    ensures r.Ok? ==> HasLen(r.value.items) && (IsTruthy(r.value.nextCursor) ==> IsSliceable(r.value.nextCursor))
  {
    match get(scoutId, UpdateParams(cursor, pageSize))
    case Response(data) =>
      if !data.JObj? then Err(NO_GET_ERROR)
      else
        var items := Get(data.fields, "items", JArr([]));
        var next := Get(data.fields, "next_cursor", JNull);
        if !HasLen(items) then Err("items has no len()")
        else if IsTruthy(next) && !IsSliceable(next) then Err("next_cursor is not subscriptable")
        else Ok(Page(items, next, IsTruthy(next)))
    case StatusError(status, text) =>
      if status == HTTP_NOT_FOUND then Ok(EMPTY_PAGE) else Err(StatusMessage(status, text))
    case Failure(message) => Err(message)
  }

  /** `delete_scout`: whether the request went through; failures are swallowed into `false`. */
  function DeleteScout(scoutId: string, delete: string -> HttpResult): (ok: bool)
    ensures ok <==> delete(scoutId).Response?
  {
    delete(scoutId).Response?
  }

  const MONITORING_ASPECTS: seq<string> := [
    "latest news", "announcements", "updates", "policy changes", "pricing changes",
    "product releases", "acquisitions", "funding rounds", "regulatory actions", "partnerships"]

  const ENHANCE_PREFIX := "Monitor for: "

  const ENHANCE_SUFFIX :=
    "\n\nFocus on:\n- " + Join(", ", MONITORING_ASPECTS)
    + "\n- Any significant changes or developments\n- Official statements and press releases\n\n"
    + "Provide updates with clear citations and timestamps."

  /** `enhance_monitoring_query`: the query wrapped in the monitoring instructions. */
  function EnhanceQuery(query: string): (r: string)
    ensures StartsWith(r, ENHANCE_PREFIX + query)
    ensures |r| == |ENHANCE_PREFIX| + |query| + |ENHANCE_SUFFIX|
  {
    var r := ENHANCE_PREFIX + query + ENHANCE_SUFFIX;
    assert r[..|ENHANCE_PREFIX + query|] == ENHANCE_PREFIX + query;
    r
  }

  /** The user's query can be read back out of the enhanced one. */
  lemma EnhanceQueryRecover(query: string)
    ensures var r := EnhanceQuery(query);
      r[|ENHANCE_PREFIX|..|r| - |ENHANCE_SUFFIX|] == query
  {
    var r := EnhanceQuery(query);
    assert r == ENHANCE_PREFIX + query + ENHANCE_SUFFIX;
    assert r[|ENHANCE_PREFIX|..|r| - |ENHANCE_SUFFIX|] == query;
  }

  /** Different queries give different enhanced queries. */
  lemma EnhanceQueryInjective(a: string, b: string)
    requires EnhanceQuery(a) == EnhanceQuery(b)
    ensures a == b
  {
    EnhanceQueryRecover(a);
    EnhanceQueryRecover(b);
  }

  /** With the manager's minutes-to-seconds conversion, fewer than 30 minutes always fails. */
  lemma ShortMinutesFail(query: string, minutes: int, webhookUrl: Option<string>, post: map<string, Json> -> HttpResult)
    requires minutes < 30
    ensures CreateScout(query, minutes * 60, webhookUrl, JNull, DEFAULT_TIMEZONE, post) == Err(INTERVAL_ERROR)
  {
  }
}
